=== FILE: README.md ===
# A verified model of the lox-ast front end and evaluator

This project models the core of El-Wumbus/lox-ast, a Rust interpreter for a
small Lox-style scripting language, and proves properties of the model. It
has three stages.

- **The scanner** is a single-cursor state machine over the source
  characters. It has one character of lookahead, nested block comments,
  multi-line strings and a keyword table. It records every error and keeps
  scanning.
- **The recursive-descent parser** has the tiers equality, comparison,
  term, factor, unary and primary. It parses `print`, `var` and expression
  statements, and recovers in panic mode with `synchronize`.
- **The tree-walking evaluator** covers truthiness, unary and binary
  operators (with sentinels converted to errors), short-circuit logic,
  scoped blocks, `while`/`break` with a loop-nesting counter, calls of user
  functions, and an `interpret` that halts at the first error.

The supporting pieces are also modelled: tokens, value display, error
records and their report lines, the flat variable table, the scope stack
and the AST printer.

Every stage is a pure function over immutable datatypes. The scanner and
parser recurse on the remaining input. The evaluator threads a state: the
scope stack, the loop counter, the values printed so far, and a counter for
fresh callable handles. It spends one unit of fuel per step, because
`while` may diverge.

Module layout:

- `Tokens` holds the token kinds. `Ast` holds values, tokens and the tree
  (they refer to each other).
- `Numerals` and `Display` produce text. `Errors` holds error records and
  report lines.
- `Environments` is one variable table; `Scopes` is the chain of tables.
- `Scanner` and `ScannerLemmas` cover scanning.
- `Parser`, `ParserLemmas` and `ProgramLemmas` cover parsing.
- `Operators`, `Callables`, `Interpreter` and `InterpreterLemmas` cover
  evaluation. `AstPrinter` is the expression printer.

Where the sources disagree, the model follows the code the interpreter runs. The one parser bug found is modelled as written, and its correction is kept beside it (see Findings). Further choices:

- The value type is the one in `src/object.rs`, with `Bool(b)`. The older
  copy in `src/tokens.rs` has separate `True` and `False` variants. The
  model adds a callable variant and the two operator sentinels.
- `LoxResult` has no definition among these files. It is modelled after its
  uses: a runtime error, `Break`, or `Return` carrying a value.
- The evaluator is `src/interpreter/mod.rs`. It has no visitor for call
  expressions, function declarations or `return`.
  - Those three follow the published design of the Lox language, which
    these sources implement: the callee first, then the arguments left to
    right, then a runtime error if the callee is not callable or if the
    argument count differs from its arity. That design names the two
    checks but not their wording, and no file of the program has either
    message. The texts the model uses ("Can only call functions and
    classes.", "Expected N arguments but got M.") are its own choice.
  - The published Lox design describes a closure over the declaring scope. The code in
    `src/interpreter/lox_function.rs` encloses the globals instead, and the
    model does that.

## Model

| member | source | states |
|---|---|---|
| Tokens.KindNameRoundTrip | src/tokens.rs:102-107 | reading a kind's debug name back gives that kind |
| Tokens.KindNameInjective | src/tokens.rs:102-107 | distinct token kinds have distinct debug names, so a token's display identifies its kind |
| Numerals.NatText | src/error.rs:62 | a line number is written as decimal digits with no leading zero |
| Numerals.NatTextRoundTrip | src/error.rs:74 | the decimal text of a line number reads back as that number |
| Numerals.NatTextInjective | src/error.rs:74 | distinct line numbers are written differently |
| Display.CallableText | src/object/callable.rs:38-41 | a callable value displays as `Function` whatever its handle and declaration |
| Display.TokenTextSplits | src/tokens.rs:102-115 | for a lexeme without spaces, kind, lexeme and literal text can be cut back out of the display |
| Errors.ReportEndsWithMessage | src/error.rs:56-76 | every report line ends with the message |
| Errors.ReportOfTokenErrorNamesTokenLine | src/error.rs:58-69 | a report with a token names that token's line right after `Error: ` |
| Errors.ReportOfLineErrorRecoversLine | src/error.rs:74 | the line number in a token-less report can be read back exactly |
| Environments.Define | src/interpreter/environment.rs:18 | `define` adds or replaces exactly one binding and keeps all others |
| Environments.NewGetFails | src/interpreter/environment.rs:91-103 | every lookup in a new table fails with the undefined-variable message |
| Environments.DefineThenGet | src/interpreter/environment.rs:69-88 | after `define(n, v)`, `get` of a token with lexeme `n` is `v` |
| Environments.RedefineOverwrites | src/interpreter/environment.rs:55-66 | a second `define` of a name overwrites the first |
| Environments.DefineFrames | src/interpreter/environment.rs:18 | `define` leaves every other name's lookup unchanged |
| Environments.GetKeyedByLexeme | src/interpreter/environment.rs:22 | lookup depends on the lexeme only; the line appears only in the failure |
| Scopes.Push | src/interpreter/mod.rs:51-55 | entering a block adds one fresh innermost scope above the unchanged outer ones |
| Scopes.Find | src/interpreter/mod.rs:173 | the innermost scope binding a name, or none if no scope binds it |
| Scopes.Lookup | src/interpreter/mod.rs:171-174 | chain lookup succeeds exactly when some scope binds the lexeme and returns the innermost binding; otherwise the undefined-variable error |
| Scopes.AssignIn | src/interpreter/mod.rs:176-184 | chain assignment succeeds exactly when some scope binds the name, keeps every scope's names, and a lookup afterwards gives the new value |
| Scopes.DefineLocal | src/interpreter/mod.rs:44-47 | `define` on the current scope: outer scopes unchanged, the name added to the innermost one with the value |
| Scopes.DefineLocalShadows | src/interpreter/mod.rs:33-49 | a freshly defined local is what lookup finds, whatever the outer scopes hold |
| Scopes.AssignReachesOuter | src/interpreter/mod.rs:176-184 | assigning to a name bound only outside the current scope changes the outer binding, which survives dropping the inner scope |
| Scanner.LineCommentEnd | src/lexer/scanner.rs:147-160 | a `//` comment ends at the next line break or the end of the input, without consuming the break |
| Scanner.ScanComment | src/lexer/scanner.rs:199-247 | a block comment either closes on a `*/` or runs to the end; the line counts every break inside it |
| Scanner.CommentDepthMatches | src/lexer/scanner.rs:199-247 | the recursive comment scanner agrees with a nesting-depth counter at every depth |
| Scanner.ScanCommentIsBalanced | src/lexer/scanner.rs:199-247 | a block comment ends where the nesting depth first returns to zero |
| Scanner.StringEnd | src/lexer/scanner.rs:321-336 | a string body runs to the first `"` or the end, counting line breaks |
| Scanner.DigitsEnd | src/lexer/scanner.rs:282-288 | a digit run is maximal |
| Scanner.IdentEnd | src/lexer/scanner.rs:249-255 | an identifier run is a maximal run of letters, digits and `_` |
| Scanner.ScanOperator | src/lexer/scanner.rs:97-144 | `!`, `=`, `<`, `>` take the two-character kind exactly when `=` follows, consuming it |
| Scanner.ScanToken | src/lexer/scanner.rs:81-197 | every step consumes at least one character, advances the line by the breaks consumed, and emits the consumed text on the current line, never with an error |
| Scanner.ScanFrom | src/lexer/scanner.rs:49-68 | the loop keeps earlier tokens and errors and closes with exactly one end-of-input token on the final line |
| Scanner.ScanAll | src/lexer/scanner.rs:44-68 | line counting starts at 1; the list ends with one end-of-input token and has no other |
| ScannerLemmas.ScanFromFailsIffStepFails | src/lexer/scanner.rs:53-65 | the scan loop records an error exactly when one of the steps it takes fails |
| ScannerLemmas.ScanTokensVerdict | src/lexer/scanner.rs:48-78 | `scan_tokens` fails exactly when some step of the scan from line 1 fails; when it succeeds, its list ends with the end-of-input token on line 1 plus the number of line breaks and has no other |
| ScannerLemmas.BadFirstCharacterFails | src/lexer/scanner.rs:186-195 | a source whose first character no rule accepts fails to scan |
| ScannerLemmas.EofClosesScan | src/lexer/scanner.rs:44-68 | exactly one end-of-input token, at the end, on line 1 plus the number of line breaks, errors or not |
| ScannerLemmas.BadCharacterDoesNotStopScan | src/lexer/scanner.rs:186-195 | an unknown character records "Unexpected character 'c'" on the current line and scanning resumes at the next character |
| ScannerLemmas.StepErrorIsRecorded | src/lexer/scanner.rs:53-65 | a failing step's error is kept in the scan's error list, after the earlier ones |
| ScannerLemmas.OperatorsWithEqual | src/lexer/scanner.rs:97-144 | a two-character kind exactly when `=` follows |
| ScannerLemmas.LineCommentSkipsToNewline | src/lexer/scanner.rs:147-160 | a `//` comment emits nothing and stops before the line break |
| ScannerLemmas.BlockCommentNests | src/lexer/scanner.rs:161-165 | a block comment emits nothing, counts lines, ends at depth zero, and fails with "Unterminated block comment." at the end of the input |
| ScannerLemmas.StringLiteral | src/lexer/scanner.rs:321-353 | the literal is the text between the quotes, the lexeme includes them, lines are counted, and a missing quote is "Unterminated String" |
| ScannerLemmas.StringLiteralDisplays | src/object.rs:17-20 | a scanned string literal displays as the text between its quotes, and its token as `String`, the quoted lexeme, then that text |
| ScannerLemmas.NumberLexeme | src/lexer/scanner.rs:282-304 | digits, then `.` and digits only when a digit follows the dot; maximal; the value is the text's decimal value |
| ScannerLemmas.TrailingDotIsSeparate | src/lexer/scanner.rs:92 | `1.` scans as a number `1` followed by a `Dot` token |
| ScannerLemmas.IdentifierOrKeyword | src/lexer/scanner.rs:249-270 | a maximal identifier run gets a keyword kind exactly when its text is in the table |
| ScannerLemmas.WhitespaceEmitsNothing | src/lexer/scanner.rs:172-176 | whitespace emits nothing; a line break adds one line |
| ScannerLemmas.TokenIsSourceSlice | src/lexer/scanner.rs:369-376 | every token's lexeme is the source slice of its step, on the step's line |
| Parser.Advance | src/parse.rs:339-346 | the cursor never moves past the end-of-input token |
| Parser.MatchAny | src/parse.rs:314-325 | consumes one token exactly when the next token is not the end and its kind is in the list |
| Parser.Expression | src/parse.rs:46 | an expression parse stays inside the tokens and consumes at least one token when it succeeds |
| Parser.Tier | src/parse.rs:115-197 | each binary tier parses an operand, then its operators, and never moves backwards; what it builds is stated by `ParserLemmas.TierRestStep`, `TierRestStops` and `TierFolds` |
| ParserLemmas.TierRestStep | src/parse.rs:115-197 | an operator of the tier followed by an operand folds into a binary node with the left side built so far, and the loop goes on after the operand |
| ParserLemmas.TierRestStops | src/parse.rs:115-197 | the tier's loop stops, returning the left side unchanged, at the end or at a token that is not one of its operators |
| ParserLemmas.TierFolds | src/parse.rs:115-197 | on the canonical tokens of a tree of at least the tier's precedence, the tier reads the whole tree and then continues its loop from there |
| Parser.Unary | src/parse.rs:200-212 | a unary parse progresses on success |
| Parser.Primary | src/parse.rs:222-265 | a primary parse progresses on success |
| Parser.Grouping | src/parse.rs:248-255 | a group parse progresses on success |
| Parser.VarDeclaration | src/parse.rs:84-103 | as written: the name is required, an initializer follows `=`, a `;` that is there is consumed, and a missing `;` does not fail the declaration; it never moves backwards. The behaviour is stated by `ProgramLemmas.VarNeedsName`, `VarTailWithoutSemicolon` and `VarUnparses` (see Findings) |
| Parser.VarDeclarationCorrected | src/parse.rs:84-103 | the intended rule, which also fails on a missing `;`; it never moves backwards |
| Parser.Synchronize | src/parse.rs:285-311 | recovery consumes at least one token unless at the end, stops at the first point just after `;` or before `class`/`var`/`for`/`if`/`while`/`print`/`return` or at the end, and skips no such point |
| Parser.Declaration | src/parse.rs:48-64 | as written: a declaration progresses on success, and a failure resynchronises without leaving the tokens; where the failure lands is stated by `ProgramLemmas.DeclarationRecovers` |
| Parser.DeclarationCorrected | src/parse.rs:48-64 | the same dispatch over the corrected variable declaration, with the same progress guarantees |
| ParserLemmas.UnparseStart | src/parse.rs:200-265 | the canonical tokens of every expression start with a token that can begin an operand |
| ParserLemmas.ParseUnparse | src/parse.rs:115-265 | parsing the canonical tokens of a well-formed expression gives back that expression and stops right after them |
| ParserLemmas.ExpressionShaped | src/parse.rs:115-265 | every parsed expression has left-associative tiers and the precedence order, so it is the parse of its own canonical tokens |
| ParserLemmas.SubtractionAssociatesLeft | src/parse.rs:161-179 | `a - b - c` parses as `(a - b) - c` |
| ParserLemmas.ProductBindsTighter | src/parse.rs:161-197 | `a + b * c` parses as `a + (b * c)` |
| ProgramLemmas.ParseProgram | src/parse.rs:35-110 | parsing the canonical tokens of well-formed statements, closed by an end-of-input token, gives back exactly those statements in order |
| ProgramLemmas.PrintUnparses | src/parse.rs:77-82 | the tokens `print`, an expression's canonical tokens and `;` parse back to that print statement, stopping after the `;` |
| ProgramLemmas.ExpressionStmtUnparses | src/parse.rs:105-110 | an expression's canonical tokens followed by `;` parse back to that expression statement, stopping after the `;` |
| ProgramLemmas.VarUnparses | src/parse.rs:84-103 | the canonical tokens of `var x;` or `var x = e;` parse back to that declaration, stopping after the `;` |
| ProgramLemmas.DeclarationUnparses | src/parse.rs:48-110 | the canonical tokens of one well-formed statement parse back to it as one declaration, which stops right after its `;` |
| ProgramLemmas.ParseDeclares | src/parse.rs:35-44 | the loop of `parse` collects, in order, the statements that successive declarations yield until the end of input |
| ProgramLemmas.ParseUnparseAll | src/parse.rs:35-110 | statement blocks laid one after another up to the end-of-input token declare exactly those statements, in order |
| ProgramLemmas.ParseShaped | src/parse.rs:35-110 | every statement `parse` returns is well-formed |
| ProgramLemmas.StatementShaped | src/parse.rs:67-110 | a `print` or expression statement that succeeds is well-formed and ends with its `;` |
| ProgramLemmas.DeclarationShaped | src/parse.rs:48-110 | a declaration that succeeds is well-formed, and unless it is a `var` declaration it ends with its `;` |
| ProgramLemmas.ParseStopsAtFirstError | src/parse.rs:35-44 | `parse` returns the first failing declaration's error and looks at nothing after it |
| ProgramLemmas.DeclarationRecovers | src/parse.rs:59-63 | a failed declaration leaves the cursor past the failing token at a recovery point |
| ProgramLemmas.ExpressionNeedsOperand | src/parse.rs:262-265 | a token that can begin no operand fails "Expect expression" on line 0 without consuming |
| ProgramLemmas.UnclosedGroup | src/parse.rs:248-251 | a group without `)` fails "Expect ')' after expression" at the token found instead |
| ProgramLemmas.VarWithoutSemicolonAccepted | src/parse.rs:97-102 | as written, `var x` followed by the end of the input is accepted; the corrected rule rejects it at the end-of-input token |
| ProgramLemmas.ProgramWithoutSemicolonParses | src/parse.rs:35-44 | as written, the program `var x` parses to the one statement `var x;`; the corrected parser fails with "Expected ';' after variable decalaration." |
| ProgramLemmas.VarNeedsName | src/parse.rs:86 | without an identifier after `var`, both rules fail with "Expected variable name" at the token found, without consuming it |
| ProgramLemmas.VarTailWithoutSemicolon | src/parse.rs:97-102 | as written, a name and optional initializer followed by anything but `;` are accepted, stopping at that token; the corrected rule fails there with "Expected ';' after variable decalaration." |
| ProgramLemmas.VarBeforePrintAccepted | src/parse.rs:48-64 | in `var x print …`, as written `var x` is accepted and the next declaration starts at `print`; the corrected parser fails at `print` |
| ProgramLemmas.VarDeclarationNeedsSemicolon | src/parse.rs:84-103 | the corrected declaration only succeeds by consuming its `;` |
| ProgramLemmas.VarCorrectionOnlyRejects | src/parse.rs:97-102 | the correction only turns successes into failures: the two rules agree wherever the corrected one succeeds or the written one fails, and differ only where no `;` follows, at the same position |
| ProgramLemmas.DeclarationCorrectionOnlyRejects | src/parse.rs:48-64 | the same at declaration level: they differ only on a `var` declaration that stops before a token other than `;` |
| ProgramLemmas.DeclarationCorrectedShaped | src/parse.rs:48-110 | every declaration the corrected parser accepts is well-formed and ends with its `;` |
| ProgramLemmas.ParseCorrectedAgrees | src/parse.rs:35-44 | every program the corrected parser accepts is read by the parser as written into the same statements |
| Callables.CallableEqIsEquivalence | src/object/callable.rs:11-17 | the model's callable equality (see Left out) is an equivalence, and it fails for different handles or different arities |
| AstPrinter.Parenthesize | src/_ast_printer.rs:10-20 | `(` + name, then a space and each child's text in order, then `)` |
| AstPrinter.FoldIsSpaced | src/_ast_printer.rs:12-17 | the builder loop equals the reference form "a space before each child" |
| AstPrinter.Print | src/_ast_printer.rs:25-48 | binary `(<op> <left> <right>)`, grouping `(group <inner>)`, unary `(<op> <operand>)`, a literal as its display or `nil` |
| AstPrinter.CompoundPrintsParenthesised | src/_ast_printer.rs:25-32 | every non-literal node prints as one parenthesised group |
| AstPrinter.NestedBinary | src/_ast_printer.rs:25-28 | `1 + 2 * 3` prints as `(+ 1 (* 2 3))` |
| Interpreter.Eval | src/interpreter/mod.rs:106-204 | evaluating an expression never creates or removes a binding in any scope, and never takes back output or lowers the loop counter |
| Interpreter.EvalArgs | src/interpreter/lox_function.rs:31 | the argument values `call` receives, evaluated left to right as the published Lox design has it (no argument evaluation is among these files): one value per argument expression on success, and no binding created or removed |
| Interpreter.CallValue | src/object/callable.rs:28-36 | a call delegates to the wrapped function without creating or removing bindings |
| Interpreter.CallFunction | src/interpreter/lox_function.rs:31-46 | after a call, the caller's local scopes are exactly as before, and the globals keep their names |
| Interpreter.Exec | src/interpreter/mod.rs:17-104 | a statement only adds names to the current scope; outer scopes keep exactly their names |
| Interpreter.Loop | src/interpreter/mod.rs:73-88 | the loop only adds names to the current scope, and lowers the counter by at most the one raised on entry |
| Interpreter.ExecSeq | src/interpreter/mod.rs:239-248 | a statement list only adds names to the current scope |
| Interpreter.RunAll | src/interpreter/mod.rs:226-233 | output printed by earlier statements is kept |
| InterpreterLemmas.IfChoosesBranch | src/interpreter/mod.rs:57-71 | the then-branch runs exactly when the condition is neither `nil` nor `false`; else the else-branch, or nothing |
| InterpreterLemmas.IfConditionErrorPropagates | src/interpreter/mod.rs:59 | a failing condition fails the `if` before either branch runs |
| InterpreterLemmas.UnaryRules | src/interpreter/mod.rs:151-169 | `-` negates a number and gives `nil` otherwise; `!` negates truthiness; any other kind is "Unreachable error"; the operand's failure propagates |
| InterpreterLemmas.UnaryTests | src/interpreter/mod.rs:265-292 | `-123.5` is -123.5 and `!false` is true |
| InterpreterLemmas.BinaryOfLiterals | src/interpreter/mod.rs:113-144 | a binary node applies its operator, turns a sentinel into "Illegal expression" at the operator, and panics on a kind outside the table |
| InterpreterLemmas.BinaryNeverYieldsSentinel | src/interpreter/mod.rs:133-143 | a binary node never produces a sentinel value |
| InterpreterLemmas.BinaryLeftFirst | src/interpreter/mod.rs:115-116 | the left operand is evaluated first, and if it fails the right one is never evaluated |
| InterpreterLemmas.ArithmeticTests | src/interpreter/mod.rs:296-413 | the arithmetic test cases, with `15 - true` and `15 > true` as "Illegal expression" errors |
| InterpreterLemmas.ComparisonTests | src/interpreter/mod.rs:417-528 | the comparison test cases |
| InterpreterLemmas.EqualityTests | src/interpreter/mod.rs:532-665 | the equality test cases; `nil == nil` is true and `nil == 15` is false, not an error |
| InterpreterLemmas.LogicalShortCircuit | src/interpreter/mod.rs:186-203 | a deciding left operand (`or` truthy, otherwise falsy) is the result and the right operand is never evaluated; otherwise the result is the right operand's |
| InterpreterLemmas.VarBinds | src/interpreter/mod.rs:33-49 | `var` binds the initializer's value, or `nil` without one, under the lexeme in the current scope |
| InterpreterLemmas.VariableInitTest | src/interpreter/mod.rs:667-714 | after `var foo = 23;`, evaluating `foo` gives 23 |
| InterpreterLemmas.VariableNilTest | src/interpreter/mod.rs:684-698 | after `var foo;`, evaluating `foo` gives `nil` |
| InterpreterLemmas.UndefinedVariableTest | src/interpreter/mod.rs:716-724 | an unbound `foo` is "Undefined variable 'foo'." |
| InterpreterLemmas.AssignYieldsValue | src/interpreter/mod.rs:176-184 | assignment stores the value and yields that same value; an unbound name is the undefined-variable error with nothing stored |
| InterpreterLemmas.ExecSeqAppend | src/interpreter/mod.rs:243-245 | a block's statements stop at the first one that does not complete normally |
| InterpreterLemmas.BlockRestoresScopes | src/interpreter/mod.rs:239-248 | leaving a block by any outcome restores the previous scopes, each with exactly its names; names bound nowhere before stay unbound |
| InterpreterLemmas.BlockDeclarationIsLocal | src/interpreter/mod.rs:51-55 | a block that only declares a variable leaves the state exactly as it was |
| InterpreterLemmas.BreakRule | src/interpreter/mod.rs:90-103 | `break` is "Cannot break outside of loop" at its token when the counter is zero, and the `Break` signal otherwise |
| InterpreterLemmas.WhileFalseSkipsBody | src/interpreter/mod.rs:73-88 | a condition that is falsy at once ends the loop with the counter lowered back, whatever the body is |
| InterpreterLemmas.WhileBreakCompletes | src/interpreter/mod.rs:75-87 | `while (true) break;` completes and leaves the state as it was, the counter included |
| InterpreterLemmas.LoopCounterStaysRaisedOnError | src/interpreter/mod.rs:75-76 | a loop left through an error leaves the counter one higher than before |
| InterpreterLemmas.RunAllAppend | src/interpreter/mod.rs:226-233 | the statement loop halts at the first statement that raises anything; later statements never run |
| InterpreterLemmas.RunAllVerdict | src/interpreter/mod.rs:223-234 | the run is `true` exactly when every statement completes, and `false` when one raises |
| InterpreterLemmas.InterpretVerdict | src/interpreter/mod.rs:223-234 | `interpret` runs the statements with the loop counter reset to zero; it answers `true` exactly when they all complete, and its state is the one they leave |
| InterpreterLemmas.TopLevelBreakFails | src/interpreter/mod.rs:225-231 | `interpret` resets the counter, so a top-level `break` fails the run from any state |
| InterpreterLemmas.BindParamsBinds | src/interpreter/lox_function.rs:35-38 | the i-th parameter is bound to the i-th argument for i below both lengths, unless a later parameter has the same name |
| InterpreterLemmas.BindParamsKeeps | src/interpreter/lox_function.rs:35-38 | binding leaves every name that no bound parameter has as it was |
| InterpreterLemmas.CallResult | src/interpreter/lox_function.rs:40-45 | a `Return` signal is the call's value, normal completion gives `nil`, any other signal propagates unchanged |
| InterpreterLemmas.CallIgnoresCallerLocals | src/interpreter/lox_function.rs:33 | the body sees the globals only: callers that differ only in local scopes get the same result |
| InterpreterLemmas.CallChecks | src/object/callable.rs:28-36 | only a callable with arity equal to the argument count is invoked; otherwise a runtime error at the parenthesis |
| InterpreterLemmas.FunctionDeclarationBinds | src/interpreter/lox_function.rs:19-26 | a declaration binds its name to a callable with a fresh handle whose arity is the parameter count |
| InterpreterLemmas.ReturnSignals | src/interpreter/lox_function.rs:42 | `return` raises the `Return` signal with its value, or `nil` without one |

## Left out

- The CLI and REPL driver (`src/lox.rs`, `src/main.rs`) are not modelled. They do file and terminal I/O and set exit codes.
- `src/interpreter/native_functions.rs` is not modelled. The clock function reads the system time.
- The earlier snapshots (`src/interpreter/interpreter.rs`, `src/interpreter.rs`, `src/lexer.rs`, `src/scanner.rs`) are superseded by the modelled files.
- The build-time generator (`tools/generate_ast.rs`, `build.rs`) is not modelled. Its variant list is the `Expr`/`Stmt` datatypes.
- Numbers are exact reals. The model has no f64 rounding, NaN, infinities or division by zero.
- Number text is not modelled in either direction. Display takes a `numText` parameter, and a number lexeme's value is its exact decimal value where the source calls `parse::<f64>`.
- The binary operators on values (subtraction, comparison, equality and so on) are not among these files. `Operators.Lawful` assumes only the instances the evaluator's tests fix, and the lemmas rely on nothing else.
- Chain lookup and chain assignment (`new_with_enclosing`, `assign`) are not among these files. `Scopes` states them as an assumed interface.
- Output to the terminal is not modelled. `print` appends the value to a trace, and the report line is a pure string function; its `eprintln!` at construction is not modelled.
- Shared ownership (`Rc`, `RefCell`) is modelled by value. The shared function object behind a callable is named by a handle number, fresh for each declaration.
- Callables.CallableEq: the source compares the addresses of the two wrappers' own `func` fields (`std::ptr::eq`, src/object/callable.rs:15), so two clones of one callable compare unequal and a callable equals only itself. The model compares the shared handle and the arity (the `Rc::ptr_eq` reading), because a value model has no wrapper addresses; it therefore calls clones equal where the source does not.
- `Token::get_identifier` is not among these files. A parameter's and a function's name are taken to be the token's lexeme.
- Interpreter.CallValue: the messages of the two call checks ("Can only call functions and classes.", "Expected N arguments but got M.") are the model's wording, not the program's, because the program has no call visitor that would fix them.
- Interpreter.Eval: a call runs with the fuel left to the calling expression. A program that runs out of fuel has the outcome `OutOfFuel`, which the source does not have.
- AstPrinter.Print: variable nodes and node kinds without a printing rule are excluded by the precondition. Variable printing is `todo!()` in the source. Because no printable node fails, the `Result` wrapper is dropped.
- The parser's `Parse` and `ParseCorrected` have no contract of their own. Their properties are the lemmas in `ProgramLemmas`.
- Constructors and accessors that only store or forward their inputs (`Token::new`, `Token::eof`, the displays of plain values and of tokens, the keyword lookup, `scan_tokens`, the error constructors, `Environment::new` and `get`, `consume`, the operator dispatch, the callable accessors, `IsTruthy`, the parameter binder) have no row of their own. Their behaviour is stated by the lemmas about them: `EofClosesScan`, `StringLiteralDisplays`, `TokenTextSplits`, `IdentifierOrKeyword`, `ScanTokensVerdict`, `ReportOfLineErrorRecoversLine`, `ReportOfTokenErrorNamesTokenLine`, `ReportEndsWithMessage`, `NewGetFails`, `DefineThenGet`, `UnclosedGroup`, `BinaryOfLiterals`, `IfChoosesBranch`, `UnaryRules`, `LogicalShortCircuit`, `BindParamsBinds`, `BindParamsKeeps`, `CallChecks` and `FunctionDeclarationBinds`.
- Interpreter.RunAll: a panic (`unwrap` of a missing literal, `todo!()` for an unknown operator) is the outcome `Abort`, not a process abort.

## Findings

| source | as written | input that shows it | evidently intended | confidence | as-written member | corrected member |
|---|---|---|---|---|---|---|
| src/parse.rs:97-100 | `var_declaration` calls `consume` for the trailing `;` and discards its result; the error it builds is printed to stderr when it is constructed (src/error.rs:32-41), but it is never returned, so the declaration succeeds | `var x` followed directly by the end-of-input token is accepted as `VarStmt(x, None)`; in `var x print 1 ;` the `var` declaration is likewise accepted and `print 1 ;` is parsed as the next declaration | a missing `;` fails the declaration with "Expected ';' after variable decalaration.", like the other statements | not executed | ProgramLemmas.VarWithoutSemicolonAccepted | ProgramLemmas.VarDeclarationNeedsSemicolon |

`Parser.VarDeclaration`, `Parser.Declaration` and `Parser.Parse` model the code as written, and the rest of the model uses them. `Parser.VarDeclarationCorrected`, `Parser.DeclarationCorrected` and `Parser.ParseCorrected` propagate the failed `consume`. `ProgramLemmas.DeclarationCorrectionOnlyRejects` and `ProgramLemmas.ParseCorrectedAgrees` relate the two versions.

=== FILE: ast.dfy ===
/** Runtime values, tokens and the syntax tree. Values, tokens and tree
    nodes refer to each other (a token may carry a literal value, a
    function value carries its declaration's body), so they are declared
    together. The expression and statement variants, and their names, are the
    ones the build-time generator emits. */
module Ast {
  import opened Tokens

  /** A dynamic value. `ArithmeticError` and `ComparisonError` are the
      sentinels an operator returns when it is not defined for its
      operands; the evaluator turns them into runtime errors. */
  datatype Object =
    | Num(n: real)
    | Str(s: string)
    | Bool(b: bool)
    | Nil
    | Call(callable: Callable)
    | ArithmeticError
    | ComparisonError
  {
    predicate IsSentinel() {
      ArithmeticError? || ComparisonError?
    }
  }

  /** A user function: the declaration's name, parameters and body. */
  datatype LoxFunction = LoxFunction(name: Token, params: seq<Token>, body: seq<Stmt>)

  /** A callable value. `id` stands for the identity of the shared handle
      the wrapper holds; equality of callables compares it. */
  datatype Callable = Callable(id: nat, func: LoxFunction)

  datatype Token = Token(kind: TokenType, lexeme: string, literal: Option<Object>, line: nat)

  datatype Option<T> = None | Some(value: T)

  datatype Expr =
    | AssignExpr(name: Token, newValue: Expr)
    | BinaryExpr(left: Expr, operator: Token, right: Expr)
    | CallExpr(callee: Expr, paren: Token, arguments: seq<Expr>)
    | GroupingExpr(expression: Expr)
    | LiteralExpr(literal: Option<Object>)
    | LogicalExpr(left: Expr, operator: Token, right: Expr)
    | UnaryExpr(operator: Token, right: Expr)
    | VariableExpr(name: Token)

  datatype Stmt =
    | BlockStmt(statements: seq<Stmt>)
    | BreakStmt(token: Token)
    | ExpressionStmt(expression: Expr)
    | FunctionStmt(name: Token, params: seq<Token>, body: seq<Stmt>)
    | IfStmt(condition: Expr, thenBranch: Stmt, elseBranch: Option<Stmt>)
    | PrintStmt(expression: Expr)
    | ReturnStmt(keyword: Token, result: Option<Expr>)
    | VarStmt(name: Token, initializer: Option<Expr>)
    | WhileStmt(condition: Expr, loopBody: Stmt)

  /** `Token::new`: every field is stored as given. */
  function NewToken(kind: TokenType, lexeme: string, literal: Option<Object>, line: nat): (t: Token)
    ensures t.kind == kind && t.lexeme == lexeme && t.literal == literal && t.line == line
  {
    Token(kind, lexeme, literal, line)
  }

  /** `Token::eof`: the end-of-input marker on line `line`. */
  function EofToken(line: nat): (t: Token)
    ensures t.kind == Eof && t.lexeme == [] && t.literal == None && t.line == line
  {
    Token(Eof, "", None, line)
  }
}

=== FILE: ast_printer.dfy ===
/** The prefix-notation serialiser for expressions. Only binary, grouping,
    literal and unary nodes have a printing rule; the variable rule is an
    unfinished stub and the other node kinds have none, so those trees are
    outside the printer's domain. */
module AstPrinter {
  import opened Tokens
  import opened Ast
  import opened Display

  /** Trees made only of nodes the printer handles, whose literal values
      have a display form. */
  predicate Printable(e: Expr) {
    match e
    case BinaryExpr(l, _, r) => Printable(l) && Printable(r)
    case GroupingExpr(x) => Printable(x)
    case LiteralExpr(lit) => lit.Some? ==> !lit.value.IsSentinel()
    case UnaryExpr(_, r) => Printable(r)
    case _ => false
  }

  /** Reference form of the children's part: a space before each one. */
  function Spaced(parts: seq<string>): string {
    if |parts| == 0 then "" else " " + parts[0] + Spaced(parts[1..])
  }

  /** The builder loop: each child appends a space and its text. */
  function Fold(builder: string, parts: seq<string>): string
    decreases |parts|
  {
    if |parts| == 0 then builder else Fold(builder + " " + parts[0], parts[1..])
  }

  /** `parenthesize`, given the children's texts. */
  function Parenthesize(name: string, parts: seq<string>): (r: string)
    ensures r == "(" + name + Spaced(parts) + ")"
  {
    FoldIsSpaced("(" + name, parts);
    Fold("(" + name, parts) + ")"
  }

  /** The builder loop puts a space before every child, in order. */
  lemma {:induction false} FoldIsSpaced(builder: string, parts: seq<string>)
    ensures Fold(builder, parts) == builder + Spaced(parts)
    decreases |parts|
  {
    if |parts| > 0 {
      FoldIsSpaced(builder + " " + parts[0], parts[1..]);
      assert builder + " " + parts[0] + Spaced(parts[1..]) == builder + (" " + parts[0] + Spaced(parts[1..]));
    }
  }

  /** `parenthesize` with one child and with two children. */
  lemma ParenthesizeFew(name: string, a: string, b: string)
    ensures Parenthesize(name, [a]) == "(" + name + " " + a + ")"
    ensures Parenthesize(name, [a, b]) == "(" + name + " " + a + " " + b + ")"
  {
    assert [a][1..] == [];
    assert [a, b][1..] == [b];
    assert [b][1..] == [];
    assert Spaced([a]) == " " + a;
    assert Spaced([a, b]) == " " + a + " " + b;
    assert "(" + name + (" " + a) + ")" == "(" + name + " " + a + ")";
    assert "(" + name + (" " + a + " " + b) + ")" == "(" + name + " " + a + " " + b + ")";
  }

  /** `print`: binary and unary nodes under their operator's lexeme,
      grouping under `group`, literals as their display or `nil`. */
  function Print(e: Expr, numText: real -> string): (r: string)
    requires Printable(e)
    ensures e.BinaryExpr? ==>
              r == "(" + e.operator.lexeme + " " + Print(e.left, numText) + " " + Print(e.right, numText) + ")"
    ensures e.GroupingExpr? ==> r == "(group " + Print(e.expression, numText) + ")"
    ensures e.UnaryExpr? ==> r == "(" + e.operator.lexeme + " " + Print(e.right, numText) + ")"
    ensures e.LiteralExpr? ==>
              r == (if e.literal.Some? then ObjectText(e.literal.value, numText) else "nil")
  {
    match e
    case BinaryExpr(l, op, rt) =>
      var a := Print(l, numText);
      var b := Print(rt, numText);
      ParenthesizeFew(op.lexeme, a, b);
      Parenthesize(op.lexeme, [a, b])
    case GroupingExpr(x) =>
      var a := Print(x, numText);
      ParenthesizeFew("group", a, "");
      assert "(" + "group" + " " + a + ")" == "(group " + a + ")";
      Parenthesize("group", [a])
    case LiteralExpr(lit) =>
      if lit.Some? then ObjectText(lit.value, numText) else "nil"
    case UnaryExpr(op, rt) =>
      var a := Print(rt, numText);
      ParenthesizeFew(op.lexeme, a, "");
      Parenthesize(op.lexeme, [a])
  }

  /** Every compound node prints as one parenthesised group: the output
      starts with `(` and ends with `)`; a literal prints as its display. */
  lemma {:induction false} CompoundPrintsParenthesised(e: Expr, numText: real -> string)
    requires Printable(e) && !e.LiteralExpr?
    ensures var r := Print(e, numText);
            |r| >= 2 && r[0] == '(' && r[|r| - 1] == ')'
  {
  }

  /** The printed text of `1 + 2 * 3` shows the product nested inside the
      sum, as the tree has it. */
  lemma NestedBinary(plus: Token, star: Token, numText: real -> string)
    requires plus.lexeme == "+" && star.lexeme == "*"
    requires numText(1.0) == "1" && numText(2.0) == "2" && numText(3.0) == "3"
    ensures var prod := BinaryExpr(LiteralExpr(Some(Num(2.0))), star, LiteralExpr(Some(Num(3.0))));
            var sum := BinaryExpr(LiteralExpr(Some(Num(1.0))), plus, prod);
            Printable(prod) && Printable(sum) && Print(sum, numText) == "(+ 1 (* 2 3))"
  {
    var two, three := LiteralExpr(Some(Num(2.0))), LiteralExpr(Some(Num(3.0)));
    assert Printable(two) && Printable(three);
    var prod := BinaryExpr(two, star, three);
    assert Printable(prod);
    assert Printable(LiteralExpr(Some(Num(1.0))));
    assert Print(prod, numText) == "(* 2 3)";
  }
}

=== FILE: callables.dfy ===
/** User functions and the callable wrapper around them: arity, name and
    wrapper equality. Calling one needs the evaluator and lives there. */
module Callables {
  import opened Tokens
  import opened Ast

  /** A function's arity is its number of declared parameters. */
  function Arity(f: LoxFunction): (n: nat)
    ensures n == |f.params|
  {
    |f.params|
  }

  /** A function's text form is its declaration's name. */
  function Name(f: LoxFunction): (s: string)
    ensures s == f.name.lexeme
  {
    f.name.lexeme
  }

  /** The wrapper's arity is the wrapped function's. */
  function CallableArity(c: Callable): (n: nat)
    ensures n == Arity(c.func)
  {
    Arity(c.func)
  }

  /** Callable equality, read as "the same shared function and the same
      arity": `id` names the shared function object. The source compares
      the addresses of the two wrappers' own `func` fields, under which a
      clone differs from its original; a value has no address, so the
      model compares the handle. Two wrappers around equal declarations
      but different handles differ either way. */
  predicate CallableEq(a: Callable, b: Callable) {
    a.id == b.id && CallableArity(a) == CallableArity(b)
  }

  /** `FunctionStmt` to `LoxFunction`: name, parameters and body are kept. */
  function FromDeclaration(s: Stmt): (f: LoxFunction)
    requires s.FunctionStmt?
    ensures f.name == s.name && f.params == s.params && f.body == s.body
    ensures Arity(f) == |s.params|
  {
    LoxFunction(s.name, s.params, s.body)
  }

  /** Handle equality is an equivalence, and it never relates wrappers of
      different handles or different arities. */
  lemma CallableEqIsEquivalence(a: Callable, b: Callable, c: Callable)
    ensures CallableEq(a, a)
    ensures CallableEq(a, b) ==> CallableEq(b, a)
    ensures CallableEq(a, b) && CallableEq(b, c) ==> CallableEq(a, c)
    ensures a.id != b.id ==> !CallableEq(a, b)
    ensures |a.func.params| != |b.func.params| ==> !CallableEq(a, b)
  {
  }
}

=== FILE: display.dfy ===
/** The `Display` forms of values, callables and tokens. How a number is
    written (f64 formatting) is not modelled: it is the parameter
    `numText`. */
module Display {
  import opened Tokens
  import opened Ast

  /** Display of a callable wrapper: always the word `Function`. */
  function CallableText(c: Callable): (r: string)
    ensures r == "Function"
  {
    "Function"
  }

  /** Display of a value. The sentinels have no display form; printing one
      is a broken internal contract, not a user-facing error. */
  function ObjectText(o: Object, numText: real -> string): (r: string)
    requires !o.IsSentinel()
    ensures o.Nil? ==> r == "nil"
    ensures o.Bool? ==> r == (if o.b then "true" else "false")
    ensures o.Str? ==> r == o.s
    ensures o.Num? ==> r == numText(o.n)
    ensures o.Call? ==> r == CallableText(o.callable)
  {
    match o
    case Nil => "nil"
    case Num(x) => numText(x)
    case Bool(b) => if b then "true" else "false"
    case Str(s) => s
    case Call(c) => CallableText(c)
  }

  /** The text shown for a token's literal: its display, or `None`. */
  function LiteralText(lit: Option<Object>, numText: real -> string): string
    requires lit.Some? ==> !lit.value.IsSentinel()
  {
    if lit.Some? then ObjectText(lit.value, numText) else "None"
  }

  /** Display of a token: kind name, lexeme and literal, separated by single
      spaces. */
  function TokenText(t: Token, numText: real -> string): (r: string)
    requires t.literal.Some? ==> !t.literal.value.IsSentinel()
    ensures r == KindName(t.kind) + " " + t.lexeme + " " + LiteralText(t.literal, numText)
  {
    KindName(t.kind) + " " + t.lexeme + " " + LiteralText(t.literal, numText)
  }

  /** A token whose lexeme has no space can be split back into kind and
      lexeme at the first two spaces of its display. */
  lemma {:induction false} TokenTextSplits(t: Token, numText: real -> string)
    requires t.literal.Some? ==> !t.literal.value.IsSentinel()
    requires forall i :: 0 <= i < |t.lexeme| ==> t.lexeme[i] != ' '
    ensures var r := TokenText(t, numText);
            var k := |KindName(t.kind)|;
            && r[k] == ' '
            && r[..k] == KindName(t.kind)
            && r[k + 1..k + 1 + |t.lexeme|] == t.lexeme
            && r[k + 1 + |t.lexeme|] == ' '
            && r[k + 2 + |t.lexeme|..] == LiteralText(t.literal, numText)
  {
    var r := TokenText(t, numText);
    var name := KindName(t.kind);
    assert r == name + " " + t.lexeme + " " + LiteralText(t.literal, numText);
  }
}

=== FILE: environment.dfy ===
/** One scope's variable table: a map from names to values. */
module Environments {
  import opened Ast
  import opened Errors

  datatype Environment = Environment(values: map<string, Object>)

  /** `Environment::new`: no bindings. */
  function New(): (e: Environment)
    ensures e.values == map[]
  {
    Environment(map[])
  }

  /** `define`: bind `name` to `value`, replacing any earlier binding of it. */
  function Define(e: Environment, name: string, value: Object): (r: Environment)
    ensures r.values.Keys == e.values.Keys + {name}
    ensures r.values[name] == value
    ensures forall k :: k in e.values && k != name ==> r.values[k] == e.values[k]
  {
    Environment(e.values[name := value])
  }

  /** The message for a name no scope defines. */
  function UndefinedMessage(name: string): string {
    "Undefined variable '" + name + "'."
  }

  /** `get`: look a token up by its lexeme. */
  function Get(e: Environment, name: Token): (r: Result<Object>)
    ensures r.Ok? <==> name.lexeme in e.values
    ensures r.Ok? ==> r.value == e.values[name.lexeme]
    ensures r.Err? ==> r.error == NewError(name.line, UndefinedMessage(name.lexeme))
  {
    if name.lexeme in e.values then Ok(e.values[name.lexeme])
    else Err(NewError(name.line, UndefinedMessage(name.lexeme)))
  }

  datatype Result<+T> = Ok(value: T) | Err(error: LoxError)

  /** A fresh table has no binding, so every lookup fails. */
  lemma NewGetFails(name: Token)
    ensures Get(New(), name).Err?
    ensures Get(New(), name).error.message == UndefinedMessage(name.lexeme)
  {
  }

  /** What was defined is what is read back. */
  lemma DefineThenGet(e: Environment, name: Token, value: Object)
    ensures Get(Define(e, name.lexeme, value), name) == Ok(value)
  {
  }

  /** Redefinition overwrites: the later value wins. */
  lemma RedefineOverwrites(e: Environment, name: Token, v1: Object, v2: Object)
    ensures Get(Define(Define(e, name.lexeme, v1), name.lexeme, v2), name) == Ok(v2)
  {
  }

  /** Defining one name leaves the lookup of every other name unchanged. */
  lemma DefineFrames(e: Environment, n: string, value: Object, other: Token)
    requires other.lexeme != n
    ensures Get(Define(e, n, value), other) == Get(e, other)
  {
  }

  /** Lookup depends on the lexeme alone: kind and literal never matter, and
      the line only appears in the failure. */
  lemma GetKeyedByLexeme(e: Environment, a: Token, b: Token)
    requires a.lexeme == b.lexeme
    ensures Get(e, a).Ok? == Get(e, b).Ok?
    ensures Get(e, a).Ok? ==> Get(e, a) == Get(e, b)
    ensures a.line == b.line ==> Get(e, a) == Get(e, b)
  {
  }
}

=== FILE: errors.dfy ===
/** Error records, the evaluator's non-local signals, and the text an
    error is reported with. */
module Errors {
  import opened Tokens
  import opened Ast
  import opened Numerals

  /** An error with an optional offending token, a line and a message. */
  datatype LoxError = LoxError(token: Option<Token>, line: nat, message: string)

  /** What a statement can end with besides normal completion: a genuine
      error, or one of the two control-flow signals. */
  datatype LoxResult =
    | Error(error: LoxError)
    | Break
    | Return(value: Object)

  /** `LoxError::error`: an error that only knows its line. */
  function NewError(line: nat, message: string): (e: LoxError)
    ensures e.token == None && e.line == line && e.message == message
  {
    LoxError(None, line, message)
  }

  /** `LoxError::parse_error`: located at a token, on that token's line. */
  function ParseError(token: Token, message: string): (e: LoxError)
    ensures e.token == Some(token) && e.line == token.line && e.message == message
  {
    LoxError(Some(token), token.line, message)
  }

  /** `LoxError::runtime_error`: located at a token, on that token's line. */
  function RuntimeError(token: Token, message: string): (e: LoxError)
    ensures e.token == Some(token) && e.line == token.line && e.message == message
  {
    LoxError(Some(token), token.line, message)
  }

  /** `LoxResult::new_runtime_error`. */
  function NewRuntimeError(token: Token, message: string): (r: LoxResult)
    ensures r.Error? && r.error == RuntimeError(token, message)
  {
    Error(RuntimeError(token, message))
  }

  /** The line `report(loc)` writes to the error stream. */
  function Report(e: LoxError, loc: string): (r: string)
    ensures e.token.Some? && e.token.value.kind == Eof ==>
              r == "Error: " + NatText(e.token.value.line) + " at end " + e.message
    ensures e.token.Some? && e.token.value.kind != Eof ==>
              r == "Error: " + NatText(e.token.value.line) + " at '" + e.token.value.lexeme + "' " + e.message
    ensures e.token.None? ==>
              r == "[line " + NatText(e.line) + "] Error" + loc + ": " + e.message
  {
    match e.token
    case Some(t) =>
      if t.kind == Eof then "Error: " + NatText(t.line) + " at end " + e.message
      else "Error: " + NatText(t.line) + " at '" + t.lexeme + "' " + e.message
    case None => "[line " + NatText(e.line) + "] Error" + loc + ": " + e.message
  }

  /** A report always ends with the error's message. */
  lemma ReportEndsWithMessage(e: LoxError, loc: string)
    ensures var r := Report(e, loc);
            |r| >= |e.message| && r[|r| - |e.message|..] == e.message
  {
  }

  /** A report made from a token names that token's line, so errors from
      `ParseError` and `RuntimeError` are reported on the token's own line
      rather than on anything stored beside it. */
  lemma ReportOfTokenErrorNamesTokenLine(t: Token, message: string, loc: string)
    ensures var r := Report(ParseError(t, message), loc);
            var l := NatText(t.line);
            r[..7] == "Error: " && r[7..7 + |l|] == l
  {
    var l := NatText(t.line);
    var tail := if t.kind == Eof then " at end " + message else " at '" + t.lexeme + "' " + message;
    if t.kind == Eof {
      assert Report(ParseError(t, message), loc) == "Error: " + l + tail;
    } else {
      assert Report(ParseError(t, message), loc) == "Error: " + l + tail;
    }
    PrefixParts("Error: ", l, tail);
  }

  /** The two leading parts of a concatenation can be cut back out. */
  lemma PrefixParts(a: string, b: string, c: string)
    ensures (a + b + c)[..|a|] == a && (a + b + c)[|a|..|a| + |b|] == b
  {
    assert (a + b + c)[..|a|] == a;
    assert (a + b + c)[|a|..|a| + |b|] == b;
  }

  /** Errors built by `NewError` are reported in the bracketed form, whose
      line field can be read back exactly. */
  lemma {:induction false} ReportOfLineErrorRecoversLine(line: nat, message: string, loc: string)
    ensures var r := Report(NewError(line, message), loc);
            var l := NatText(line);
            && r[..6] == "[line "
            && r[6..6 + |l|] == l
            && DigitsValue(r[6..6 + |l|]) == line
  {
    NatTextRoundTrip(line);
  }
}

=== FILE: interpreter.dfy ===
/** The tree-walking evaluator. It threads a state (the scope stack, the
    loop-nesting counter, the values printed so far and the next fresh
    callable handle) through expression evaluation and statement execution.
    `while` can run forever, so every evaluation step spends one unit of
    `fuel`; running out is its own outcome, distinct from every outcome the
    evaluator itself can produce. A Rust panic (`unwrap` of an absent
    literal, `todo!()` for an unknown binary operator) is the outcome
    `Abort`. */
module Interpreter {
  import opened Tokens
  import opened Ast
  import opened Errors
  import opened Numerals
  import opened Environments
  import opened Scopes
  import opened Operators
  import opened Callables

  datatype State = State(scopes: Scopes, loopNest: nat, printed: seq<Object>, nextId: nat)

  /** A normal result, a signal on the error channel (a runtime error,
      `Break` or `Return`), a panic, or exhausted fuel. */
  datatype Outcome<T> = Done(value: T) | Raise(signal: LoxResult) | Abort | OutOfFuel

  datatype Step<T> = Step(outcome: Outcome<T>, state: State)

  /** Re-type an outcome that carries no value. */
  function Forward<T, U>(o: Outcome<T>): (r: Outcome<U>)
    requires !o.Done?
    ensures o.Raise? <==> r.Raise?
    ensures o.Raise? ==> r.signal == o.signal
    ensures o.Abort? <==> r.Abort?
  {
    match o
    case Raise(s) => Raise(s)
    case Abort => Abort
    case OutOfFuel => OutOfFuel
  }

  /** `is_truthy`: only `nil` and `false` are falsy. */
  predicate IsTruthy(v: Object) {
    !(v.Nil? || v == Bool(false))
  }

  /** Output and the loop counter never go backwards. */
  ghost predicate Kept(a: State, b: State) {
    a.printed <= b.printed && a.loopNest <= b.loopNest
  }

  /** Whether a logical operator is decided by its left operand: `or` by a
      truthy one, any other operator by a falsy one. */
  predicate ShortCircuits(op: Token, left: Object) {
    if op.kind == Or then IsTruthy(left) else !IsTruthy(left)
  }

  /** Unary operators on an evaluated operand. */
  function UnaryResult(op: Token, v: Object): Outcome<Object> {
    match op.kind
    case Minus => Done(if v.Num? then Num(-v.n) else Object.Nil)
    case Bang => Done(Bool(!IsTruthy(v)))
    case _ => Raise(Error(NewError(op.line, "Unreachable error")))
  }

  /** Binary operators on evaluated operands: a sentinel becomes the
      "Illegal expression" error at the operator. */
  function BinaryResult(ops: Ops, op: Token, a: Object, b: Object): Outcome<Object> {
    match Apply(ops, op.kind, a, b)
    case None => Abort
    case Some(v) =>
      if v.IsSentinel() then Raise(NewRuntimeError(op, "Illegal expression")) else Done(v)
  }

  /** The parameters bound to the arguments pairwise, up to the shorter of
      the two lists, into `env`. */
  function BindParams(env: Environment, params: seq<Token>, args: seq<Object>): Environment
    decreases |params|
  {
    if |params| == 0 || |args| == 0 then env
    else BindParams(Define(env, params[0].lexeme, args[0]), params[1..], args[1..])
  }

  function ArityMessage(expected: nat, got: nat): string {
    "Expected " + NatText(expected) + " arguments but got " + NatText(got) + "."
  }

  /** Expression evaluation. Expressions never create or remove bindings:
      every scope keeps exactly its names. */
  function Eval(ops: Ops, e: Expr, st: State, fuel: nat): (r: Step<Object>)
    ensures SameNames(st.scopes, r.state.scopes) && Kept(st, r.state)
    decreases fuel, 0
  {
    if fuel == 0 then Step(OutOfFuel, st)
    else match e
    case LiteralExpr(lit) =>
      if lit.Some? then Step(Done(lit.value), st) else Step(Abort, st)
    case GroupingExpr(x) => Eval(ops, x, st, fuel - 1)
    case UnaryExpr(op, x) =>
      var a := Eval(ops, x, st, fuel - 1);
      if !a.outcome.Done? then a else Step(UnaryResult(op, a.outcome.value), a.state)
    case BinaryExpr(l, op, x) =>
      var a := Eval(ops, l, st, fuel - 1);
      if !a.outcome.Done? then a
      else
        var b := Eval(ops, x, a.state, fuel - 1);
        if !b.outcome.Done? then b
        else Step(BinaryResult(ops, op, a.outcome.value, b.outcome.value), b.state)
    case VariableExpr(name) =>
      (match Lookup(st.scopes, name)
       case Ok(v) => Step(Done(v), st)
       case Err(err) => Step(Raise(Error(err)), st))
    case AssignExpr(name, x) =>
      var a := Eval(ops, x, st, fuel - 1);
      if !a.outcome.Done? then a
      else
        (match AssignIn(a.state.scopes, name, a.outcome.value)
         case Ok(sc) => Step(Done(a.outcome.value), a.state.(scopes := sc))
         case Err(err) => Step(Raise(Error(err)), a.state))
    case LogicalExpr(l, op, x) =>
      var a := Eval(ops, l, st, fuel - 1);
      if !a.outcome.Done? || ShortCircuits(op, a.outcome.value) then a
      else Eval(ops, x, a.state, fuel - 1)
    case CallExpr(callee, paren, args) =>
      var a := Eval(ops, callee, st, fuel - 1);
      if !a.outcome.Done? then a
      else
        var b := EvalArgs(ops, args, a.state, fuel - 1);
        if !b.outcome.Done? then Step(Forward(b.outcome), b.state)
        else CallValue(ops, paren, a.outcome.value, b.outcome.value, b.state, fuel - 1)
  }

  /** Arguments, left to right, stopping at the first that does not
      produce a value. */
  function EvalArgs(ops: Ops, args: seq<Expr>, st: State, fuel: nat): (r: Step<seq<Object>>)
    ensures SameNames(st.scopes, r.state.scopes) && Kept(st, r.state)
    ensures r.outcome.Done? ==> |r.outcome.value| == |args|
    decreases fuel, |args|
  {
    if |args| == 0 then Step(Done([]), st)
    else
      var a := Eval(ops, args[0], st, fuel);
      if !a.outcome.Done? then Step(Forward(a.outcome), a.state)
      else
        var b := EvalArgs(ops, args[1..], a.state, fuel);
        if !b.outcome.Done? then b
        else Step(Done([a.outcome.value] + b.outcome.value), b.state)
  }

  /** Calling an evaluated callee: it must be a callable, and the argument
      count must equal its arity. The two error texts are the model's
      wording; the program has no call visitor to take them from. */
  function CallValue(ops: Ops, paren: Token, callee: Object, args: seq<Object>, st: State, fuel: nat): (r: Step<Object>)
    ensures SameNames(st.scopes, r.state.scopes) && Kept(st, r.state)
    decreases fuel, 2
  {
    if !callee.Call? then
      Step(Raise(NewRuntimeError(paren, "Can only call functions and classes.")), st)
    else if |args| != CallableArity(callee.callable) then
      Step(Raise(NewRuntimeError(paren, ArityMessage(CallableArity(callee.callable), |args|))), st)
    else CallFunction(ops, callee.callable.func, args, st, fuel)
  }

  /** `LoxFunction::call`: the body runs as a block in a fresh scope that
      encloses the globals only, holding the parameters bound to the
      arguments. A `Return` signal is the call's value, normal completion
      gives `nil`, anything else propagates. Afterwards the caller's scopes
      are back, with whatever the body assigned to globals. */
  function CallFunction(ops: Ops, f: LoxFunction, args: seq<Object>, st: State, fuel: nat): (r: Step<Object>)
    ensures SameNames(st.scopes, r.state.scopes) && Kept(st, r.state)
    ensures r.state.scopes[1..] == st.scopes[1..]
    decreases fuel, 1
  {
    if fuel == 0 then Step(OutOfFuel, st)
    else
      var frame := BindParams(New(), f.params, args);
      var b := ExecSeq(ops, f.body, st.(scopes := [st.scopes[0], frame]), fuel - 1);
      var back: Scopes := [b.state.scopes[0]] + st.scopes[1..];
      var out := b.state.(scopes := back);
      match b.outcome
      case Done(_) => Step(Done(Object.Nil), out)
      case Raise(Return(v)) => Step(Done(v), out)
      case Raise(s) => Step(Raise(s), out)
      case Abort => Step(Abort, out)
      case OutOfFuel => Step(OutOfFuel, out)
  }

  /** Statement execution. Outer scopes keep exactly their names; only the
      current scope can gain some. */
  function Exec(ops: Ops, s: Stmt, st: State, fuel: nat): (r: Step<()>)
    ensures GrowsInnermost(st.scopes, r.state.scopes) && Kept(st, r.state)
    decreases fuel, 0
  {
    if fuel == 0 then Step(OutOfFuel, st)
    else match s
    case ExpressionStmt(e) =>
      var a := Eval(ops, e, st, fuel - 1);
      Step(if a.outcome.Done? then Done(()) else Forward(a.outcome), a.state)
    case PrintStmt(e) =>
      var a := Eval(ops, e, st, fuel - 1);
      if !a.outcome.Done? then Step(Forward(a.outcome), a.state)
      else Step(Done(()), a.state.(printed := a.state.printed + [a.outcome.value]))
    case VarStmt(name, init) =>
      if init.None? then Step(Done(()), st.(scopes := DefineLocal(st.scopes, name.lexeme, Object.Nil)))
      else
        var a := Eval(ops, init.value, st, fuel - 1);
        if !a.outcome.Done? then Step(Forward(a.outcome), a.state)
        else Step(Done(()), a.state.(scopes := DefineLocal(a.state.scopes, name.lexeme, a.outcome.value)))
    case BlockStmt(ss) =>
      var b := ExecSeq(ops, ss, st.(scopes := Push(st.scopes, New())), fuel - 1);
      var back: Scopes := b.state.scopes[..|st.scopes|];
      Step(b.outcome, b.state.(scopes := back))
    case IfStmt(c, t, el) =>
      var a := Eval(ops, c, st, fuel - 1);
      if !a.outcome.Done? then Step(Forward(a.outcome), a.state)
      else if IsTruthy(a.outcome.value) then Exec(ops, t, a.state, fuel - 1)
      else if el.Some? then Exec(ops, el.value, a.state, fuel - 1)
      else Step(Done(()), a.state)
    case WhileStmt(c, body) =>
      Loop(ops, c, body, st.(loopNest := st.loopNest + 1), fuel - 1)
    case BreakStmt(tok) =>
      if st.loopNest == 0 then Step(Raise(NewRuntimeError(tok, "Cannot break outside of loop")), st)
      else Step(Raise(Break), st)
    case FunctionStmt(name, params, body) =>
      var c := Call(Callable(st.nextId, LoxFunction(name, params, body)));
      Step(Done(()), st.(scopes := DefineLocal(st.scopes, name.lexeme, c), nextId := st.nextId + 1))
    case ReturnStmt(_, value) =>
      if value.None? then Step(Raise(LoxResult.Return(Object.Nil)), st)
      else
        var a := Eval(ops, value.value, st, fuel - 1);
        if !a.outcome.Done? then Step(Forward(a.outcome), a.state)
        else Step(Raise(LoxResult.Return(a.outcome.value)), a.state)
  }

  /** The `while` loop after the counter was raised on entry. The counter
      is lowered again when the condition turns falsy or the body breaks;
      a signal or error leaves through the loop with the counter still
      raised. */
  function Loop(ops: Ops, c: Expr, body: Stmt, st: State, fuel: nat): (r: Step<()>)
    requires st.loopNest >= 1
    ensures GrowsInnermost(st.scopes, r.state.scopes)
    ensures st.printed <= r.state.printed && st.loopNest <= r.state.loopNest + 1
    decreases fuel, 0
  {
    if fuel == 0 then Step(OutOfFuel, st)
    else
      var a := Eval(ops, c, st, fuel - 1);
      if !a.outcome.Done? then Step(Forward(a.outcome), a.state)
      else if !IsTruthy(a.outcome.value) then Step(Done(()), a.state.(loopNest := a.state.loopNest - 1))
      else
        var b := Exec(ops, body, a.state, fuel - 1);
        match b.outcome
        case Raise(Break) => Step(Done(()), b.state.(loopNest := b.state.loopNest - 1))
        case Done(_) => Loop(ops, c, body, b.state, fuel - 1)
        case _ => b
  }

  /** `execute_block`'s loop: statements in order until the first one that
      does not complete normally. */
  function ExecSeq(ops: Ops, ss: seq<Stmt>, st: State, fuel: nat): (r: Step<()>)
    ensures GrowsInnermost(st.scopes, r.state.scopes) && Kept(st, r.state)
    decreases fuel, |ss|
  {
    if |ss| == 0 then Step(Done(()), st)
    else
      var a := Exec(ops, ss[0], st, fuel);
      if !a.outcome.Done? then a else ExecSeq(ops, ss[1..], a.state, fuel)
  }

  /** The top-level statement loop: `true` when every statement completes,
      `false` at the first one that raises anything. */
  function RunAll(ops: Ops, ss: seq<Stmt>, st: State, fuel: nat): (r: Step<bool>)
    ensures st.printed <= r.state.printed
    decreases |ss|
  {
    if |ss| == 0 then Step(Done(true), st)
    else
      var a := Exec(ops, ss[0], st, fuel);
      match a.outcome
      case Done(_) => RunAll(ops, ss[1..], a.state, fuel)
      case Raise(_) => Step(Done(false), a.state)
      case Abort => Step(Abort, a.state)
      case OutOfFuel => Step(OutOfFuel, a.state)
  }

  /** `interpret`: the loop counter starts at zero. */
  function Interpret(ops: Ops, ss: seq<Stmt>, st: State, fuel: nat): (r: Step<bool>)
  {
    RunAll(ops, ss, st.(loopNest := 0), fuel)
  }
}

=== FILE: interpreter_lemmas.dfy ===
/** Properties of the evaluator: truthiness and branching, the operator
    rules, short-circuit logic, bindings, blocks, loops, the top-level
    loop, and calls. */
module InterpreterLemmas {
  import opened Tokens
  import opened Ast
  import opened Errors
  import opened Environments
  import opened Scopes
  import opened Operators
  import opened Callables
  import opened Interpreter

  function Lit(v: Object): Expr {
    LiteralExpr(Some(v))
  }

  // Truthiness and `if`

  /** `if` runs the then-branch exactly when the condition's value is
      neither `nil` nor `false`; otherwise the else-branch when there is
      one, and nothing when there is none. */
  lemma IfChoosesBranch(ops: Ops, c: Expr, t: Stmt, el: Option<Stmt>, st: State, fuel: nat)
    requires fuel > 0
    requires Eval(ops, c, st, fuel - 1).outcome.Done?
    ensures var a := Eval(ops, c, st, fuel - 1);
            var v := a.outcome.value;
            var r := Exec(ops, IfStmt(c, t, el), st, fuel);
            && (!(v.Nil? || v == Bool(false)) ==> r == Exec(ops, t, a.state, fuel - 1))
            && ((v.Nil? || v == Bool(false)) && el.Some? ==> r == Exec(ops, el.value, a.state, fuel - 1))
            && ((v.Nil? || v == Bool(false)) && el.None? ==> r == Step(Done(()), a.state))
  {
  }

  /** A failing condition fails the `if` before either branch runs. */
  lemma IfConditionErrorPropagates(ops: Ops, c: Expr, t1: Stmt, t2: Stmt, el1: Option<Stmt>, el2: Option<Stmt>, st: State, fuel: nat)
    requires fuel > 0
    requires Eval(ops, c, st, fuel - 1).outcome.Raise?
    ensures var a := Eval(ops, c, st, fuel - 1);
            && Exec(ops, IfStmt(c, t1, el1), st, fuel) == Step(Raise(a.outcome.signal), a.state)
            && Exec(ops, IfStmt(c, t1, el1), st, fuel) == Exec(ops, IfStmt(c, t2, el2), st, fuel)
  {
  }

  // Unary and binary operators

  /** Unary `-` negates a number and gives `nil` for anything else; `!`
      gives the negated truthiness; any other operator kind is the
      "Unreachable error" on the operator's line. The operand is
      evaluated first, and its failure is the node's failure. */
  lemma UnaryRules(ops: Ops, op: Token, x: Expr, st: State, fuel: nat)
    requires fuel > 0
    ensures var a := Eval(ops, x, st, fuel - 1);
            var r := Eval(ops, UnaryExpr(op, x), st, fuel);
            && r.state == a.state
            && (!a.outcome.Done? ==> r.outcome == a.outcome)
            && (a.outcome.Done? && op.kind == Minus && a.outcome.value.Num? ==>
                  r.outcome == Done(Num(-a.outcome.value.n)))
            && (a.outcome.Done? && op.kind == Minus && !a.outcome.value.Num? ==>
                  r.outcome == Done(Object.Nil))
            && (a.outcome.Done? && op.kind == Bang ==>
                  r.outcome == Done(Bool(a.outcome.value.Nil? || a.outcome.value == Bool(false))))
            && (a.outcome.Done? && op.kind != Minus && op.kind != Bang ==>
                  r.outcome == Raise(Error(NewError(op.line, "Unreachable error"))))
  {
    EvalUnary(ops, op, x, st, fuel);
    var a := Eval(ops, x, st, fuel - 1);
    if a.outcome.Done? {
      UnaryResultRules(op, a.outcome.value);
    }
  }

  /** A unary node evaluates its operand, then applies the operator. */
  lemma EvalUnary(ops: Ops, op: Token, x: Expr, st: State, fuel: nat)
    requires fuel > 0
    ensures var a := Eval(ops, x, st, fuel - 1);
            Eval(ops, UnaryExpr(op, x), st, fuel) ==
              if a.outcome.Done? then Step(UnaryResult(op, a.outcome.value), a.state) else a
  {
  }

  /** The unary operators on a value. */
  lemma UnaryResultRules(op: Token, v: Object)
    ensures op.kind == Minus && v.Num? ==> UnaryResult(op, v) == Done(Num(-v.n))
    ensures op.kind == Minus && !v.Num? ==> UnaryResult(op, v) == Done(Object.Nil)
    ensures op.kind == Bang ==> UnaryResult(op, v) == Done(Bool(v.Nil? || v == Bool(false)))
    ensures op.kind != Minus && op.kind != Bang ==> UnaryResult(op, v) == Raise(Error(NewError(op.line, "Unreachable error")))
  {
  }

  /** The unary cases the evaluator's tests fix: `-123.5` and `!false`. */
  lemma UnaryTests(ops: Ops, st: State, fuel: nat)
    requires fuel >= 2
    ensures Eval(ops, UnaryExpr(Token(Minus, "-", None, 1), Lit(Num(123.5))), st, fuel) == Step(Done(Num(-123.5)), st)
    ensures Eval(ops, UnaryExpr(Token(Bang, "!", None, 1), Lit(Bool(false))), st, fuel) == Step(Done(Bool(true)), st)
  {
    assert Eval(ops, Lit(Num(123.5)), st, fuel - 1) == Step(Done(Num(123.5)), st);
    assert Eval(ops, Lit(Bool(false)), st, fuel - 1) == Step(Done(Bool(false)), st);
  }

  /** A binary node of two literals is the operator applied to them, with
      a sentinel turned into "Illegal expression" at the operator and an
      operator kind outside the table a panic. */
  lemma BinaryOfLiterals(ops: Ops, a: Object, op: Token, b: Object, st: State, fuel: nat)
    requires fuel >= 2
    ensures var r := Eval(ops, BinaryExpr(Lit(a), op, Lit(b)), st, fuel);
            && r.state == st
            && (op.kind !in BinaryKinds ==> r.outcome == Abort)
            && (op.kind in BinaryKinds && Apply(ops, op.kind, a, b).value.IsSentinel() ==>
                  r.outcome == Raise(NewRuntimeError(op, "Illegal expression")))
            && (op.kind in BinaryKinds && !Apply(ops, op.kind, a, b).value.IsSentinel() ==>
                  r.outcome == Done(Apply(ops, op.kind, a, b).value))
  {
    assert Eval(ops, Lit(a), st, fuel - 1) == Step(Done(a), st);
    assert Eval(ops, Lit(b), st, fuel - 1) == Step(Done(b), st);
  }

  /** A binary node never yields a sentinel as a value: the sentinels only
      ever surface as runtime errors. */
  lemma BinaryNeverYieldsSentinel(ops: Ops, l: Expr, op: Token, x: Expr, st: State, fuel: nat)
    requires Eval(ops, BinaryExpr(l, op, x), st, fuel).outcome.Done?
    ensures !Eval(ops, BinaryExpr(l, op, x), st, fuel).outcome.value.IsSentinel()
  {
  }

  /** The left operand is evaluated first: if it fails, the right operand
      is never evaluated and the node fails the same way. */
  lemma BinaryLeftFirst(ops: Ops, l: Expr, op: Token, x1: Expr, x2: Expr, st: State, fuel: nat)
    requires fuel > 0
    requires !Eval(ops, l, st, fuel - 1).outcome.Done?
    ensures Eval(ops, BinaryExpr(l, op, x1), st, fuel) == Eval(ops, l, st, fuel - 1)
    ensures Eval(ops, BinaryExpr(l, op, x1), st, fuel) == Eval(ops, BinaryExpr(l, op, x2), st, fuel)
  {
  }

  function Op(k: TokenType, text: string): Token {
    Token(k, text, None, 0)
  }

  function EvalBinary(ops: Ops, a: Object, k: TokenType, text: string, b: Object, st: State, fuel: nat): Outcome<Object> {
    Eval(ops, BinaryExpr(Lit(a), Op(k, text), Lit(b)), st, fuel).outcome
  }

  /** The arithmetic cases and the two error cases of the tests. */
  lemma {:induction false} ArithmeticTests(ops: Ops, st: State, fuel: nat)
    requires Lawful(ops) && fuel >= 2
    ensures EvalBinary(ops, Num(15.0), Minus, "-", Num(7.0), st, fuel) == Done(Num(8.0))
    ensures EvalBinary(ops, Num(21.0), Slash, "/", Num(7.0), st, fuel) == Done(Num(3.0))
    ensures EvalBinary(ops, Num(15.0), Star, "*", Num(7.0), st, fuel) == Done(Num(105.0))
    ensures EvalBinary(ops, Num(21.0), Plus, "+", Num(7.0), st, fuel) == Done(Num(28.0))
    ensures EvalBinary(ops, Str("Hello, "), Plus, "+", Str("World!"), st, fuel) == Done(Str("Hello, World!"))
    ensures EvalBinary(ops, Num(15.0), Minus, "-", Bool(true), st, fuel) ==
            Raise(NewRuntimeError(Op(Minus, "-"), "Illegal expression"))
    ensures EvalBinary(ops, Num(15.0), Greater, ">", Bool(true), st, fuel) ==
            Raise(NewRuntimeError(Op(Greater, ">"), "Illegal expression"))
  {
    BinaryOfLiterals(ops, Num(15.0), Op(Minus, "-"), Num(7.0), st, fuel);
    BinaryOfLiterals(ops, Num(21.0), Op(Slash, "/"), Num(7.0), st, fuel);
    BinaryOfLiterals(ops, Num(15.0), Op(Star, "*"), Num(7.0), st, fuel);
    BinaryOfLiterals(ops, Num(21.0), Op(Plus, "+"), Num(7.0), st, fuel);
    BinaryOfLiterals(ops, Str("Hello, "), Op(Plus, "+"), Str("World!"), st, fuel);
    BinaryOfLiterals(ops, Num(15.0), Op(Minus, "-"), Bool(true), st, fuel);
    BinaryOfLiterals(ops, Num(15.0), Op(Greater, ">"), Bool(true), st, fuel);
  }

  /** The comparison cases of the tests. */
  lemma {:induction false} ComparisonTests(ops: Ops, st: State, fuel: nat)
    requires Lawful(ops) && fuel >= 2
    ensures EvalBinary(ops, Num(15.0), Greater, ">", Num(10.0), st, fuel) == Done(Bool(true))
    ensures EvalBinary(ops, Num(15.0), GreaterEqual, ">=", Num(15.0), st, fuel) == Done(Bool(true))
    ensures EvalBinary(ops, Num(15.0), GreaterEqual, ">=", Num(7.0), st, fuel) == Done(Bool(true))
    ensures EvalBinary(ops, Num(5.0), Less, "<", Num(7.0), st, fuel) == Done(Bool(true))
    ensures EvalBinary(ops, Num(15.0), LessEqual, "<=", Num(15.0), st, fuel) == Done(Bool(true))
    ensures EvalBinary(ops, Num(20.0), LessEqual, "<=", Num(20.8), st, fuel) == Done(Bool(true))
    ensures EvalBinary(ops, Num(10.0), Greater, ">", Num(15.0), st, fuel) == Done(Bool(false))
  {
    BinaryOfLiterals(ops, Num(15.0), Op(Greater, ">"), Num(10.0), st, fuel);
    BinaryOfLiterals(ops, Num(15.0), Op(GreaterEqual, ">="), Num(15.0), st, fuel);
    BinaryOfLiterals(ops, Num(15.0), Op(GreaterEqual, ">="), Num(7.0), st, fuel);
    BinaryOfLiterals(ops, Num(5.0), Op(Less, "<"), Num(7.0), st, fuel);
    BinaryOfLiterals(ops, Num(15.0), Op(LessEqual, "<="), Num(15.0), st, fuel);
    BinaryOfLiterals(ops, Num(20.0), Op(LessEqual, "<="), Num(20.8), st, fuel);
    BinaryOfLiterals(ops, Num(10.0), Op(Greater, ">"), Num(15.0), st, fuel);
  }

  /** The equality cases of the tests; `nil == 15` is `false`, not an
      error. */
  lemma {:induction false} EqualityTests(ops: Ops, st: State, fuel: nat)
    requires Lawful(ops) && fuel >= 2
    ensures EvalBinary(ops, Num(7.0), Equal, "==", Num(7.0), st, fuel) == Done(Bool(true))
    ensures EvalBinary(ops, Num(7.23), Equal, "==", Num(7.0), st, fuel) == Done(Bool(false))
    ensures EvalBinary(ops, Num(7.23), BangEqual, "!=", Num(7.0), st, fuel) == Done(Bool(true))
    ensures EvalBinary(ops, Num(7.0), BangEqual, "!=", Num(7.0), st, fuel) == Done(Bool(false))
    ensures EvalBinary(ops, Str("Hello"), Equal, "==", Str("Hello"), st, fuel) == Done(Bool(true))
    ensures EvalBinary(ops, Str("Hello"), BangEqual, "!=", Str("Hello World"), st, fuel) == Done(Bool(true))
    ensures EvalBinary(ops, Object.Nil, Equal, "==", Object.Nil, st, fuel) == Done(Bool(true))
    ensures EvalBinary(ops, Object.Nil, Equal, "==", Num(15.0), st, fuel) == Done(Bool(false))
  {
    BinaryOfLiterals(ops, Num(7.0), Op(Equal, "=="), Num(7.0), st, fuel);
    BinaryOfLiterals(ops, Num(7.23), Op(Equal, "=="), Num(7.0), st, fuel);
    BinaryOfLiterals(ops, Num(7.23), Op(BangEqual, "!="), Num(7.0), st, fuel);
    BinaryOfLiterals(ops, Num(7.0), Op(BangEqual, "!="), Num(7.0), st, fuel);
    BinaryOfLiterals(ops, Str("Hello"), Op(Equal, "=="), Str("Hello"), st, fuel);
    BinaryOfLiterals(ops, Str("Hello"), Op(BangEqual, "!="), Str("Hello World"), st, fuel);
    BinaryOfLiterals(ops, Object.Nil, Op(Equal, "=="), Object.Nil, st, fuel);
    BinaryOfLiterals(ops, Object.Nil, Op(Equal, "=="), Num(15.0), st, fuel);
  }

  // Logical operators

  /** When the left operand decides (`or` truthy, otherwise falsy), the
      result is that operand's value and the right operand is never
      evaluated: any right operand gives the same step. Otherwise the
      result is the right operand's, evaluated after the left one. */
  lemma LogicalShortCircuit(ops: Ops, l: Expr, op: Token, x1: Expr, x2: Expr, st: State, fuel: nat)
    requires fuel > 0
    requires Eval(ops, l, st, fuel - 1).outcome.Done?
    ensures var a := Eval(ops, l, st, fuel - 1);
            var v := a.outcome.value;
            var decided := if op.kind == Or then !(v.Nil? || v == Bool(false)) else (v.Nil? || v == Bool(false));
            && (decided ==> Eval(ops, LogicalExpr(l, op, x1), st, fuel) == Step(Done(v), a.state))
            && (decided ==> Eval(ops, LogicalExpr(l, op, x1), st, fuel) == Eval(ops, LogicalExpr(l, op, x2), st, fuel))
            && (!decided ==> Eval(ops, LogicalExpr(l, op, x1), st, fuel) == Eval(ops, x1, a.state, fuel - 1))
  {
  }

  // Variables and assignment

  /** `var` binds the initializer's value, or `nil` without one, under the
      name's lexeme in the current scope: a lookup by any token with that
      lexeme finds it. */
  lemma VarBinds(ops: Ops, name: Token, init: Option<Expr>, other: Token, st: State, fuel: nat)
    requires fuel > 0 && other.lexeme == name.lexeme
    requires init.Some? ==> Eval(ops, init.value, st, fuel - 1).outcome.Done?
    ensures var r := Exec(ops, VarStmt(name, init), st, fuel);
            && r.outcome == Done(())
            && Lookup(r.state.scopes, other) ==
               Ok(if init.Some? then Eval(ops, init.value, st, fuel - 1).outcome.value else Object.Nil)
  {
    var r := Exec(ops, VarStmt(name, init), st, fuel);
    if init.Some? {
      var a := Eval(ops, init.value, st, fuel - 1);
      DefineLocalShadows(a.state.scopes, other, a.outcome.value);
    } else {
      DefineLocalShadows(st.scopes, other, Object.Nil);
    }
  }

  /** The variable test with an initializer: after `var foo = 23;`, `foo`
      is 23. */
  lemma VariableInitTest(ops: Ops, st: State, fuel: nat)
    requires fuel >= 2
    ensures var foo := Token(Identifier, "foo", None, 0);
            var s1 := Exec(ops, VarStmt(foo, Some(Lit(Num(23.0)))), st, fuel).state;
            Eval(ops, VariableExpr(foo), s1, fuel).outcome == Done(Num(23.0))
  {
    var foo := Token(Identifier, "foo", None, 0);
    assert Eval(ops, Lit(Num(23.0)), st, fuel - 1) == Step(Done(Num(23.0)), st);
    VarBinds(ops, foo, Some(Lit(Num(23.0))), foo, st, fuel);
  }

  /** The variable test without an initializer: after `var foo;`, `foo` is
      nil. */
  lemma VariableNilTest(ops: Ops, st: State, fuel: nat)
    requires fuel >= 1
    ensures var foo := Token(Identifier, "foo", None, 0);
            var s2 := Exec(ops, VarStmt(foo, None), st, fuel).state;
            Eval(ops, VariableExpr(foo), s2, fuel).outcome == Done(Object.Nil)
  {
    var foo := Token(Identifier, "foo", None, 0);
    VarBinds(ops, foo, None, foo, st, fuel);
  }

  /** The undefined-variable test: an unbound `foo` is the error
      "Undefined variable 'foo'." on the token's line. */
  lemma UndefinedVariableTest(ops: Ops, st: State, fuel: nat)
    requires fuel >= 1
    requires Find(st.scopes, "foo").None?
    ensures Eval(ops, VariableExpr(Token(Identifier, "foo", None, 0)), st, fuel) ==
            Step(Raise(Error(NewError(0, "Undefined variable 'foo'."))), st)
  {
    assert UndefinedMessage("foo") == "Undefined variable 'foo'.";
  }

  /** Assignment evaluates the value, stores it in the innermost scope that
      binds the name and yields that same value; without a binding anywhere
      it is the undefined-variable error and nothing is stored. */
  lemma AssignYieldsValue(ops: Ops, name: Token, x: Expr, st: State, fuel: nat)
    requires fuel > 0
    requires Eval(ops, x, st, fuel - 1).outcome.Done?
    ensures var a := Eval(ops, x, st, fuel - 1);
            var r := Eval(ops, AssignExpr(name, x), st, fuel);
            && (Find(a.state.scopes, name.lexeme).Some? ==>
                  r.outcome == a.outcome && Lookup(r.state.scopes, name) == Ok(a.outcome.value))
            && (Find(a.state.scopes, name.lexeme).None? ==>
                  r.outcome == Raise(Error(NewError(name.line, UndefinedMessage(name.lexeme)))) && r.state == a.state)
  {
    var a := Eval(ops, x, st, fuel - 1);
    var j := Find(a.state.scopes, name.lexeme);
    if j.Some? {
      assert name.lexeme in a.state.scopes[j.value].values;
    }
  }

  // Blocks

  /** `execute_block` stops at the first statement that does not complete
      normally: running `a + b` is running `a`, then `b` only if `a`
      completed. */
  lemma {:induction false} ExecSeqAppend(ops: Ops, a: seq<Stmt>, b: seq<Stmt>, st: State, fuel: nat)
    ensures var r := ExecSeq(ops, a, st, fuel);
            ExecSeq(ops, a + b, st, fuel) == if r.outcome.Done? then ExecSeq(ops, b, r.state, fuel) else r
    decreases |a|
  {
    if |a| == 0 {
      assert a + b == b;
    } else {
      assert (a + b)[0] == a[0];
      assert (a + b)[1..] == a[1..] + b;
      var x := Exec(ops, a[0], st, fuel);
      if x.outcome.Done? {
        ExecSeqAppend(ops, a[1..], b, x.state, fuel);
      }
    }
  }

  /** Leaving a block, by completion, signal or error, reinstates the
      scopes that were current before it: the same number, each with
      exactly the names it had. A name bound nowhere before the block is
      bound nowhere after it. */
  lemma BlockRestoresScopes(ops: Ops, ss: seq<Stmt>, name: Token, st: State, fuel: nat)
    ensures var r := Exec(ops, BlockStmt(ss), st, fuel);
            && SameNames(st.scopes, r.state.scopes)
            && (Find(st.scopes, name.lexeme).None? ==> Lookup(r.state.scopes, name).Err?)
  {
    var r := Exec(ops, BlockStmt(ss), st, fuel);
    if fuel > 0 {
      var inner := st.(scopes := Push(st.scopes, New()));
      var b := ExecSeq(ops, ss, inner, fuel - 1);
      assert forall j :: 0 <= j < |st.scopes| ==> inner.scopes[j] == st.scopes[j];
      assert r.state.scopes == b.state.scopes[..|st.scopes|];
    }
    if Find(st.scopes, name.lexeme).None? {
      assert forall j :: 0 <= j < |r.state.scopes| ==> name.lexeme !in r.state.scopes[j].values by {
        forall j | 0 <= j < |r.state.scopes|
          ensures name.lexeme !in r.state.scopes[j].values
        {
          assert r.state.scopes[j].values.Keys == st.scopes[j].values.Keys;
        }
      }
    }
  }

  /** A block holding only a declaration leaves the state exactly as it
      was: the binding lived in the block's own scope. */
  lemma BlockDeclarationIsLocal(ops: Ops, name: Token, st: State, fuel: nat)
    requires fuel >= 3
    ensures Exec(ops, BlockStmt([VarStmt(name, None)]), st, fuel) == Step(Done(()), st)
  {
    var inner := st.(scopes := Push(st.scopes, New()));
    var d := Exec(ops, VarStmt(name, None), inner, fuel - 1);
    assert d == Step(Done(()), inner.(scopes := DefineLocal(inner.scopes, name.lexeme, Object.Nil)));
    assert [VarStmt(name, None)][1..] == [];
    assert ExecSeq(ops, [VarStmt(name, None)], inner, fuel - 1) == d;
    assert d.state.scopes[..|st.scopes|] == st.scopes;
  }

  // Loops and `break`

  /** `break` is the error "Cannot break outside of loop" at its token when
      no loop is running, and the `Break` signal inside one. */
  lemma BreakRule(ops: Ops, tok: Token, st: State, fuel: nat)
    requires fuel > 0
    ensures st.loopNest == 0 ==>
              Exec(ops, BreakStmt(tok), st, fuel) == Step(Raise(NewRuntimeError(tok, "Cannot break outside of loop")), st)
    ensures st.loopNest > 0 ==> Exec(ops, BreakStmt(tok), st, fuel) == Step(Raise(Break), st)
  {
  }

  /** A loop whose condition is falsy at once never runs its body: the
      outcome is the condition's final state with the counter lowered
      back, whatever the body is. */
  lemma WhileFalseSkipsBody(ops: Ops, c: Expr, body: Stmt, st: State, fuel: nat)
    requires fuel >= 2
    requires var a := Eval(ops, c, st.(loopNest := st.loopNest + 1), fuel - 2);
             a.outcome.Done? && (a.outcome.value.Nil? || a.outcome.value == Bool(false))
    ensures var a := Eval(ops, c, st.(loopNest := st.loopNest + 1), fuel - 2);
            Exec(ops, WhileStmt(c, body), st, fuel) == Step(Done(()), a.state.(loopNest := a.state.loopNest - 1))
  {
    LoopStopsOnFalsy(ops, c, body, st.(loopNest := st.loopNest + 1), fuel - 1);
    ExecWhileIsLoop(ops, c, body, st, fuel);
  }

  /** A `while` statement raises the counter and runs the loop. */
  lemma ExecWhileIsLoop(ops: Ops, c: Expr, body: Stmt, st: State, fuel: nat)
    requires fuel >= 1
    ensures Exec(ops, WhileStmt(c, body), st, fuel) == Loop(ops, c, body, st.(loopNest := st.loopNest + 1), fuel - 1)
  {
  }

  /** One turn of the loop with a falsy condition: done, counter lowered. */
  lemma LoopStopsOnFalsy(ops: Ops, c: Expr, body: Stmt, st: State, fuel: nat)
    requires fuel >= 1 && st.loopNest >= 1
    requires var a := Eval(ops, c, st, fuel - 1);
             a.outcome.Done? && (a.outcome.value.Nil? || a.outcome.value == Bool(false))
    ensures var a := Eval(ops, c, st, fuel - 1);
            Loop(ops, c, body, st, fuel) == Step(Done(()), a.state.(loopNest := a.state.loopNest - 1))
  {
  }

  /** `while (true) break;` completes, and the counter is back where it
      was: raised on entry, lowered on the break. */
  lemma WhileBreakCompletes(ops: Ops, tok: Token, st: State, fuel: nat)
    requires fuel >= 3
    ensures Exec(ops, WhileStmt(Lit(Bool(true)), BreakStmt(tok)), st, fuel) == Step(Done(()), st)
  {
    var up := st.(loopNest := st.loopNest + 1);
    assert Eval(ops, Lit(Bool(true)), up, fuel - 2) == Step(Done(Bool(true)), up);
    assert Exec(ops, BreakStmt(tok), up, fuel - 2) == Step(Raise(Break), up);
    assert Loop(ops, Lit(Bool(true)), BreakStmt(tok), up, fuel - 1) == Step(Done(()), st);
  }

  /** A loop left through an error keeps the counter raised: with an
      unbound condition variable the loop fails with the undefined-variable
      error and the counter stays one higher than before. */
  lemma LoopCounterStaysRaisedOnError(ops: Ops, x: Token, body: Stmt, st: State, fuel: nat)
    requires fuel >= 3
    requires Find(st.scopes, x.lexeme).None?
    ensures var r := Exec(ops, WhileStmt(VariableExpr(x), body), st, fuel);
            && r.outcome == Raise(Error(NewError(x.line, UndefinedMessage(x.lexeme))))
            && r.state.loopNest == st.loopNest + 1
  {
    var up := st.(loopNest := st.loopNest + 1);
    assert Eval(ops, VariableExpr(x), up, fuel - 2) == Step(Raise(Error(NewError(x.line, UndefinedMessage(x.lexeme)))), up);
  }

  // The top-level loop

  /** The statement loop halts at the first statement that does not
      complete: running `a + b` is running `a`, then `b` only if every
      statement of `a` completed. */
  lemma {:induction false} RunAllAppend(ops: Ops, a: seq<Stmt>, b: seq<Stmt>, st: State, fuel: nat)
    ensures var r := RunAll(ops, a, st, fuel);
            RunAll(ops, a + b, st, fuel) == if r.outcome == Done(true) then RunAll(ops, b, r.state, fuel) else r
    decreases |a|
  {
    if |a| == 0 {
      assert a + b == b;
    } else {
      assert (a + b)[0] == a[0];
      assert (a + b)[1..] == a[1..] + b;
      var x := Exec(ops, a[0], st, fuel);
      if x.outcome.Done? {
        RunAllAppend(ops, a[1..], b, x.state, fuel);
      }
    }
  }

  /** `RunAll` is `true` exactly when every statement completed, and
      `false` exactly when one raised an error or signal. */
  lemma {:induction false} RunAllVerdict(ops: Ops, ss: seq<Stmt>, st: State, fuel: nat)
    ensures var r := RunAll(ops, ss, st, fuel);
            r.outcome.Done? ==>
              (r.outcome.value <==> ExecSeq(ops, ss, st, fuel).outcome.Done?)
    ensures var r := RunAll(ops, ss, st, fuel);
            r.outcome.Done? ==> r.state == ExecSeq(ops, ss, st, fuel).state
    decreases |ss|
  {
    if |ss| > 0 {
      var x := Exec(ops, ss[0], st, fuel);
      if x.outcome.Done? {
        RunAllVerdict(ops, ss[1..], x.state, fuel);
      }
    }
  }

  /** `interpret` runs the statements from a reset loop counter: the run is
      `true` exactly when they all complete, and ends in their final state. */
  lemma InterpretVerdict(ops: Ops, ss: seq<Stmt>, st: State, fuel: nat)
    ensures var r := Interpret(ops, ss, st, fuel);
            var x := ExecSeq(ops, ss, st.(loopNest := 0), fuel);
            r.outcome.Done? ==> (r.outcome.value <==> x.outcome.Done?) && r.state == x.state
  {
    RunAllVerdict(ops, ss, st.(loopNest := 0), fuel);
  }

  /** `interpret` resets the loop counter, so a top-level `break` fails the
      run whatever state it starts in, and nothing after it runs. */
  lemma TopLevelBreakFails(ops: Ops, tok: Token, rest: seq<Stmt>, st: State, fuel: nat)
    requires fuel > 0
    ensures Interpret(ops, [BreakStmt(tok)] + rest, st, fuel) == Step(Done(false), st.(loopNest := 0))
  {
    var z := st.(loopNest := 0);
    assert ([BreakStmt(tok)] + rest)[0] == BreakStmt(tok);
    assert Exec(ops, BreakStmt(tok), z, fuel).outcome.Raise?;
  }

  // Calls

  /** Binding parameters defines exactly the first `min(#params, #args)`
      parameter names, and a name bound twice keeps the later argument. */
  lemma {:induction false} BindParamsBinds(env: Environment, params: seq<Token>, args: seq<Object>, i: nat)
    requires i < |params| && i < |args|
    requires forall j :: i < j < |params| && j < |args| ==> params[j].lexeme != params[i].lexeme
    ensures params[i].lexeme in BindParams(env, params, args).values
    ensures BindParams(env, params, args).values[params[i].lexeme] == args[i]
    decreases |params|
  {
    var next := Define(env, params[0].lexeme, args[0]);
    if i == 0 {
      BindParamsKeeps(next, params[1..], args[1..], params[0].lexeme);
    } else {
      BindParamsBinds(next, params[1..], args[1..], i - 1);
    }
  }

  /** A name no bound parameter has keeps its binding in `env`. */
  lemma {:induction false} BindParamsKeeps(env: Environment, params: seq<Token>, args: seq<Object>, x: string)
    requires forall j :: 0 <= j < |params| && j < |args| ==> params[j].lexeme != x
    ensures x in env.values ==> x in BindParams(env, params, args).values &&
                                BindParams(env, params, args).values[x] == env.values[x]
    ensures x !in env.values ==> x !in BindParams(env, params, args).values
    decreases |params|
  {
    if |params| > 0 && |args| > 0 {
      BindParamsKeeps(Define(env, params[0].lexeme, args[0]), params[1..], args[1..], x);
    }
  }

  /** The call's result: the value a `Return` signal carries, `nil` when
      the body completes, and any other signal or error unchanged. The body
      runs on the globals and the parameter scope only. */
  lemma CallResult(ops: Ops, f: LoxFunction, args: seq<Object>, st: State, fuel: nat)
    requires fuel > 0
    ensures var frame := BindParams(New(), f.params, args);
            var b := ExecSeq(ops, f.body, st.(scopes := [st.scopes[0], frame]), fuel - 1);
            var r := CallFunction(ops, f, args, st, fuel);
            && (b.outcome.Done? ==> r.outcome == Done(Object.Nil))
            && (b.outcome.Raise? && b.outcome.signal.Return? ==> r.outcome == Done(b.outcome.signal.value))
            && (b.outcome.Raise? && !b.outcome.signal.Return? ==> r.outcome == Raise(b.outcome.signal))
            && r.state.printed == b.state.printed
            && r.state.scopes[0] == b.state.scopes[0]
  {
  }

  /** The body sees the globals, never the caller's locals: two callers
      that agree on everything but their local scopes get the same result
      and the same globals back. */
  lemma CallIgnoresCallerLocals(ops: Ops, f: LoxFunction, args: seq<Object>, s1: State, s2: State, fuel: nat)
    requires s1.scopes[0] == s2.scopes[0]
    requires s1.loopNest == s2.loopNest && s1.printed == s2.printed && s1.nextId == s2.nextId
    ensures var r1 := CallFunction(ops, f, args, s1, fuel);
            var r2 := CallFunction(ops, f, args, s2, fuel);
            r1.outcome == r2.outcome && r1.state.scopes[0] == r2.state.scopes[0] && r1.state.printed == r2.state.printed
  {
    if fuel > 0 {
      var frame := BindParams(New(), f.params, args);
      assert s1.(scopes := [s1.scopes[0], frame]) == s2.(scopes := [s2.scopes[0], frame]);
    }
  }

  /** A call needs a callable with arity equal to the argument count; the
      two failures are runtime errors at the closing parenthesis. */
  lemma CallChecks(ops: Ops, paren: Token, callee: Object, args: seq<Object>, st: State, fuel: nat)
    ensures !callee.Call? ==>
              CallValue(ops, paren, callee, args, st, fuel) ==
              Step(Raise(NewRuntimeError(paren, "Can only call functions and classes.")), st)
    ensures callee.Call? && |args| != |callee.callable.func.params| ==>
              CallValue(ops, paren, callee, args, st, fuel) ==
              Step(Raise(NewRuntimeError(paren, ArityMessage(|callee.callable.func.params|, |args|))), st)
    ensures callee.Call? && |args| == |callee.callable.func.params| ==>
              CallValue(ops, paren, callee, args, st, fuel) == CallFunction(ops, callee.callable.func, args, st, fuel)
  {
  }

  /** A function declaration binds its name, in the current scope, to a
      callable with a fresh handle whose arity is the parameter count. */
  lemma FunctionDeclarationBinds(ops: Ops, name: Token, params: seq<Token>, body: seq<Stmt>, st: State, fuel: nat)
    requires fuel > 0
    ensures var r := Exec(ops, FunctionStmt(name, params, body), st, fuel);
            var v := Lookup(r.state.scopes, name);
            && r.outcome == Done(())
            && v.Ok? && v.value.Call?
            && v.value.callable.id == st.nextId && r.state.nextId == st.nextId + 1
            && CallableArity(v.value.callable) == |params|
            && v.value.callable.func == LoxFunction(name, params, body)
  {
    var c := Call(Callable(st.nextId, LoxFunction(name, params, body)));
    DefineLocalShadows(st.scopes, name, c);
  }

  /** `return` raises the `Return` signal with its value, `nil` without
      one. */
  lemma ReturnSignals(ops: Ops, kw: Token, value: Option<Expr>, st: State, fuel: nat)
    requires fuel > 0
    requires value.Some? ==> Eval(ops, value.value, st, fuel - 1).outcome.Done?
    ensures var r := Exec(ops, ReturnStmt(kw, value), st, fuel);
            r.outcome == Raise(LoxResult.Return(if value.Some? then Eval(ops, value.value, st, fuel - 1).outcome.value else Object.Nil))
  {
  }
}

=== FILE: numerals.dfy ===
/** Decimal text of line numbers and counts, as Rust's `{}` formatting of
    a `usize` writes it. */
module Numerals {

  function DigitChar(d: nat): (c: char)
    requires d < 10
    ensures '0' <= c <= '9'
  {
    "0123456789"[d]
  }

  predicate IsDigit(c: char) {
    '0' <= c <= '9'
  }

  function DigitValue(c: char): (d: nat)
    requires IsDigit(c)
    ensures d < 10
  {
    (c as int - '0' as int) as nat
  }

  /** Decimal digits of `n`, most significant first, no leading zero. */
  function NatText(n: nat): (s: string)
    ensures |s| > 0
    ensures forall i :: 0 <= i < |s| ==> IsDigit(s[i])
    ensures |s| > 1 ==> s[0] != '0'
    decreases n
  {
    if n < 10 then [DigitChar(n)] else NatText(n / 10) + [DigitChar(n % 10)]
  }

  /** The value of a run of decimal digits. */
  function DigitsValue(s: string): nat
    requires forall i :: 0 <= i < |s| ==> IsDigit(s[i])
  {
    if |s| == 0 then 0 else 10 * DigitsValue(s[..|s| - 1]) + DigitValue(s[|s| - 1])
  }

  /** Reading the text back gives the number: the formatting loses nothing. */
  lemma {:induction false} NatTextRoundTrip(n: nat)
    ensures DigitsValue(NatText(n)) == n
    decreases n
  {
    var s := NatText(n);
    if n >= 10 {
      NatTextRoundTrip(n / 10);
      assert s[..|s| - 1] == NatText(n / 10);
    }
  }

  /** Distinct numbers are written differently. */
  lemma NatTextInjective(m: nat, n: nat)
    requires NatText(m) == NatText(n)
    ensures m == n
  {
    NatTextRoundTrip(m);
    NatTextRoundTrip(n);
  }
}

=== FILE: operators.dfy ===
/** The binary operators on values. Their implementations on `Object` are
    not part of this model: the evaluator receives them as a record of
    functions, and the only facts required of them are the instances the
    evaluator's unit tests fix. */
module Operators {
  import opened Tokens
  import opened Ast

  /** One function per operator method the evaluator dispatches to. */
  datatype Ops = Ops(
    sub: (Object, Object) -> Object,
    div: (Object, Object) -> Object,
    mul: (Object, Object) -> Object,
    add: (Object, Object) -> Object,
    greater: (Object, Object) -> Object,
    greaterEq: (Object, Object) -> Object,
    less: (Object, Object) -> Object,
    lessEq: (Object, Object) -> Object,
    neq: (Object, Object) -> Object,
    eq: (Object, Object) -> Object)

  /** The token kinds a binary node may carry without reaching `todo!()`. */
  const BinaryKinds: set<TokenType> :=
    {Minus, Slash, Star, Plus, Greater, GreaterEqual, Less, LessEqual, BangEqual, Equal}

  /** Dispatch on the operator's kind; `None` for any other kind. */
  function Apply(ops: Ops, k: TokenType, a: Object, b: Object): (r: Option<Object>)
    ensures r.Some? <==> k in BinaryKinds
    ensures k == Minus ==> r == Some(ops.sub(a, b))
    ensures k == Slash ==> r == Some(ops.div(a, b))
    ensures k == Star ==> r == Some(ops.mul(a, b))
    ensures k == Plus ==> r == Some(ops.add(a, b))
    ensures k == Greater ==> r == Some(ops.greater(a, b))
    ensures k == GreaterEqual ==> r == Some(ops.greaterEq(a, b))
    ensures k == Less ==> r == Some(ops.less(a, b))
    ensures k == LessEqual ==> r == Some(ops.lessEq(a, b))
    ensures k == BangEqual ==> r == Some(ops.neq(a, b))
    ensures k == Equal ==> r == Some(ops.eq(a, b))
  {
    match k
    case Minus => Some(ops.sub(a, b))
    case Slash => Some(ops.div(a, b))
    case Star => Some(ops.mul(a, b))
    case Plus => Some(ops.add(a, b))
    case Greater => Some(ops.greater(a, b))
    case GreaterEqual => Some(ops.greaterEq(a, b))
    case Less => Some(ops.less(a, b))
    case LessEqual => Some(ops.lessEq(a, b))
    case BangEqual => Some(ops.neq(a, b))
    case Equal => Some(ops.eq(a, b))
    case _ => None
  }

  /** The operator instances the evaluator's tests fix: arithmetic on
      numbers, string concatenation, numeric comparison, equality on
      numbers, strings and nil, and the two sentinel cases for a number
      combined with a boolean. */
  ghost predicate Lawful(ops: Ops) {
    && ops.sub(Num(15.0), Num(7.0)) == Num(8.0)
    && ops.div(Num(21.0), Num(7.0)) == Num(3.0)
    && ops.mul(Num(15.0), Num(7.0)) == Num(105.0)
    && ops.add(Num(21.0), Num(7.0)) == Num(28.0)
    && ops.add(Str("Hello, "), Str("World!")) == Str("Hello, World!")
    && ops.sub(Num(15.0), Bool(true)) == ArithmeticError
    && ops.greater(Num(15.0), Bool(true)) == ComparisonError
    && ops.greater(Num(15.0), Num(10.0)) == Bool(true)
    && ops.greaterEq(Num(15.0), Num(15.0)) == Bool(true)
    && ops.greaterEq(Num(15.0), Num(7.0)) == Bool(true)
    && ops.less(Num(5.0), Num(7.0)) == Bool(true)
    && ops.lessEq(Num(15.0), Num(15.0)) == Bool(true)
    && ops.lessEq(Num(20.0), Num(20.8)) == Bool(true)
    && ops.greater(Num(10.0), Num(15.0)) == Bool(false)
    && ops.eq(Num(7.0), Num(7.0)) == Bool(true)
    && ops.eq(Num(7.23), Num(7.0)) == Bool(false)
    && ops.neq(Num(7.23), Num(7.0)) == Bool(true)
    && ops.neq(Num(7.0), Num(7.0)) == Bool(false)
    && ops.eq(Str("Hello"), Str("Hello")) == Bool(true)
    && ops.neq(Str("Hello"), Str("Hello World")) == Bool(true)
    && ops.eq(Object.Nil, Object.Nil) == Bool(true)
    && ops.eq(Object.Nil, Num(15.0)) == Bool(false)
  }
}

=== FILE: parser.dfy ===
/** The recursive-descent parser over the token list. The cursor `p`
    indexes the next token; the list ends with an end-of-input token, which
    the cursor never passes. Every parse function returns the cursor it
    stopped at, also on failure, because recovery resumes from there. */
module Parser {
  import opened Tokens
  import opened Ast
  import opened Errors

  /** The token lists the parser is given: non-empty, ending in `Eof`. */
  predicate ValidTokens(toks: seq<Token>) {
    |toks| > 0 && toks[|toks| - 1].kind == Eof
  }

  /** `is_at_end`: the next token is an end-of-input token. */
  predicate AtEnd(toks: seq<Token>, p: nat)
    requires p < |toks|
  {
    toks[p].kind == Eof
  }

  /** `check`: the next token has kind `k`; never true at the end. */
  predicate Check(toks: seq<Token>, p: nat, k: TokenType)
    requires p < |toks|
  {
    !AtEnd(toks, p) && toks[p].kind == k
  }

  /** `advance`: step over the next token unless it is the end. */
  function Advance(toks: seq<Token>, p: nat): (q: nat)
    requires ValidTokens(toks) && p < |toks|
    ensures q < |toks|
    ensures AtEnd(toks, p) ==> q == p
    ensures !AtEnd(toks, p) ==> q == p + 1
  {
    if AtEnd(toks, p) then p else p + 1
  }

  /** `previous`: the token just consumed. */
  function Previous(toks: seq<Token>, p: nat): Token
    requires 0 < p <= |toks|
  {
    toks[p - 1]
  }

  /** `is_match`: whether the next token's kind is one of `kinds`, and the
      cursor after consuming it if so. */
  function MatchAny(toks: seq<Token>, p: nat, kinds: seq<TokenType>): (r: (bool, nat))
    requires ValidTokens(toks) && p < |toks|
    ensures r.0 <==> !AtEnd(toks, p) && toks[p].kind in kinds
    ensures r.1 == (if r.0 then p + 1 else p)
    ensures r.1 < |toks|
  {
    if !AtEnd(toks, p) && toks[p].kind in kinds then (true, p + 1) else (false, p)
  }

  /** A parse outcome: the value or the error, and where the cursor stopped. */
  datatype Parsed<T> = POk(value: T, pos: nat) | PErr(error: LoxError, pos: nat)

  /** `consume`: the next token if it has kind `k`, stepping over it;
      otherwise an error located at that token, without moving. */
  function Consume(toks: seq<Token>, p: nat, k: TokenType, message: string): (r: Parsed<Token>)
    requires ValidTokens(toks) && p < |toks|
    ensures r.POk? <==> Check(toks, p, k)
    ensures r.POk? ==> r.value == toks[p] && r.pos == p + 1
    ensures r.PErr? ==> r.error == ParseError(toks[p], message) && r.pos == p
  {
    if Check(toks, p, k) then POk(toks[p], p + 1) else PErr(ParseError(toks[p], message), p)
  }

  /** The operators of the four binary tiers, loosest first: equality,
      comparison, term, factor. */
  function TierOperators(level: nat): seq<TokenType>
    requires level < 4
  {
    if level == 0 then [BangEqual, Equal]
    else if level == 1 then [Greater, GreaterEqual, Less, LessEqual]
    else if level == 2 then [Minus, Plus]
    else [Slash, Star]
  }

  /** What every successful expression parse guarantees: it consumed at
      least one token and stopped inside the list. */
  predicate Progress<T>(toks: seq<Token>, p: nat, r: Parsed<T>) {
    && p <= r.pos < |toks|
    && (r.POk? ==> p < r.pos)
  }

  /** `expression`: the loosest tier. */
  function Expression(toks: seq<Token>, p: nat): (r: Parsed<Expr>)
    requires ValidTokens(toks) && p < |toks|
    ensures Progress(toks, p, r)
    decreases |toks| - p, 11
  {
    Tier(toks, p, 0)
  }

  /** One binary tier, `eqaulity`, `comparison`, `term` and `factor` being
      levels 0 to 3: an operand of the next tighter tier, then a left fold
      over further operator-operand pairs. */
  function Tier(toks: seq<Token>, p: nat, level: nat): (r: Parsed<Expr>)
    requires ValidTokens(toks) && p < |toks| && level < 4
    ensures Progress(toks, p, r)
    decreases |toks| - p, 10 - 2 * level
  {
    var first := Operand(toks, p, level);
    if first.PErr? then first
    else TierRest(toks, first.pos, level, first.value)
  }

  /** The operand of a tier: the next tier, or `unary` below factor. */
  function Operand(toks: seq<Token>, p: nat, level: nat): (r: Parsed<Expr>)
    requires ValidTokens(toks) && p < |toks| && level < 4
    ensures Progress(toks, p, r)
    decreases |toks| - p, 9 - 2 * level
  {
    if level == 3 then Unary(toks, p) else Tier(toks, p, level + 1)
  }

  /** The loop of a tier: while the next token is one of its operators,
      combine what was parsed so far with the next operand. */
  function TierRest(toks: seq<Token>, p: nat, level: nat, left: Expr): (r: Parsed<Expr>)
    requires ValidTokens(toks) && p < |toks| && level < 4
    ensures p <= r.pos < |toks|
    decreases |toks| - p, 8 - 2 * level
  {
    var (found, q) := MatchAny(toks, p, TierOperators(level));
    if !found then POk(left, p)
    else
      var operator := Previous(toks, q);
      var right := Operand(toks, q, level);
      if right.PErr? then right
      else TierRest(toks, right.pos, level, BinaryExpr(left, operator, right.value))
  }

  /** `unary`: `!` or `-` applied to another unary, or a primary. */
  function Unary(toks: seq<Token>, p: nat): (r: Parsed<Expr>)
    requires ValidTokens(toks) && p < |toks|
    ensures Progress(toks, p, r)
    decreases |toks| - p, 2
  {
    var (found, q) := MatchAny(toks, p, [Bang, Minus]);
    if !found then Primary(toks, p)
    else
      var operator := Previous(toks, q);
      var right := Unary(toks, q);
      if right.PErr? then right else POk(UnaryExpr(operator, right.value), right.pos)
  }

  /** `primary`: literals, a parenthesised expression, or a variable. */
  function Primary(toks: seq<Token>, p: nat): (r: Parsed<Expr>)
    requires ValidTokens(toks) && p < |toks|
    ensures Progress(toks, p, r)
    decreases |toks| - p, 1
  {
    if Check(toks, p, False) then POk(LiteralExpr(Some(Bool(false))), p + 1)
    else if Check(toks, p, True) then POk(LiteralExpr(Some(Bool(true))), p + 1)
    else if Check(toks, p, TokenType.Nil) then POk(LiteralExpr(Some(Object.Nil)), p + 1)
    else if Check(toks, p, Number) || Check(toks, p, String) then POk(LiteralExpr(toks[p].literal), p + 1)
    else if Check(toks, p, LeftParen) then Grouping(toks, p + 1)
    else if Check(toks, p, Identifier) then POk(VariableExpr(toks[p]), p + 1)
    else PErr(NewError(0, "Expect expression"), p)
  }

  /** The parenthesised case of `primary`, entered after `(`. */
  function Grouping(toks: seq<Token>, p: nat): (r: Parsed<Expr>)
    requires ValidTokens(toks) && 0 < p < |toks|
    ensures p <= r.pos < |toks| && (r.POk? ==> p < r.pos)
    decreases |toks| - p, 12
  {
    var inner := Expression(toks, p);
    if inner.PErr? then inner
    else
      var close := Consume(toks, inner.pos, RightParen, "Expect ')' after expression");
      if close.PErr? then PErr(close.error, close.pos)
      else POk(GroupingExpr(inner.value), close.pos)
  }

  /** `expression_statement`: an expression and its `;`. */
  function ExpressionStatement(toks: seq<Token>, p: nat): (r: Parsed<Stmt>)
    requires ValidTokens(toks) && p < |toks|
    ensures Progress(toks, p, r)
  {
    var e := Expression(toks, p);
    if e.PErr? then PErr(e.error, e.pos)
    else
      var semi := Consume(toks, e.pos, Semicolon, "Expect ';' after value.");
      if semi.PErr? then PErr(semi.error, semi.pos) else POk(ExpressionStmt(e.value), semi.pos)
  }

  /** `print_statement`, entered after the `print` keyword. */
  function PrintStatement(toks: seq<Token>, p: nat): (r: Parsed<Stmt>)
    requires ValidTokens(toks) && p < |toks|
    ensures Progress(toks, p, r)
  {
    var e := Expression(toks, p);
    if e.PErr? then PErr(e.error, e.pos)
    else
      var semi := Consume(toks, e.pos, Semicolon, "Expect ';' after value.");
      if semi.PErr? then PErr(semi.error, semi.pos) else POk(PrintStmt(e.value), semi.pos)
  }

  /** `statement`: a print statement or an expression statement. */
  function Statement(toks: seq<Token>, p: nat): (r: Parsed<Stmt>)
    requires ValidTokens(toks) && p < |toks|
    ensures Progress(toks, p, r)
  {
    var (isPrint, q) := MatchAny(toks, p, [Print]);
    if isPrint then PrintStatement(toks, q) else ExpressionStatement(toks, p)
  }

  /** `var_declaration`, entered after `var`: a name, an optional `= expr`
      initializer, and a `;`. As written, the outcome of consuming the `;`
      is dropped: a `;` that is there is consumed, and a declaration with
      no `;` after it still succeeds (the parse error built for it is
      reported but not returned). */
  function VarDeclaration(toks: seq<Token>, p: nat): (r: Parsed<Stmt>)
    requires ValidTokens(toks) && p < |toks|
    ensures Progress(toks, p, r)
  {
    var name := Consume(toks, p, Identifier, "Expected variable name");
    if name.PErr? then PErr(name.error, name.pos)
    else
      var (hasInit, q) := MatchAny(toks, name.pos, [Assign]);
      var init := if hasInit then Expression(toks, q) else POk(LiteralExpr(None), q);
      if init.PErr? then PErr(init.error, init.pos)
      else
        var semi := Consume(toks, init.pos, Semicolon, "Expected ';' after variable decalaration.");
        POk(VarStmt(name.value, if hasInit then Some(init.value) else None), semi.pos)
  }

  /** `var_declaration` corrected: a missing `;` fails the declaration, as
      it does for the other statements. */
  function VarDeclarationCorrected(toks: seq<Token>, p: nat): (r: Parsed<Stmt>)
    requires ValidTokens(toks) && p < |toks|
    ensures Progress(toks, p, r)
  {
    var name := Consume(toks, p, Identifier, "Expected variable name");
    if name.PErr? then PErr(name.error, name.pos)
    else
      var (hasInit, q) := MatchAny(toks, name.pos, [Assign]);
      var init := if hasInit then Expression(toks, q) else POk(LiteralExpr(None), q);
      if init.PErr? then PErr(init.error, init.pos)
      else
        var semi := Consume(toks, init.pos, Semicolon, "Expected ';' after variable decalaration.");
        if semi.PErr? then PErr(semi.error, semi.pos)
        else POk(VarStmt(name.value, if hasInit then Some(init.value) else None), semi.pos)
  }

  /** Kinds that begin a statement: where recovery may resume. */
  predicate StartsStatement(k: TokenType) {
    k in {Class, Var, For, If, While, Print, TokenType.Return}
  }

  /** A point where `synchronize` stops: the end, just after a `;`, or just
      before a token that begins a statement. */
  predicate SyncPoint(toks: seq<Token>, q: nat)
    requires 0 < q < |toks|
  {
    AtEnd(toks, q) || toks[q - 1].kind == Semicolon || StartsStatement(toks[q].kind)
  }

  /** `synchronize`: discard at least one token (unless at the end), then
      keep discarding until the first point where a statement can resume. */
  function Synchronize(toks: seq<Token>, p: nat): (r: nat)
    requires ValidTokens(toks) && p < |toks|
    requires p > 0 || !AtEnd(toks, p)
    ensures r < |toks|
    ensures AtEnd(toks, p) ==> r == p
    ensures !AtEnd(toks, p) ==> r > p && SyncPoint(toks, r)
    ensures forall j :: p < j < r ==> !SyncPoint(toks, j)
  {
    var q := Advance(toks, p);
    SyncFrom(toks, q)
  }

  /** The loop of `synchronize`, with the cursor past at least one token. */
  function SyncFrom(toks: seq<Token>, q: nat): (r: nat)
    requires ValidTokens(toks) && 0 < q < |toks|
    ensures q <= r < |toks| && SyncPoint(toks, r)
    ensures forall j :: q <= j < r ==> !SyncPoint(toks, j)
    decreases |toks| - q
  {
    if SyncPoint(toks, q) then q else SyncFrom(toks, q + 1)
  }

  /** `declaration`: a variable declaration or a statement; on failure,
      recover with `synchronize` before passing the error on. */
  function Declaration(toks: seq<Token>, p: nat): (r: Parsed<Stmt>)
    requires ValidTokens(toks) && p < |toks|
    requires p > 0 || !AtEnd(toks, p)
    ensures p <= r.pos < |toks|
    ensures r.POk? ==> p < r.pos
  {
    var (isVar, q) := MatchAny(toks, p, [Var]);
    var res := if isVar then VarDeclaration(toks, q) else Statement(toks, p);
    if res.PErr? then PErr(res.error, Synchronize(toks, res.pos)) else res
  }

  /** `declaration` with the corrected variable declaration. */
  function DeclarationCorrected(toks: seq<Token>, p: nat): (r: Parsed<Stmt>)
    requires ValidTokens(toks) && p < |toks|
    requires p > 0 || !AtEnd(toks, p)
    ensures p <= r.pos < |toks|
    ensures r.POk? ==> p < r.pos
  {
    var (isVar, q) := MatchAny(toks, p, [Var]);
    var res := if isVar then VarDeclarationCorrected(toks, q) else Statement(toks, p);
    if res.PErr? then PErr(res.error, Synchronize(toks, res.pos)) else res
  }

  datatype ParseResult = Statements(statements: seq<Stmt>) | Failure(error: LoxError)

  /** The loop of `parse`: declarations until the end, stopping at the
      first one that fails. */
  function ParseFrom(toks: seq<Token>, p: nat, done: seq<Stmt>): (r: ParseResult)
    requires ValidTokens(toks) && p < |toks|
    decreases |toks| - p
  {
    if AtEnd(toks, p) then Statements(done)
    else
      var d := Declaration(toks, p);
      if d.PErr? then Failure(d.error) else ParseFrom(toks, d.pos, done + [d.value])
  }

  /** `parse`: all statements of the token list, or the first error. */
  function Parse(toks: seq<Token>): ParseResult
    requires ValidTokens(toks)
  {
    ParseFrom(toks, 0, [])
  }

  /** The loop of `parse` over corrected declarations. */
  function ParseFromCorrected(toks: seq<Token>, p: nat, done: seq<Stmt>): (r: ParseResult)
    requires ValidTokens(toks) && p < |toks|
    decreases |toks| - p
  {
    if AtEnd(toks, p) then Statements(done)
    else
      var d := DeclarationCorrected(toks, p);
      if d.PErr? then Failure(d.error) else ParseFromCorrected(toks, d.pos, done + [d.value])
  }

  /** `parse` with the corrected variable declaration. */
  function ParseCorrected(toks: seq<Token>): ParseResult
    requires ValidTokens(toks)
  {
    ParseFromCorrected(toks, 0, [])
  }
}

=== FILE: parser_lemmas.dfy ===
/** Properties of the parser. The central one is a round trip: the trees
    the expression grammar produces are exactly the `Shaped` trees, and
    parsing the canonical token list of a shaped tree gives that tree back.
    Precedence and left associativity are both consequences. */
module ParserLemmas {
  import opened Tokens
  import opened Ast
  import opened Errors
  import opened Parser

  /** The tier an operator kind belongs to; 4 for kinds that are not binary
      operators. */
  function TierOf(k: TokenType): (t: nat)
    ensures t <= 4
    ensures t < 4 ==> k in TierOperators(t)
    ensures forall level :: 0 <= level < 4 && k in TierOperators(level) ==> t == level
  {
    if k in [BangEqual, Equal] then 0
    else if k in [Greater, GreaterEqual, Less, LessEqual] then 1
    else if k in [Minus, Plus] then 2
    else if k in [Slash, Star] then 3
    else 4
  }

  /** How tightly an expression's top operator binds: its tier for a binary
      node, 4 for everything else. */
  function Prec(e: Expr): nat {
    if e.BinaryExpr? then TierOf(e.operator.kind) else 4
  }

  /** The trees the expression grammar can produce: binary nodes carry a
      tier operator, take a left operand binding at least as tightly and a
      right operand binding strictly more tightly (left associativity);
      unary operands are unary or primary; variables are identifiers. */
  predicate Shaped(e: Expr)
    decreases e
  {
    match e
    case BinaryExpr(l, op, r) =>
      && TierOf(op.kind) < 4
      && Prec(l) >= TierOf(op.kind) && Prec(r) > TierOf(op.kind)
      && Shaped(l) && Shaped(r)
    case UnaryExpr(op, r) => op.kind in {Bang, Minus} && Prec(r) == 4 && Shaped(r)
    case GroupingExpr(x) => Shaped(x)
    case LiteralExpr(_) => true
    case VariableExpr(name) => name.kind == Identifier
    case _ => false
  }

  /** The token a literal is written with: the keyword for booleans and
      `nil`, a string token spelling the text in quotes, and a number token
      carrying the literal otherwise. */
  function LiteralToken(lit: Option<Object>): (t: Token)
    ensures t.kind in {False, True, TokenType.Nil, Number, String}
  {
    if lit == Some(Bool(false)) then Token(False, "false", None, 0)
    else if lit == Some(Bool(true)) then Token(True, "true", None, 0)
    else if lit == Some(Object.Nil) then Token(TokenType.Nil, "nil", None, 0)
    else if lit.Some? && lit.value.Str? then Token(String, "\"" + lit.value.s + "\"", lit, 0)
    else Token(Number, "", lit, 0)
  }

  function Paren(k: TokenType, text: string): Token {
    Token(k, text, None, 0)
  }

  /** The canonical token list of a shaped tree. */
  function Unparse(e: Expr): (u: seq<Token>)
    requires Shaped(e)
    ensures |u| > 0
    ensures forall i :: 0 <= i < |u| ==> u[i].kind != Eof
    decreases e
  {
    match e
    case BinaryExpr(l, op, r) => Unparse(l) + [op] + Unparse(r)
    case UnaryExpr(op, r) => [op] + Unparse(r)
    case GroupingExpr(x) => [Paren(LeftParen, "(")] + Unparse(x) + [Paren(RightParen, ")")]
    case LiteralExpr(lit) => [LiteralToken(lit)]
    case VariableExpr(name) => [name]
  }

  /** A canonical token list starts with a token that can begin an
      operand. */
  lemma {:induction false} UnparseStart(e: Expr)
    requires Shaped(e)
    ensures Unparse(e)[0].kind in {False, True, TokenType.Nil, Number, String, LeftParen, Identifier, Bang, Minus}
    decreases e
  {
    if e.BinaryExpr? {
      UnparseStart(e.left);
      assert Unparse(e)[0] == Unparse(e.left)[0];
    }
  }

  /** `u` sits in `toks` starting at `p`. */
  predicate At(toks: seq<Token>, p: nat, u: seq<Token>) {
    p + |u| <= |toks| && toks[p..p + |u|] == u
  }

  lemma AtSplit(toks: seq<Token>, p: nat, a: seq<Token>, b: seq<Token>)
    requires At(toks, p, a + b)
    ensures At(toks, p, a) && At(toks, p + |a|, b)
  {
    assert toks[p..p + |a|] == (a + b)[..|a|];
    assert toks[p + |a|..p + |a| + |b|] == (a + b)[|a|..];
  }

  lemma AtHead(toks: seq<Token>, p: nat, u: seq<Token>)
    requires At(toks, p, u) && |u| > 0
    ensures p < |toks| && toks[p] == u[0]
  {
    assert toks[p] == toks[p..p + |u|][0];
  }

  /** A token the tier-`level` fold, or a tighter one, would take as an
      operator. */
  predicate Binds(k: TokenType, level: nat) {
    level <= TierOf(k) < 4
  }

  /** A literal's token parses back to the literal. */
  lemma LiteralParses(toks: seq<Token>, p: nat, lit: Option<Object>)
    requires ValidTokens(toks) && p + 1 < |toks| && toks[p] == LiteralToken(lit)
    ensures Unary(toks, p) == POk(LiteralExpr(lit), p + 1)
  {
    assert !MatchAny(toks, p, [Bang, Minus]).0;
  }

  /** An identifier parses to the variable it names. */
  lemma VariableParses(toks: seq<Token>, p: nat, name: Token)
    requires ValidTokens(toks) && p + 1 < |toks| && toks[p] == name && name.kind == Identifier
    ensures Unary(toks, p) == POk(VariableExpr(name), p + 1)
  {
    assert !MatchAny(toks, p, [Bang, Minus]).0;
  }

  /** A parenthesised shaped tree parses to its grouping. */
  lemma {:induction false} GroupingParses(toks: seq<Token>, p: nat, x: Expr)
    requires ValidTokens(toks) && Shaped(x)
    requires At(toks, p, Unparse(GroupingExpr(x))) && p + |Unparse(GroupingExpr(x))| < |toks|
    ensures Unary(toks, p) == POk(GroupingExpr(x), p + |Unparse(GroupingExpr(x))|)
    decreases x, 11
  {
    var open, close := Paren(LeftParen, "("), Paren(RightParen, ")");
    assert Unparse(GroupingExpr(x)) == [open] + Unparse(x) + [close];
    AtSplit(toks, p, [open] + Unparse(x), [close]);
    AtSplit(toks, p, [open], Unparse(x));
    AtHead(toks, p, [open]);
    var q := p + 1 + |Unparse(x)|;
    AtHead(toks, q, [close]);
    TierFolds(toks, p + 1, 0, x);
    TierRestStops(toks, q, 0, x);
    GroupingCloses(toks, p + 1, x, q);
    UnaryAtParen(toks, p);
  }

  /** A tier's loop stops at a token that is none of its operators. */
  lemma TierRestStops(toks: seq<Token>, q: nat, level: nat, left: Expr)
    requires ValidTokens(toks) && q < |toks| && level < 4
    requires AtEnd(toks, q) || toks[q].kind !in TierOperators(level)
    ensures TierRest(toks, q, level, left) == POk(left, q)
  {
    assert !MatchAny(toks, q, TierOperators(level)).0;
  }

  /** A parsed inner expression followed by `)` closes the group. */
  lemma GroupingCloses(toks: seq<Token>, p: nat, x: Expr, q: nat)
    requires ValidTokens(toks) && 0 < p < |toks| && q + 1 < |toks|
    requires Expression(toks, p) == POk(x, q) && toks[q].kind == RightParen
    ensures Grouping(toks, p) == POk(GroupingExpr(x), q + 1)
  {
    assert Consume(toks, q, RightParen, "Expect ')' after expression") == POk(toks[q], q + 1);
  }

  /** At `(`, unary and primary hand over to the grouping rule. */
  lemma UnaryAtParen(toks: seq<Token>, p: nat)
    requires ValidTokens(toks) && p + 1 < |toks| && toks[p].kind == LeftParen
    ensures Unary(toks, p) == Grouping(toks, p + 1)
  {
    assert !MatchAny(toks, p, [Bang, Minus]).0;
    PrimaryAtParen(toks, p);
  }

  /** At `(`, primary hands over to the grouping rule. */
  lemma PrimaryAtParen(toks: seq<Token>, p: nat)
    requires ValidTokens(toks) && p + 1 < |toks| && toks[p].kind == LeftParen
    ensures Primary(toks, p) == Grouping(toks, p + 1)
  {
  }

  /** Unary and primary parse a shaped tree of precedence 4 from its
      canonical tokens, whatever follows them. */
  lemma {:induction false} UnaryParses(toks: seq<Token>, p: nat, e: Expr)
    requires ValidTokens(toks) && Shaped(e) && Prec(e) == 4
    requires At(toks, p, Unparse(e)) && p + |Unparse(e)| < |toks|
    ensures Unary(toks, p) == POk(e, p + |Unparse(e)|)
    decreases e, 1
  {
    match e
    case UnaryExpr(op, r) =>
      PrefixParses(toks, p, op, r);
    case GroupingExpr(x) =>
      GroupingParses(toks, p, x);
    case LiteralExpr(lit) =>
      AtHead(toks, p, Unparse(e));
      LiteralParses(toks, p, lit);
    case VariableExpr(name) =>
      AtHead(toks, p, Unparse(e));
      VariableParses(toks, p, name);
  }

  /** A prefix operator followed by the canonical tokens of its operand. */
  lemma {:induction false} PrefixParses(toks: seq<Token>, p: nat, op: Token, r: Expr)
    requires ValidTokens(toks) && Shaped(UnaryExpr(op, r))
    requires At(toks, p, Unparse(UnaryExpr(op, r))) && p + |Unparse(UnaryExpr(op, r))| < |toks|
    ensures Unary(toks, p) == POk(UnaryExpr(op, r), p + |Unparse(UnaryExpr(op, r))|)
    decreases UnaryExpr(op, r), 0
  {
    assert Unparse(UnaryExpr(op, r)) == [op] + Unparse(r);
    AtSplit(toks, p, [op], Unparse(r));
    AtHead(toks, p, [op]);
    UnaryParses(toks, p + 1, r);
    assert MatchAny(toks, p, [Bang, Minus]) == (true, p + 1);
  }

  /** The operand of tier `level` parses a shaped tree binding more tightly
      than that tier, provided the next token is no operator of a tighter
      tier. */
  lemma {:induction false} OperandParses(toks: seq<Token>, p: nat, level: nat, e: Expr)
    requires ValidTokens(toks) && level < 4 && Shaped(e) && Prec(e) > level
    requires At(toks, p, Unparse(e)) && p + |Unparse(e)| < |toks|
    requires !Binds(toks[p + |Unparse(e)|].kind, level + 1)
    ensures Operand(toks, p, level) == POk(e, p + |Unparse(e)|)
    decreases e, 9 - 2 * level
  {
    var q := p + |Unparse(e)|;
    if level == 3 {
      UnaryParses(toks, p, e);
    } else {
      TierFolds(toks, p, level + 1, e);
      assert toks[q].kind !in TierOperators(level + 1);
    }
  }

  /** The heart of the round trip: parsing a tier over the canonical tokens
      of a shaped tree of at least that tier amounts to having folded the
      whole tree already and carrying on after it. */
  lemma {:induction false} TierFolds(toks: seq<Token>, p: nat, level: nat, e: Expr)
    requires ValidTokens(toks) && level < 4 && Shaped(e) && Prec(e) >= level
    requires At(toks, p, Unparse(e)) && p + |Unparse(e)| < |toks|
    requires !Binds(toks[p + |Unparse(e)|].kind, level + 1)
    ensures Tier(toks, p, level) == TierRest(toks, p + |Unparse(e)|, level, e)
    decreases e, 10 - 2 * level
  {
    if Prec(e) > level {
      OperandParses(toks, p, level, e);
    } else {
      assert e.BinaryExpr? && TierOf(e.operator.kind) == level;
      assert e == BinaryExpr(e.left, e.operator, e.right);
      BinaryFolds(toks, p, level, e.left, e.operator, e.right);
    }
  }

  /** The binary case: the left operand folds first, at the same tier,
      then the operator takes the right operand. */
  lemma {:induction false} BinaryFolds(toks: seq<Token>, p: nat, level: nat, l: Expr, op: Token, r: Expr)
    requires ValidTokens(toks) && level < 4
    requires Shaped(BinaryExpr(l, op, r)) && TierOf(op.kind) == level
    requires At(toks, p, Unparse(BinaryExpr(l, op, r))) && p + |Unparse(BinaryExpr(l, op, r))| < |toks|
    requires !Binds(toks[p + |Unparse(BinaryExpr(l, op, r))|].kind, level + 1)
    ensures Tier(toks, p, level) == TierRest(toks, p + |Unparse(BinaryExpr(l, op, r))|, level, BinaryExpr(l, op, r))
    decreases BinaryExpr(l, op, r), 9 - 2 * level
  {
    assert Unparse(BinaryExpr(l, op, r)) == Unparse(l) + [op] + Unparse(r);
    AtSplit(toks, p, Unparse(l) + [op], Unparse(r));
    AtSplit(toks, p, Unparse(l), [op]);
    var m := p + |Unparse(l)|;
    AtHead(toks, m, [op]);
    assert toks[m] == op;
    TierFolds(toks, p, level, l);
    OperandParses(toks, m + 1, level, r);
    TierRestStep(toks, m, level, l, r, m + 1 + |Unparse(r)|);
  }

  /** One turn of a tier's loop: at an operator of the tier, the fold takes
      the next operand and carries on after it. */
  lemma TierRestStep(toks: seq<Token>, m: nat, level: nat, left: Expr, right: Expr, q: nat)
    requires ValidTokens(toks) && m + 1 < |toks| && level < 4
    requires toks[m].kind in TierOperators(level)
    requires Operand(toks, m + 1, level) == POk(right, q)
    ensures TierRest(toks, m, level, left) == TierRest(toks, q, level, BinaryExpr(left, toks[m], right))
  {
    assert MatchAny(toks, m, TierOperators(level)) == (true, m + 1);
  }

  /** Round trip: an expression parse of a shaped tree's canonical tokens,
      followed by anything that is not a binary operator, yields the tree
      and stops right after it. */
  lemma {:induction false} ParseUnparse(e: Expr, rest: seq<Token>)
    requires Shaped(e) && ValidTokens(rest) && !Binds(rest[0].kind, 0)
    ensures ValidTokens(Unparse(e) + rest)
    ensures Expression(Unparse(e) + rest, 0) == POk(e, |Unparse(e)|)
  {
    var toks := Unparse(e) + rest;
    assert toks[0..|Unparse(e)|] == Unparse(e);
    assert toks[|Unparse(e)|] == rest[0];
    TierFolds(toks, 0, 0, e);
  }

  /** Soundness, the other half: whatever the expression grammar parses is
      shaped, and a tier's result binds at least as tightly as the tier. */
  lemma {:induction false} ExpressionShaped(toks: seq<Token>, p: nat)
    requires ValidTokens(toks) && p < |toks|
    ensures Expression(toks, p).POk? ==> Shaped(Expression(toks, p).value)
    decreases |toks| - p, 11
  {
    TierShaped(toks, p, 0);
  }

  lemma {:induction false} TierShaped(toks: seq<Token>, p: nat, level: nat)
    requires ValidTokens(toks) && p < |toks| && level < 4
    ensures var r := Tier(toks, p, level);
            r.POk? ==> Shaped(r.value) && Prec(r.value) >= level
    decreases |toks| - p, 10 - 2 * level
  {
    var first := Operand(toks, p, level);
    OperandShaped(toks, p, level);
    if first.POk? {
      TierRestShaped(toks, first.pos, level, first.value);
    }
  }

  lemma {:induction false} OperandShaped(toks: seq<Token>, p: nat, level: nat)
    requires ValidTokens(toks) && p < |toks| && level < 4
    ensures var r := Operand(toks, p, level);
            r.POk? ==> Shaped(r.value) && Prec(r.value) > level
    decreases |toks| - p, 9 - 2 * level
  {
    if level == 3 {
      UnaryShaped(toks, p);
    } else {
      TierShaped(toks, p, level + 1);
    }
  }

  lemma {:induction false} TierRestShaped(toks: seq<Token>, p: nat, level: nat, left: Expr)
    requires ValidTokens(toks) && p < |toks| && level < 4
    requires Shaped(left) && Prec(left) >= level
    ensures var r := TierRest(toks, p, level, left);
            r.POk? ==> Shaped(r.value) && Prec(r.value) >= level
    decreases |toks| - p, 8 - 2 * level
  {
    var (found, q) := MatchAny(toks, p, TierOperators(level));
    if found {
      var right := Operand(toks, q, level);
      OperandShaped(toks, q, level);
      if right.POk? {
        TierRestShaped(toks, right.pos, level, BinaryExpr(left, Previous(toks, q), right.value));
      }
    }
  }

  lemma {:induction false} UnaryShaped(toks: seq<Token>, p: nat)
    requires ValidTokens(toks) && p < |toks|
    ensures var r := Unary(toks, p);
            r.POk? ==> Shaped(r.value) && Prec(r.value) == 4
    decreases |toks| - p, 2
  {
    var (found, q) := MatchAny(toks, p, [Bang, Minus]);
    if found {
      UnaryShaped(toks, q);
    } else if Check(toks, p, LeftParen) {
      assert Unary(toks, p) == Grouping(toks, p + 1);
      ExpressionShaped(toks, p + 1);
      GroupingShaped(toks, p + 1);
    }
  }

  lemma GroupingShaped(toks: seq<Token>, p: nat)
    requires ValidTokens(toks) && 0 < p < |toks|
    requires Expression(toks, p).POk? ==> Shaped(Expression(toks, p).value)
    ensures var r := Grouping(toks, p);
            r.POk? ==> r.value == GroupingExpr(Expression(toks, p).value) && Shaped(r.value)
  {
  }

  /** `a - b - c` groups to the left: `(a - b) - c`. */
  lemma SubtractionAssociatesLeft(a: Token, b: Token, c: Token, m1: Token, m2: Token, end: Token)
    requires a.kind == Identifier && b.kind == Identifier && c.kind == Identifier
    requires m1.kind == Minus && m2.kind == Minus && end.kind == Eof
    ensures Expression([a, m1, b, m2, c, end], 0) ==
            POk(BinaryExpr(BinaryExpr(VariableExpr(a), m1, VariableExpr(b)), m2, VariableExpr(c)), 5)
  {
    var e := BinaryExpr(BinaryExpr(VariableExpr(a), m1, VariableExpr(b)), m2, VariableExpr(c));
    assert Shaped(VariableExpr(a)) && Shaped(VariableExpr(b)) && Shaped(VariableExpr(c));
    assert Shaped(e.left);
    assert Unparse(e.left) == [a, m1, b];
    assert Unparse(e) + [end] == [a, m1, b, m2, c, end];
    ParseUnparse(e, [end]);
  }

  /** `a + b * c` puts the product under the sum: `a + (b * c)`. */
  lemma ProductBindsTighter(a: Token, b: Token, c: Token, plus: Token, times: Token, end: Token)
    requires a.kind == Identifier && b.kind == Identifier && c.kind == Identifier
    requires plus.kind == Plus && times.kind == Star && end.kind == Eof
    ensures Expression([a, plus, b, times, c, end], 0) ==
            POk(BinaryExpr(VariableExpr(a), plus, BinaryExpr(VariableExpr(b), times, VariableExpr(c))), 5)
  {
    var e := BinaryExpr(VariableExpr(a), plus, BinaryExpr(VariableExpr(b), times, VariableExpr(c)));
    assert Shaped(VariableExpr(a)) && Shaped(VariableExpr(b)) && Shaped(VariableExpr(c));
    assert Shaped(e.right);
    assert Unparse(e.right) == [b, times, c];
    assert Unparse(e) + [end] == [a, plus, b, times, c, end];
    ParseUnparse(e, [end]);
  }
}

=== FILE: program_lemmas.dfy ===
/** Properties of the statement layer of the parser: which statements it
    produces, the round trip from statements to tokens and back, error
    recovery, and the missing-semicolon discrepancy of `var_declaration`. */
module ProgramLemmas {
  import opened Tokens
  import opened Ast
  import opened Errors
  import opened Parser
  import opened ParserLemmas

  /** The statements the parser can produce: print and expression
      statements over shaped expressions, and variable declarations. */
  predicate StmtShaped(s: Stmt) {
    match s
    case PrintStmt(e) => Shaped(e)
    case ExpressionStmt(e) => Shaped(e)
    case VarStmt(name, init) => name.kind == Identifier && (init.Some? ==> Shaped(init.value))
    case _ => false
  }

  function Keyword(k: TokenType, text: string): Token {
    Token(k, text, None, 0)
  }

  /** The canonical tokens of a statement, each ending in `;`. */
  function UnparseStmt(s: Stmt): (u: seq<Token>)
    requires StmtShaped(s)
    ensures |u| > 0 && u[0].kind != Eof && u[|u| - 1].kind == Semicolon
  {
    var semi := Keyword(Semicolon, ";");
    match s
    case PrintStmt(e) => [Keyword(Print, "print")] + Unparse(e) + [semi]
    case ExpressionStmt(e) => Unparse(e) + [semi]
    case VarStmt(name, init) =>
      if init.None? then [Keyword(Var, "var"), name, semi]
      else [Keyword(Var, "var"), name, Keyword(Assign, "=")] + Unparse(init.value) + [semi]
  }

  function UnparseAll(ss: seq<Stmt>): (u: seq<Token>)
    requires forall i :: 0 <= i < |ss| ==> StmtShaped(ss[i])
  {
    if ss == [] then [] else UnparseStmt(ss[0]) + UnparseAll(ss[1..])
  }

  /** An expression followed by `;` parses back, the `;` included. */
  lemma {:induction false} ExpressionThenSemicolon(toks: seq<Token>, p: nat, e: Expr)
    requires ValidTokens(toks) && Shaped(e)
    requires At(toks, p, Unparse(e)) && p + |Unparse(e)| + 1 < |toks|
    requires toks[p + |Unparse(e)|].kind == Semicolon
    ensures Expression(toks, p) == POk(e, p + |Unparse(e)|)
  {
    TierFolds(toks, p, 0, e);
  }

  /** A declaration not starting with `var` is a statement. */
  lemma DeclarationIsStatement(toks: seq<Token>, p: nat)
    requires ValidTokens(toks) && p < |toks| && !AtEnd(toks, p)
    requires toks[p].kind != Var && Statement(toks, p).POk?
    ensures Declaration(toks, p) == Statement(toks, p)
  {
    assert !MatchAny(toks, p, [Var]).0;
  }

  /** A declaration starting with `var` is a variable declaration. */
  lemma DeclarationIsVar(toks: seq<Token>, p: nat)
    requires ValidTokens(toks) && p + 1 < |toks| && toks[p].kind == Var && VarDeclaration(toks, p + 1).POk?
    ensures Declaration(toks, p) == VarDeclaration(toks, p + 1)
  {
    assert MatchAny(toks, p, [Var]) == (true, p + 1);
  }

  /** A statement starting with `print` is a print statement, and any other
      is an expression statement. */
  lemma StatementDispatch(toks: seq<Token>, p: nat)
    requires ValidTokens(toks) && p + 1 < |toks|
    ensures toks[p].kind == Print ==> Statement(toks, p) == PrintStatement(toks, p + 1)
    ensures toks[p].kind != Print ==> Statement(toks, p) == ExpressionStatement(toks, p)
  {
    if toks[p].kind == Print {
      assert MatchAny(toks, p, [Print]) == (true, p + 1);
    } else {
      assert !MatchAny(toks, p, [Print]).0;
    }
  }

  /** An expression closed by `;` makes a print or expression statement. */
  lemma ClosedBySemicolon(toks: seq<Token>, p: nat, e: Expr, q: nat)
    requires ValidTokens(toks) && p < |toks|
    requires Expression(toks, p) == POk(e, q) && toks[q].kind == Semicolon
    ensures PrintStatement(toks, p) == POk(PrintStmt(e), q + 1)
    ensures ExpressionStatement(toks, p) == POk(ExpressionStmt(e), q + 1)
  {
    assert Consume(toks, q, Semicolon, "Expect ';' after value.") == POk(toks[q], q + 1);
  }

  /** `print e;` parses back. */
  lemma PrintUnparses(toks: seq<Token>, p: nat, e: Expr)
    requires ValidTokens(toks) && StmtShaped(PrintStmt(e))
    requires At(toks, p, UnparseStmt(PrintStmt(e))) && p + |UnparseStmt(PrintStmt(e))| < |toks|
    ensures Declaration(toks, p) == POk(PrintStmt(e), p + |UnparseStmt(PrintStmt(e))|)
  {
    PrintTokens(e);
    AtBetween(toks, p, [Keyword(Print, "print")], Unparse(e), Keyword(Semicolon, ";"));
    PrintParses(toks, p, e);
  }

  /** The tokens of `print e;`. */
  lemma PrintTokens(e: Expr)
    requires Shaped(e)
    ensures UnparseStmt(PrintStmt(e)) == [Keyword(Print, "print")] + Unparse(e) + [Keyword(Semicolon, ";")]
  {
  }

  /** The keyword `print`, an expression's tokens and `;` make a print
      statement. */
  lemma PrintParses(toks: seq<Token>, p: nat, e: Expr)
    requires ValidTokens(toks) && Shaped(e) && p + 2 + |Unparse(e)| < |toks|
    requires toks[p].kind == Print && At(toks, p + 1, Unparse(e))
    requires toks[p + 1 + |Unparse(e)|].kind == Semicolon
    ensures Declaration(toks, p) == POk(PrintStmt(e), p + 2 + |Unparse(e)|)
  {
    var q := p + 1 + |Unparse(e)|;
    ExpressionThenSemicolon(toks, p + 1, e);
    ClosedBySemicolon(toks, p + 1, e, q);
    StatementDispatch(toks, p);
    DeclarationIsStatement(toks, p);
  }

  /** `e;` parses back. */
  lemma ExpressionStmtUnparses(toks: seq<Token>, p: nat, e: Expr)
    requires ValidTokens(toks) && StmtShaped(ExpressionStmt(e))
    requires At(toks, p, UnparseStmt(ExpressionStmt(e))) && p + |UnparseStmt(ExpressionStmt(e))| < |toks|
    ensures Declaration(toks, p) == POk(ExpressionStmt(e), p + |UnparseStmt(ExpressionStmt(e))|)
  {
    ExpressionStmtTokens(e);
    AtClosed(toks, p, Unparse(e), Keyword(Semicolon, ";"));
    ExpressionStmtParses(toks, p, e);
  }

  /** A run of tokens between a head and a closing token. */
  lemma AtBetween(toks: seq<Token>, p: nat, a: seq<Token>, b: seq<Token>, c: Token)
    requires At(toks, p, a + b + [c]) && |a| > 0
    ensures At(toks, p, a) && toks[p] == a[0] && At(toks, p + |a|, b)
    ensures p + |a| + |b| < |toks| && toks[p + |a| + |b|] == c
  {
    AtSplit(toks, p, a + b, [c]);
    AtSplit(toks, p, a, b);
    AtHead(toks, p + |a| + |b|, [c]);
    AtHead(toks, p, a);
  }

  /** Three tokens in a row. */
  lemma AtTriple(toks: seq<Token>, p: nat, x: Token, y: Token, z: Token)
    requires At(toks, p, [x, y, z])
    ensures p + 2 < |toks| && toks[p] == x && toks[p + 1] == y && toks[p + 2] == z
  {
    assert toks[p..p + 3] == [x, y, z];
    assert toks[p + 1] == toks[p..p + 3][1] && toks[p + 2] == toks[p..p + 3][2];
  }

  /** The tokens of `e;`. */
  lemma ExpressionStmtTokens(e: Expr)
    requires Shaped(e)
    ensures UnparseStmt(ExpressionStmt(e)) == Unparse(e) + [Keyword(Semicolon, ";")]
  {
  }

  /** A run of tokens followed by a closing token. */
  lemma AtClosed(toks: seq<Token>, p: nat, b: seq<Token>, c: Token)
    requires At(toks, p, b + [c])
    ensures At(toks, p, b) && p + |b| < |toks| && toks[p + |b|] == c
  {
    AtSplit(toks, p, b, [c]);
    AtHead(toks, p + |b|, [c]);
  }

  /** An expression's tokens and `;` make an expression statement. */
  lemma {:induction false} ExpressionStmtParses(toks: seq<Token>, p: nat, e: Expr)
    requires ValidTokens(toks) && Shaped(e) && p + 1 + |Unparse(e)| < |toks|
    requires At(toks, p, Unparse(e)) && toks[p + |Unparse(e)|].kind == Semicolon
    ensures Declaration(toks, p) == POk(ExpressionStmt(e), p + 1 + |Unparse(e)|)
  {
    AtHead(toks, p, Unparse(e));
    UnparseStart(e);
    ExpressionThenSemicolon(toks, p, e);
    ClosedBySemicolon(toks, p, e, p + |Unparse(e)|);
    StatementDispatch(toks, p);
    DeclarationIsStatement(toks, p);
  }

  /** The body of a variable declaration after its name: no initializer,
      or `= e`, then `;`. */
  lemma VarTail(toks: seq<Token>, p: nat, name: Token, init: Option<Expr>, q: nat)
    requires ValidTokens(toks) && p + 2 < |toks| && toks[p].kind == Identifier && toks[p] == name
    requires init.None? ==> q == p + 1 && toks[p + 1].kind != Assign
    requires init.Some? ==> toks[p + 1].kind == Assign && p + 2 < |toks| && Expression(toks, p + 2) == POk(init.value, q)
    requires q < |toks| && toks[q].kind == Semicolon
    ensures VarDeclaration(toks, p) == POk(VarStmt(name, init), q + 1)
  {
    assert Consume(toks, p, Identifier, "Expected variable name") == POk(name, p + 1);
    if init.None? {
      assert MatchAny(toks, p + 1, [Assign]) == (false, p + 1);
    } else {
      assert MatchAny(toks, p + 1, [Assign]) == (true, p + 2);
    }
    assert Consume(toks, q, Semicolon, "Expected ';' after variable decalaration.") == POk(toks[q], q + 1);
  }

  /** As written, a declaration whose name and optional initializer are
      followed by anything but `;` is still accepted, stopping at that
      token; the corrected rule fails there instead. */
  lemma VarTailWithoutSemicolon(toks: seq<Token>, p: nat, name: Token, init: Option<Expr>, q: nat)
    requires ValidTokens(toks) && p + 1 < |toks| && toks[p].kind == Identifier && toks[p] == name
    requires init.None? ==> q == p + 1 && toks[p + 1].kind != Assign
    requires init.Some? ==> toks[p + 1].kind == Assign && p + 2 < |toks| && Expression(toks, p + 2) == POk(init.value, q)
    requires q < |toks| && toks[q].kind != Semicolon
    ensures VarDeclaration(toks, p) == POk(VarStmt(name, init), q)
    ensures VarDeclarationCorrected(toks, p) ==
            PErr(ParseError(toks[q], "Expected ';' after variable decalaration."), q)
  {
    assert Consume(toks, p, Identifier, "Expected variable name") == POk(name, p + 1);
    if init.None? {
      assert MatchAny(toks, p + 1, [Assign]) == (false, p + 1);
    } else {
      assert MatchAny(toks, p + 1, [Assign]) == (true, p + 2);
    }
  }

  /** Both rules need the name: without an identifier the declaration fails
      at the token found, without consuming it. */
  lemma VarNeedsName(toks: seq<Token>, p: nat)
    requires ValidTokens(toks) && p < |toks| && !Check(toks, p, Identifier)
    ensures VarDeclaration(toks, p) == PErr(ParseError(toks[p], "Expected variable name"), p)
    ensures VarDeclarationCorrected(toks, p) == PErr(ParseError(toks[p], "Expected variable name"), p)
  {
  }

  /** `var x print …`: as written the declaration `var x` is accepted and
      the next declaration starts at `print`; corrected, the declaration
      fails at `print` with the missing-`;` error. */
  lemma VarBeforePrintAccepted(toks: seq<Token>)
    requires ValidTokens(toks) && |toks| > 3
    requires toks[0].kind == Var && toks[1].kind == Identifier && toks[2].kind == Print
    ensures Declaration(toks, 0) == POk(VarStmt(toks[1], None), 2)
    ensures DeclarationCorrected(toks, 0).PErr? &&
            DeclarationCorrected(toks, 0).error == ParseError(toks[2], "Expected ';' after variable decalaration.")
  {
    assert MatchAny(toks, 0, [Var]) == (true, 1);
    VarTailWithoutSemicolon(toks, 1, toks[1], None, 2);
  }

  /** `var x;` and `var x = e;` parse back. */
  lemma VarUnparses(toks: seq<Token>, p: nat, name: Token, init: Option<Expr>)
    requires ValidTokens(toks) && StmtShaped(VarStmt(name, init))
    requires At(toks, p, UnparseStmt(VarStmt(name, init))) && p + |UnparseStmt(VarStmt(name, init))| < |toks|
    ensures Declaration(toks, p) == POk(VarStmt(name, init), p + |UnparseStmt(VarStmt(name, init))|)
  {
    if init.None? {
      VarPlaced(toks, p, name);
      VarTail(toks, p + 1, name, init, p + 2);
      DeclarationIsVar(toks, p);
    } else {
      VarInitUnparses(toks, p, name, init.value);
    }
  }

  /** `var x = e;` parses back. */
  lemma VarInitUnparses(toks: seq<Token>, p: nat, name: Token, e: Expr)
    requires ValidTokens(toks) && StmtShaped(VarStmt(name, Some(e)))
    requires At(toks, p, UnparseStmt(VarStmt(name, Some(e)))) && p + |UnparseStmt(VarStmt(name, Some(e)))| < |toks|
    ensures Declaration(toks, p) == POk(VarStmt(name, Some(e)), p + |UnparseStmt(VarStmt(name, Some(e)))|)
  {
    var semi, varKw, assign := Keyword(Semicolon, ";"), Keyword(Var, "var"), Keyword(Assign, "=");
    VarInitTokens(name, e);
    AtBetween(toks, p, [varKw, name, assign], Unparse(e), semi);
    AtTriple(toks, p, varKw, name, assign);
    ExpressionThenSemicolon(toks, p + 3, e);
    VarTail(toks, p + 1, name, Some(e), p + 3 + |Unparse(e)|);
    DeclarationIsVar(toks, p);
  }

  /** Where the parts of `var x;` lie. */
  lemma VarPlaced(toks: seq<Token>, p: nat, name: Token)
    requires StmtShaped(VarStmt(name, None)) && At(toks, p, UnparseStmt(VarStmt(name, None)))
    ensures |UnparseStmt(VarStmt(name, None))| == 3
    ensures toks[p].kind == Var && toks[p + 1] == name && name.kind == Identifier
    ensures toks[p + 2].kind == Semicolon
  {
    assert UnparseStmt(VarStmt(name, None)) == [Keyword(Var, "var"), name, Keyword(Semicolon, ";")];
    AtTriple(toks, p, Keyword(Var, "var"), name, Keyword(Semicolon, ";"));
  }

  /** The tokens of `var x = e;`. */
  lemma VarInitTokens(name: Token, e: Expr)
    requires StmtShaped(VarStmt(name, Some(e)))
    ensures UnparseStmt(VarStmt(name, Some(e)))
      == [Keyword(Var, "var"), name, Keyword(Assign, "=")] + Unparse(e) + [Keyword(Semicolon, ";")]
  {
  }

  /** Every statement's canonical tokens parse back to it as one
      declaration. */
  lemma DeclarationUnparses(toks: seq<Token>, p: nat, s: Stmt)
    requires ValidTokens(toks) && StmtShaped(s)
    requires At(toks, p, UnparseStmt(s)) && p + |UnparseStmt(s)| < |toks|
    ensures Declaration(toks, p) == POk(s, p + |UnparseStmt(s)|)
  {
    match s
    case PrintStmt(e) => PrintUnparses(toks, p, e);
    case ExpressionStmt(e) => ExpressionStmtUnparses(toks, p, e);
    case VarStmt(name, init) => VarUnparses(toks, p, name, init);
  }

  /** One turn of the loop of `parse`. */
  lemma ParseFromStep(toks: seq<Token>, p: nat, done: seq<Stmt>, s: Stmt, q: nat)
    requires ValidTokens(toks) && p < |toks| && !AtEnd(toks, p)
    requires Declaration(toks, p) == POk(s, q)
    ensures ParseFrom(toks, p, done) == ParseFrom(toks, q, done + [s])
  {
  }

  lemma AppendHead<T>(done: seq<T>, ss: seq<T>)
    requires |ss| > 0
    ensures done + [ss[0]] + ss[1..] == done + ss
  {
  }

  /** The token blocks of the statements, one per statement. */
  function Blocks(ss: seq<Stmt>): (bs: seq<seq<Token>>)
    requires forall i :: 0 <= i < |ss| ==> StmtShaped(ss[i])
    ensures |bs| == |ss|
  {
    if ss == [] then [] else [UnparseStmt(ss[0])] + Blocks(ss[1..])
  }

  /** Blocks of tokens joined in order. */
  function Flatten(bs: seq<seq<Token>>): seq<Token> {
    if bs == [] then [] else bs[0] + Flatten(bs[1..])
  }

  /** The blocks lie one after another from `p`, and the last of them is
      followed only by the final token. */
  ghost predicate BlocksAt(toks: seq<Token>, p: nat, bs: seq<seq<Token>>)
    decreases |bs|
  {
    if bs == [] then p + 1 == |toks|
    else At(toks, p, bs[0]) && p + |bs[0]| < |toks| && BlocksAt(toks, p + |bs[0]|, bs[1..])
  }

  /** From `p`, successive declarations yield the statements `ss` and
      then reach the end of input. */
  ghost predicate Declares(toks: seq<Token>, p: nat, ss: seq<Stmt>)
    requires ValidTokens(toks) && p < |toks|
    decreases |ss|
  {
    if ss == [] then AtEnd(toks, p)
    else
      && !AtEnd(toks, p)
      && Declaration(toks, p).POk?
      && Declaration(toks, p).value == ss[0]
      && Declares(toks, Declaration(toks, p).pos, ss[1..])
  }

  /** The loop of `parse` collects the statements the declarations yield. */
  lemma {:induction false} ParseDeclares(toks: seq<Token>, p: nat, ss: seq<Stmt>, done: seq<Stmt>)
    requires ValidTokens(toks) && p < |toks| && Declares(toks, p, ss)
    ensures ParseFrom(toks, p, done) == Statements(done + ss)
    decreases |ss|
  {
    if ss == [] {
      assert done + ss == done;
    } else {
      var d := Declaration(toks, p);
      ParseDeclares(toks, d.pos, ss[1..], done + [ss[0]]);
      ParseFromStep(toks, p, done, ss[0], d.pos);
      AppendHead(done, ss);
    }
  }

  /** Round trip for programs: the placed blocks of shaped statements
      declare exactly those statements. */
  lemma {:induction false} ParseUnparseAll(ss: seq<Stmt>, toks: seq<Token>, p: nat)
    requires forall i :: 0 <= i < |ss| ==> StmtShaped(ss[i])
    requires ValidTokens(toks) && BlocksAt(toks, p, Blocks(ss))
    ensures p < |toks| && Declares(toks, p, ss)
    decreases |ss|
  {
    if ss != [] {
      var u := BlocksCons(ss);
      ParseUnparseAll(ss[1..], toks, p + |u|);
      DeclaresHead(toks, p, ss, u);
    }
  }

  /** The first block is the first statement's tokens, and the others are
      the remaining statements' blocks. */
  lemma {:induction false} BlocksCons(ss: seq<Stmt>) returns (u: seq<Token>)
    requires |ss| > 0 && forall i :: 0 <= i < |ss| ==> StmtShaped(ss[i])
    ensures forall i :: 0 <= i < |ss[1..]| ==> StmtShaped(ss[1..][i])
    ensures StmtShaped(ss[0]) && u == UnparseStmt(ss[0])
    ensures Blocks(ss)[0] == u && Blocks(ss)[1..] == Blocks(ss[1..])
  {
    TailShaped(ss);
    u := UnparseStmt(ss[0]);
  }

  /** A placed first statement is declared, and the declarations carry
      on from the end of its tokens. */
  lemma {:induction false} DeclaresHead(toks: seq<Token>, p: nat, ss: seq<Stmt>, u: seq<Token>)
    requires |ss| > 0 && StmtShaped(ss[0]) && u == UnparseStmt(ss[0]) && ValidTokens(toks)
    requires At(toks, p, u) && p + |u| < |toks|
    requires Declares(toks, p + |u|, ss[1..])
    ensures p < |toks| && Declares(toks, p, ss)
  {
    AtHead(toks, p, u);
    DeclarationUnparses(toks, p, ss[0]);
  }

  /** Joined blocks, closed by the final token, place each block right
      after the one before. */
  lemma {:induction false} FlattenPlaces(bs: seq<seq<Token>>, toks: seq<Token>, p: nat)
    requires ValidTokens(toks) && At(toks, p, Flatten(bs)) && p + |Flatten(bs)| == |toks| - 1
    ensures BlocksAt(toks, p, bs)
    decreases |bs|
  {
    if bs != [] {
      SplitProgram(toks, p, bs[0], Flatten(bs[1..]));
      FlattenPlaces(bs[1..], toks, p + |bs[0]|);
    }
  }

  /** A program's tokens are its statements' blocks joined. */
  lemma {:induction false} UnparseAllFlattens(ss: seq<Stmt>)
    requires forall i :: 0 <= i < |ss| ==> StmtShaped(ss[i])
    ensures UnparseAll(ss) == Flatten(Blocks(ss))
    decreases |ss|
  {
    if ss != [] {
      var u := BlocksCons(ss);
      UnparseAllFlattens(ss[1..]);
    }
  }

  /** Tokens that end just before the final token split into a first
      part and the rest. */
  lemma SplitProgram(toks: seq<Token>, p: nat, u: seq<Token>, rest: seq<Token>)
    requires ValidTokens(toks) && At(toks, p, u + rest) && p + |u + rest| == |toks| - 1
    ensures At(toks, p, u) && At(toks, p + |u|, rest)
    ensures p + |u| + |rest| == |toks| - 1
  {
    AtSplit(toks, p, u, rest);
  }

  lemma TailShaped(ss: seq<Stmt>)
    requires |ss| > 0 && forall i :: 0 <= i < |ss| ==> StmtShaped(ss[i])
    ensures forall i :: 0 <= i < |ss[1..]| ==> StmtShaped(ss[1..][i])
  {
    forall i | 0 <= i < |ss[1..]| ensures StmtShaped(ss[1..][i]) {
      assert ss[1..][i] == ss[i + 1];
    }
  }

  lemma {:induction false} ParseProgram(ss: seq<Stmt>, end: Token)
    requires forall i :: 0 <= i < |ss| ==> StmtShaped(ss[i])
    requires end.kind == Eof
    ensures ValidTokens(UnparseAll(ss) + [end])
    ensures Parse(UnparseAll(ss) + [end]) == Statements(ss)
  {
    var toks := UnparseAll(ss) + [end];
    assert toks[0..|UnparseAll(ss)|] == UnparseAll(ss);
    UnparseAllFlattens(ss);
    FlattenPlaces(Blocks(ss), toks, 0);
    ParseUnparseAll(ss, toks, 0);
    ParseDeclares(toks, 0, ss, []);
    assert [] + ss == ss;
  }

  /** Soundness: every statement the parser produces is shaped, and every
      one but a variable declaration ends with its `;`. */
  lemma {:induction false} DeclarationShaped(toks: seq<Token>, p: nat)
    requires ValidTokens(toks) && p < |toks|
    requires p > 0 || !AtEnd(toks, p)
    ensures var r := Declaration(toks, p);
            r.POk? ==> StmtShaped(r.value) && (r.value.VarStmt? || toks[r.pos - 1].kind == Semicolon)
  {
    var q := MatchAny(toks, p, [Var]).1;
    DeclarationSucceeds(toks, p);
    VarDeclarationShaped(toks, q);
    StatementShaped(toks, p);
  }

  /** A declaration that succeeds is the `var` declaration or the
      statement it dispatched to. */
  lemma DeclarationSucceeds(toks: seq<Token>, p: nat)
    requires ValidTokens(toks) && p < |toks|
    requires p > 0 || !AtEnd(toks, p)
    ensures var (isVar, q) := MatchAny(toks, p, [Var]);
            var r := Declaration(toks, p);
            r.POk? ==> r == if isVar then VarDeclaration(toks, q) else Statement(toks, p)
  {
  }

  lemma VarDeclarationShaped(toks: seq<Token>, p: nat)
    requires ValidTokens(toks) && p < |toks|
    ensures var r := VarDeclaration(toks, p);
            r.POk? ==> StmtShaped(r.value)
  {
    var name := Consume(toks, p, Identifier, "Expected variable name");
    if name.POk? {
      var (hasInit, q) := MatchAny(toks, name.pos, [Assign]);
      if hasInit {
        ExpressionShaped(toks, q);
      }
      var init := if hasInit then Expression(toks, q) else POk(LiteralExpr(None), q);
      if init.POk? {
        var semi := Consume(toks, init.pos, Semicolon, "Expected ';' after variable decalaration.");
        assert VarDeclaration(toks, p) ==
               POk(VarStmt(name.value, if hasInit then Some(init.value) else None), semi.pos);
      }
    }
  }

  lemma StatementShaped(toks: seq<Token>, p: nat)
    requires ValidTokens(toks) && p < |toks|
    ensures var r := Statement(toks, p);
            r.POk? ==> StmtShaped(r.value) && toks[r.pos - 1].kind == Semicolon
  {
    var (isPrint, q) := MatchAny(toks, p, [Print]);
    var e := Expression(toks, if isPrint then q else p);
    ExpressionShaped(toks, if isPrint then q else p);
    if e.POk? {
      var semi := Consume(toks, e.pos, Semicolon, "Expect ';' after value.");
      if isPrint {
        assert Statement(toks, p) == PrintStatement(toks, q);
        assert PrintStatement(toks, q) == if semi.PErr? then PErr(semi.error, semi.pos) else POk(PrintStmt(e.value), semi.pos);
      } else {
        assert Statement(toks, p) == ExpressionStatement(toks, p);
        assert ExpressionStatement(toks, p) == if semi.PErr? then PErr(semi.error, semi.pos) else POk(ExpressionStmt(e.value), semi.pos);
      }
    }
  }

  lemma {:induction false} ParseFromShaped(toks: seq<Token>, p: nat, done: seq<Stmt>)
    requires ValidTokens(toks) && p < |toks|
    requires forall i :: 0 <= i < |done| ==> StmtShaped(done[i])
    ensures var r := ParseFrom(toks, p, done);
            r.Statements? ==> forall i :: 0 <= i < |r.statements| ==> StmtShaped(r.statements[i])
    decreases |toks| - p
  {
    if !AtEnd(toks, p) {
      var d := Declaration(toks, p);
      DeclarationShaped(toks, p);
      if d.POk? {
        var more := done + [d.value];
        forall i | 0 <= i < |more| ensures StmtShaped(more[i]) {
          if i < |done| {
            assert more[i] == done[i];
          }
        }
        ParseFromStep(toks, p, done, d.value, d.pos);
        ParseFromShaped(toks, d.pos, more);
      } else {
        assert ParseFrom(toks, p, done) == Failure(d.error);
      }
    }
  }

  /** Everything `parse` returns is shaped, so by the round trip it is
      determined by, and recoverable from, its canonical tokens. */
  lemma ParseShaped(toks: seq<Token>)
    requires ValidTokens(toks)
    ensures Parse(toks).Statements? ==>
              forall i :: 0 <= i < |Parse(toks).statements| ==> StmtShaped(Parse(toks).statements[i])
  {
    ParseFromShaped(toks, 0, []);
  }

  /** `parse` returns the error of the first declaration that fails: once a
      declaration fails, nothing after it is looked at. */
  lemma ParseStopsAtFirstError(toks: seq<Token>, p: nat, done: seq<Stmt>)
    requires ValidTokens(toks) && p < |toks| && !AtEnd(toks, p)
    requires Declaration(toks, p).PErr?
    ensures ParseFrom(toks, p, done) == Failure(Declaration(toks, p).error)
  {
  }

  /** Recovery: a failed declaration leaves the cursor where a statement
      can resume, having discarded at least the failing token. */
  lemma DeclarationRecovers(toks: seq<Token>, p: nat)
    requires ValidTokens(toks) && p < |toks| && (p > 0 || !AtEnd(toks, p))
    ensures var r := Declaration(toks, p);
            r.PErr? ==> 0 < r.pos && SyncPoint(toks, r.pos)
  {
  }

  /** An expression cannot start with a token that begins no operand; the
      error carries line 0 and does not move the cursor. */
  lemma {:induction false} ExpressionNeedsOperand(toks: seq<Token>, p: nat)
    requires ValidTokens(toks) && p < |toks|
    requires toks[p].kind !in {False, True, TokenType.Nil, Number, String, LeftParen, Identifier, Bang, Minus}
    ensures Expression(toks, p) == PErr(NewError(0, "Expect expression"), p)
  {
    var err := PErr(NewError(0, "Expect expression"), p);
    assert !MatchAny(toks, p, [Bang, Minus]).0;
    assert Unary(toks, p) == err;
    assert Tier(toks, p, 3) == err;
    assert Tier(toks, p, 2) == err;
    assert Tier(toks, p, 1) == err;
    assert Tier(toks, p, 0) == err;
  }

  /** A group left open fails at the token where `)` was expected. */
  lemma UnclosedGroup(toks: seq<Token>, p: nat)
    requires ValidTokens(toks) && 0 < p < |toks|
    requires Expression(toks, p).POk?
    requires toks[Expression(toks, p).pos].kind != RightParen || AtEnd(toks, Expression(toks, p).pos)
    ensures var q := Expression(toks, p).pos;
            Grouping(toks, p) == PErr(ParseError(toks[q], "Expect ')' after expression"), q)
  {
  }

  /** The discrepancy: as written, `var x` followed by anything other than
      `;` (here, the end of the input) is accepted as a declaration; the
      corrected rule rejects it at the token found instead. */
  lemma VarWithoutSemicolonAccepted(x: Token, end: Token)
    requires x.kind == Identifier && end.kind == Eof
    ensures VarDeclaration([x, end], 0) == POk(VarStmt(x, None), 1)
    ensures VarDeclarationCorrected([x, end], 0) ==
            PErr(ParseError(end, "Expected ';' after variable decalaration."), 1)
  {
    var toks := [x, end];
    assert Consume(toks, 0, Identifier, "Expected variable name") == POk(x, 1);
    assert MatchAny(toks, 1, [Assign]) == (false, 1);
    assert Consume(toks, 1, Semicolon, "Expected ';' after variable decalaration.") ==
           PErr(ParseError(end, "Expected ';' after variable decalaration."), 1);
  }

  /** The same at the level of a whole program: `var x` and then the end
      of the input parses as one declaration, while the corrected parser
      fails with the missing-`;` error. */
  lemma ProgramWithoutSemicolonParses(v: Token, x: Token, end: Token)
    requires v.kind == Var && x.kind == Identifier && end.kind == Eof
    ensures ValidTokens([v, x, end])
    ensures Parse([v, x, end]) == Statements([VarStmt(x, None)])
    ensures ParseCorrected([v, x, end]) ==
            Failure(ParseError(end, "Expected ';' after variable decalaration."))
  {
    var toks := [v, x, end];
    assert MatchAny(toks, 0, [Var]) == (true, 1);
    VarWithoutSemicolonAt(toks, 1);
    assert Declaration(toks, 0) == POk(VarStmt(x, None), 2);
    ParseFromStep(toks, 0, [], VarStmt(x, None), 2);
    assert [] + [VarStmt(x, None)] == [VarStmt(x, None)];
    assert Synchronize(toks, 2) == 2;
    assert DeclarationCorrected(toks, 0) == PErr(ParseError(end, "Expected ';' after variable decalaration."), 2);
  }

  lemma VarWithoutSemicolonAt(toks: seq<Token>, p: nat)
    requires ValidTokens(toks) && p + 1 < |toks|
    requires toks[p].kind == Identifier && toks[p + 1].kind == Eof
    ensures VarDeclaration(toks, p) == POk(VarStmt(toks[p], None), p + 1)
    ensures VarDeclarationCorrected(toks, p) ==
            PErr(ParseError(toks[p + 1], "Expected ';' after variable decalaration."), p + 1)
  {
    assert Consume(toks, p, Identifier, "Expected variable name") == POk(toks[p], p + 1);
    assert MatchAny(toks, p + 1, [Assign]) == (false, p + 1);
  }

  /** The corrected declaration only succeeds by consuming its `;`. */
  lemma VarDeclarationNeedsSemicolon(toks: seq<Token>, p: nat)
    requires ValidTokens(toks) && p < |toks|
    ensures var r := VarDeclarationCorrected(toks, p);
            r.POk? ==> toks[r.pos - 1].kind == Semicolon
  {
    var name := Consume(toks, p, Identifier, "Expected variable name");
    if name.POk? {
      var (hasInit, q) := MatchAny(toks, name.pos, [Assign]);
      var init := if hasInit then Expression(toks, q) else POk(LiteralExpr(None), q);
      if init.POk? {
        var semi := Consume(toks, init.pos, Semicolon, "Expected ';' after variable decalaration.");
        assert semi.POk? ==> semi.pos == init.pos + 1 && toks[init.pos].kind == Semicolon;
        assert VarDeclarationCorrected(toks, p) ==
               if semi.PErr? then PErr(semi.error, semi.pos)
               else POk(VarStmt(name.value, if hasInit then Some(init.value) else None), semi.pos);
      }
    }
  }

  /** The correction only turns successes into failures: where the
      corrected rule succeeds or the written one fails, the two agree, and
      they differ only on a variable declaration not followed by `;`. */
  lemma VarCorrectionOnlyRejects(toks: seq<Token>, p: nat)
    requires ValidTokens(toks) && p < |toks|
    ensures VarDeclarationCorrected(toks, p).POk? ==> VarDeclaration(toks, p) == VarDeclarationCorrected(toks, p)
    ensures VarDeclaration(toks, p).PErr? ==> VarDeclarationCorrected(toks, p) == VarDeclaration(toks, p)
    ensures VarDeclaration(toks, p).POk? && VarDeclarationCorrected(toks, p).PErr? ==>
              && VarDeclarationCorrected(toks, p).pos == VarDeclaration(toks, p).pos
              && toks[VarDeclaration(toks, p).pos].kind != Semicolon
  {
  }

  /** `declaration` as written against the corrected one, as for
      `VarCorrectionOnlyRejects`; the correction rejects exactly the
      `var` declarations that stop before a token other than `;`. */
  lemma DeclarationCorrectionOnlyRejects(toks: seq<Token>, p: nat)
    requires ValidTokens(toks) && p < |toks|
    requires p > 0 || !AtEnd(toks, p)
    ensures DeclarationCorrected(toks, p).POk? ==> Declaration(toks, p) == DeclarationCorrected(toks, p)
    ensures Declaration(toks, p).PErr? ==> DeclarationCorrected(toks, p) == Declaration(toks, p)
    ensures Declaration(toks, p).POk? && DeclarationCorrected(toks, p).PErr? ==>
              toks[p].kind == Var && toks[Declaration(toks, p).pos].kind != Semicolon
  {
    var (isVar, q) := MatchAny(toks, p, [Var]);
    if isVar {
      VarCorrectionOnlyRejects(toks, q);
    }
  }

  /** Every statement the corrected parser produces is shaped and ends with
      its `;`. */
  lemma DeclarationCorrectedShaped(toks: seq<Token>, p: nat)
    requires ValidTokens(toks) && p < |toks|
    requires p > 0 || !AtEnd(toks, p)
    ensures var r := DeclarationCorrected(toks, p);
            r.POk? ==> StmtShaped(r.value) && toks[r.pos - 1].kind == Semicolon
  {
    var (isVar, q) := MatchAny(toks, p, [Var]);
    DeclarationCorrectionOnlyRejects(toks, p);
    DeclarationShaped(toks, p);
    VarDeclarationNeedsSemicolon(toks, q);
    StatementShaped(toks, p);
  }

  /** Whatever program the corrected parser accepts, the parser as written
      reads in the same way. */
  lemma {:induction false} ParseCorrectedAgrees(toks: seq<Token>, p: nat, done: seq<Stmt>)
    requires ValidTokens(toks) && p < |toks|
    ensures ParseFromCorrected(toks, p, done).Statements? ==>
              ParseFrom(toks, p, done) == ParseFromCorrected(toks, p, done)
    decreases |toks| - p
  {
    if !AtEnd(toks, p) {
      DeclarationCorrectionOnlyRejects(toks, p);
      var d := DeclarationCorrected(toks, p);
      if d.POk? {
        ParseCorrectedAgrees(toks, d.pos, done + [d.value]);
        ParseFromStep(toks, p, done, d.value, d.pos);
      }
    }
  }
}

=== FILE: scanner.dfy ===
/** The scanner: a single cursor over the source characters with one
    character of lookahead. Each step starts a lexeme at `start`, consumes
    at least one character, and produces at most one token or one error.
    Errors do not stop the scan. */
module Scanner {
  import opened Tokens
  import opened Ast
  import opened Errors
  import opened Numerals

  /** The keyword table: sixteen reserved words, matched case-sensitively. */
  const Keywords: map<string, TokenType> := map[
    "and" := And, "class" := Class, "else" := Else, "false" := False,
    "for" := For, "fun" := Fun, "if" := If, "nil" := TokenType.Nil,
    "or" := Or, "print" := Print, "return" := TokenType.Return, "super" := Super,
    "this" := This, "true" := True, "var" := Var, "while" := While]

  predicate IsAlpha(c: char) {
    'a' <= c <= 'z' || 'A' <= c <= 'Z'
  }

  /** ASCII letters, digits and the underscore: what an identifier continues with. */
  predicate IsAlphaNumeric(c: char) {
    IsAlpha(c) || IsDigit(c) || c == '_'
  }

  /** Number of line breaks in `src[i..j]`. */
  function NewlinesIn(src: seq<char>, i: nat, j: nat): nat
    requires i <= j <= |src|
    decreases j
  {
    if j == i then 0 else NewlinesIn(src, i, j - 1) + (if src[j - 1] == '\n' then 1 else 0)
  }

  lemma {:induction false} NewlinesAdd(src: seq<char>, i: nat, j: nat, k: nat)
    requires i <= j <= k <= |src|
    ensures NewlinesIn(src, i, k) == NewlinesIn(src, i, j) + NewlinesIn(src, j, k)
    decreases k
  {
    if k > j {
      NewlinesAdd(src, i, j, k - 1);
    }
  }

  /** `peek`: the character under the cursor, if any. */
  function Peek(src: seq<char>, cur: nat): Option<char> {
    if cur < |src| then Some(src[cur]) else None
  }

  /** `peek_next`: the character after the cursor, if any. */
  function PeekNext(src: seq<char>, cur: nat): Option<char> {
    Peek(src, cur + 1)
  }

  /** `is_match`: whether the character under the cursor is `expected`
      (the caller then consumes it). */
  predicate Matches(src: seq<char>, cur: nat, expected: char) {
    Peek(src, cur) == Some(expected)
  }

  /** `add_token_object`: the lexeme is the text from `start` to `cur`, and
      the line is the current one. */
  function MakeToken(src: seq<char>, start: nat, cur: nat, kind: TokenType, literal: Option<Object>, line: nat): (t: Token)
    requires start <= cur <= |src|
    ensures t == NewToken(kind, src[start..cur], literal, line)
  {
    NewToken(kind, src[start..cur], literal, line)
  }

  /** The end of a `//` comment: the next line break (not consumed) or the
      end of input. */
  function LineCommentEnd(src: seq<char>, cur: nat): (e: nat)
    requires cur <= |src|
    ensures cur <= e <= |src|
    ensures e == |src| || src[e] == '\n'
    ensures forall k :: cur <= k < e ==> src[k] != '\n'
    decreases |src| - cur
  {
    if cur == |src| || src[cur] == '\n' then cur else LineCommentEnd(src, cur + 1)
  }

  /** Where a block comment scan stopped: just after its closing "star slash", or at
      the end of input when it was unterminated. */
  datatype CommentEnd = CommentEnd(cur: nat, line: nat, closed: bool)

  /** `scan_comment`, entered just after an opening "slash star". An inner "slash star"
      starts a nested scan that needs its own "star slash"; line breaks bump the
      line; the input running out leaves the comment unterminated. */
  function ScanComment(src: seq<char>, cur: nat, line: nat): (r: CommentEnd)
    requires cur <= |src|
    ensures cur <= r.cur <= |src|
    ensures r.closed ==> cur + 2 <= r.cur && src[r.cur - 2] == '*' && src[r.cur - 1] == '/'
    ensures !r.closed ==> r.cur == |src|
    ensures r.line == line + NewlinesIn(src, cur, r.cur)
    decreases |src| - cur
  {
    if cur == |src| then CommentEnd(cur, line, false)
    else if src[cur] == '*' then
      if Matches(src, cur + 1, '/') then
        NoNewlines(src, cur, cur + 2);
        CommentEnd(cur + 2, line, true)
      else Continue(src, cur, line, ScanComment(src, cur + 1, line))
    else if src[cur] == '/' then
      if Matches(src, cur + 1, '*') then
        var inner := ScanComment(src, cur + 2, line);
        NoNewlines(src, cur, cur + 2);
        NewlinesAdd(src, cur, cur + 2, inner.cur);
        if !inner.closed then inner
        else
          var rest := ScanComment(src, inner.cur, inner.line);
          NewlinesAdd(src, cur, inner.cur, rest.cur);
          rest
      else Continue(src, cur, line, ScanComment(src, cur + 1, line))
    else if src[cur] == '\n' then Continue(src, cur, line, ScanComment(src, cur + 1, line + 1))
    else Continue(src, cur, line, ScanComment(src, cur + 1, line))
  }

  /** Pass on the result of a comment scan resumed one character later,
      accounting for the newline count of that skipped character. */
  function Continue(src: seq<char>, cur: nat, line: nat, r: CommentEnd): (r': CommentEnd)
    requires cur < |src| && cur + 1 <= r.cur <= |src|
    requires r.line == line + (if src[cur] == '\n' then 1 else 0) + NewlinesIn(src, cur + 1, r.cur)
    ensures r' == r && r'.line == line + NewlinesIn(src, cur, r'.cur)
  {
    NewlinesAdd(src, cur, cur + 1, r.cur);
    r
  }

  /** A reference reading of nested comments: one left-to-right pass with
      a nesting counter that "slash star" raises and "star slash" lowers; the comment ends
      when the counter returns to zero. */
  function CommentDepth(src: seq<char>, cur: nat, line: nat, depth: nat): CommentEnd
    requires cur <= |src| && depth >= 1
    decreases |src| - cur
  {
    if cur == |src| then CommentEnd(cur, line, false)
    else if src[cur] == '*' && Matches(src, cur + 1, '/') then
      if depth == 1 then CommentEnd(cur + 2, line, true) else CommentDepth(src, cur + 2, line, depth - 1)
    else if src[cur] == '/' && Matches(src, cur + 1, '*') then CommentDepth(src, cur + 2, line, depth + 1)
    else CommentDepth(src, cur + 1, if src[cur] == '\n' then line + 1 else line, depth)
  }

  /** The recursive comment scanner and the counter reading agree: at
      nesting depth `d`, the counter pass ends where `d` successive closed
      recursive scans end. */
  lemma {:induction false} CommentDepthMatches(src: seq<char>, cur: nat, line: nat, d: nat)
    requires cur <= |src| && d >= 1
    ensures var r := ScanComment(src, cur, line);
            CommentDepth(src, cur, line, d) ==
              if !r.closed || d == 1 then r else CommentDepth(src, r.cur, r.line, d - 1)
    decreases |src| - cur
  {
    if cur == |src| {
    } else if src[cur] == '*' && Matches(src, cur + 1, '/') {
    } else if src[cur] == '/' && Matches(src, cur + 1, '*') {
      CommentDepthMatches(src, cur + 2, line, d + 1);
      var inner := ScanComment(src, cur + 2, line);
      if inner.closed {
        CommentDepthMatches(src, inner.cur, inner.line, d);
      }
    } else {
      CommentDepthMatches(src, cur + 1, if src[cur] == '\n' then line + 1 else line, d);
    }
  }

  /** In particular a block comment scanned from its opening ends exactly
      where the nesting counter first returns to zero. */
  lemma ScanCommentIsBalanced(src: seq<char>, cur: nat, line: nat)
    requires cur <= |src|
    ensures ScanComment(src, cur, line) == CommentDepth(src, cur, line, 1)
  {
    CommentDepthMatches(src, cur, line, 1);
  }

  /** The body of a string literal: up to the next `"` (not consumed) or
      the end of input, counting the line breaks it spans. */
  function StringEnd(src: seq<char>, cur: nat, line: nat): (r: (nat, nat))
    requires cur <= |src|
    ensures cur <= r.0 <= |src|
    ensures r.0 == |src| || src[r.0] == '"'
    ensures forall k :: cur <= k < r.0 ==> src[k] != '"'
    ensures r.1 == line + NewlinesIn(src, cur, r.0)
    decreases |src| - cur
  {
    if cur == |src| || src[cur] == '"' then (cur, line)
    else
      var r := StringEnd(src, cur + 1, if src[cur] == '\n' then line + 1 else line);
      NewlinesAdd(src, cur, cur + 1, r.0);
      r
  }

  /** The end of a run of decimal digits starting at `cur`. */
  function DigitsEnd(src: seq<char>, cur: nat): (e: nat)
    requires cur <= |src|
    ensures cur <= e <= |src|
    ensures forall k :: cur <= k < e ==> IsDigit(src[k])
    ensures e == |src| || !IsDigit(src[e])
    decreases |src| - cur
  {
    if cur < |src| && IsDigit(src[cur]) then DigitsEnd(src, cur + 1) else cur
  }

  /** The end of a run of identifier characters starting at `cur`. */
  function IdentEnd(src: seq<char>, cur: nat): (e: nat)
    requires cur <= |src|
    ensures cur <= e <= |src|
    ensures forall k :: cur <= k < e ==> IsAlphaNumeric(src[k])
    ensures e == |src| || !IsAlphaNumeric(src[e])
    decreases |src| - cur
  {
    if cur < |src| && IsAlphaNumeric(src[cur]) then IdentEnd(src, cur + 1) else cur
  }

  function Pow10(k: nat): (p: nat)
    ensures p >= 1
  {
    if k == 0 then 1 else 10 * Pow10(k - 1)
  }

  /** The exact decimal value of a number lexeme `whole` `.` `fraction`.
      The conversion to the nearest f64 is not modelled. */
  function DecimalValue(whole: string, fraction: string): real
    requires forall i :: 0 <= i < |whole| ==> IsDigit(whole[i])
    requires forall i :: 0 <= i < |fraction| ==> IsDigit(fraction[i])
  {
    DigitsValue(whole) as real + DigitsValue(fraction) as real / Pow10(|fraction|) as real
  }

  /** The end of a number lexeme whose first digit is at `start`: the
      integer digits, then `.` and more digits only if a digit follows the
      dot. */
  function NumberEnd(src: seq<char>, start: nat): (e: nat)
    requires start < |src| && IsDigit(src[start])
    ensures start < e <= |src|
  {
    var d := DigitsEnd(src, start + 1);
    if Matches(src, d, '.') && PeekNext(src, d).Some? && IsDigit(src[d + 1]) then DigitsEnd(src, d + 1)
    else d
  }

  /** The outcome of `scan_token` from `start`. */
  datatype Step = Step(cur: nat, line: nat, token: Option<Token>, error: Option<LoxError>)

  /** What every step guarantees: it consumes at least one character, the
      line advances by the line breaks consumed, and a token it emits is
      the consumed text on the line reached, never an end-of-input token,
      and never comes with an error. */
  ghost predicate WellFormedStep(src: seq<char>, start: nat, line: nat, r: Step)
    requires start < |src|
  {
    && start < r.cur <= |src|
    && r.line == line + NewlinesIn(src, start, r.cur)
    && (r.token.Some? ==> r.error.None?)
    && (r.token.Some? ==> r.token.value.lexeme == src[start..r.cur])
    && (r.token.Some? ==> r.token.value.line == r.line)
    && (r.token.Some? ==> r.token.value.kind != Eof)
  }

  /** The kind of a one- or two-character operator starting with `c`; the
      two-character form exactly when `=` follows. */
  function OperatorKind(c: char, withEqual: bool): TokenType
    requires c in "!=<>"
  {
    match c
    case '!' => if withEqual then BangEqual else Bang
    case '=' => if withEqual then Equal else Assign
    case '<' => if withEqual then LessEqual else Less
    case _ => if withEqual then GreaterEqual else Greater
  }

  function SingleCharKind(c: char): TokenType
    requires c in "(){},.-+;*"
  {
    match c
    case '(' => LeftParen
    case ')' => RightParen
    case '{' => LeftBrace
    case '}' => RightBrace
    case ',' => Comma
    case '.' => Dot
    case '-' => Minus
    case '+' => Plus
    case ';' => Semicolon
    case _ => Star
  }

  /** The kind an identifier lexeme gets: its keyword, or `Identifier`. */
  function WordKind(text: string): (k: TokenType)
    ensures text in Keywords ==> k == Keywords[text]
    ensures text !in Keywords ==> k == Identifier
  {
    if text in Keywords then Keywords[text] else Identifier
  }

  /** `!`, `=`, `<` or `>`, taking a following `=` into a two-character
      operator. */
  function ScanOperator(src: seq<char>, start: nat, line: nat): (r: Step)
    requires start < |src| && src[start] in "!=<>"
    ensures WellFormedStep(src, start, line, r)
    ensures r.cur == (if Matches(src, start + 1, '=') then start + 2 else start + 1)
    ensures r.token.Some? && r.token.value.kind == OperatorKind(src[start], Matches(src, start + 1, '='))
  {
    var two := Matches(src, start + 1, '=');
    var e := if two then start + 2 else start + 1;
    NoNewlines(src, start, e);
    Step(e, line, Some(MakeToken(src, start, e, OperatorKind(src[start], two), None, line)), None)
  }

  /** A `/`: a line comment, a (nested) block comment, or the `Slash`
      operator. Comments emit no token. */
  function ScanSlash(src: seq<char>, start: nat, line: nat): (r: Step)
    requires start < |src| && src[start] == '/'
    ensures WellFormedStep(src, start, line, r)
  {
    if Matches(src, start + 1, '/') then
      var e := LineCommentEnd(src, start + 2);
      NoNewlines(src, start, e);
      Step(e, line, None, None)
    else if Matches(src, start + 1, '*') then
      var r := ScanComment(src, start + 2, line);
      NoNewlines(src, start, start + 2);
      NewlinesAdd(src, start, start + 2, r.cur);
      if r.closed then Step(r.cur, r.line, None, None)
      else Step(r.cur, r.line, None, Some(NewError(r.line, "Unterminated block comment.")))
    else
      NoNewlines(src, start, start + 1);
      Step(start + 1, line, Some(MakeToken(src, start, start + 1, Slash, None, line)), None)
  }

  /** `string`: a literal from the opening quote at `start` to the next
      quote; unterminated when the input ends first. */
  function ScanString(src: seq<char>, start: nat, line: nat): (r: Step)
    requires start < |src| && src[start] == '"'
    ensures WellFormedStep(src, start, line, r)
  {
    var (e, l) := StringEnd(src, start + 1, line);
    NoNewlines(src, start, start + 1);
    NewlinesAdd(src, start, start + 1, e);
    if e == |src| then Step(e, l, None, Some(NewError(l, "Unterminated String")))
    else
      NoNewlines(src, e, e + 1);
      NewlinesAdd(src, start, e, e + 1);
      Step(e + 1, l, Some(MakeToken(src, start, e + 1, String, Some(Str(src[start + 1..e])), l)), None)
  }

  /** `number`: the lexeme up to `NumberEnd`, with its decimal value. */
  function ScanNumber(src: seq<char>, start: nat, line: nat): (r: Step)
    requires start < |src| && IsDigit(src[start])
    ensures WellFormedStep(src, start, line, r)
  {
    var e := NumberEnd(src, start);
    NoNewlines(src, start, e);
    Step(e, line, Some(MakeToken(src, start, e, Number, Some(Num(NumberValue(src, start, e))), line)), None)
  }

  /** `identifier`: a maximal run of identifier characters, given its
      keyword kind if it is one. */
  function ScanIdentifier(src: seq<char>, start: nat, line: nat): (r: Step)
    requires start < |src| && (IsAlpha(src[start]) || src[start] == '_')
    ensures WellFormedStep(src, start, line, r)
  {
    var e := IdentEnd(src, start + 1);
    NoNewlines(src, start, e);
    Step(e, line, Some(MakeToken(src, start, e, WordKind(src[start..e]), None, line)), None)
  }

  /** `scan_token`: consume one lexeme (or comment, or whitespace) starting
      at `start` on line `line`. */
  function ScanToken(src: seq<char>, start: nat, line: nat): (r: Step)
    requires start < |src|
    ensures WellFormedStep(src, start, line, r)
  {
    var c := src[start];
    if c in "(){},.-+;*" then
      NoNewlines(src, start, start + 1);
      Step(start + 1, line, Some(MakeToken(src, start, start + 1, SingleCharKind(c), None, line)), None)
    else if c in "!=<>" then ScanOperator(src, start, line)
    else if c == '/' then ScanSlash(src, start, line)
    else if c == ' ' || c == '\r' || c == '\t' then
      NoNewlines(src, start, start + 1);
      Step(start + 1, line, None, None)
    else if c == '\n' then
      assert NewlinesIn(src, start, start + 1) == 1;
      Step(start + 1, line + 1, None, None)
    else if c == '"' then ScanString(src, start, line)
    else if IsDigit(c) then ScanNumber(src, start, line)
    else if IsAlpha(c) || c == '_' then ScanIdentifier(src, start, line)
    else
      NoNewlines(src, start, start + 1);
      Step(start + 1, line, None, Some(NewError(line, "Unexpected character '" + [c] + "'")))
  }

  /** The literal value of the number lexeme `src[start..e]`. */
  function NumberValue(src: seq<char>, start: nat, e: nat): real
    requires start < |src| && IsDigit(src[start]) && e == NumberEnd(src, start)
  {
    var d := DigitsEnd(src, start + 1);
    if e == d then DecimalValue(src[start..d], [])
    else DecimalValue(src[start..d], src[d + 1..e])
  }

  /** A lexeme made of digits, dots and identifier characters spans no
      line break. */
  lemma {:induction false} NoNewlines(src: seq<char>, i: nat, j: nat)
    requires i <= j <= |src|
    requires forall k :: i <= k < j ==> src[k] != '\n'
    ensures NewlinesIn(src, i, j) == 0
    decreases j
  {
    if j > i {
      NoNewlines(src, i, j - 1);
    }
  }

  /** The whole scan: the tokens in source order, closed by one end-of-input
      token, and every error recorded on the way, in order. */
  datatype ScanOutput = ScanOutput(tokens: seq<Token>, errors: seq<LoxError>)

  function OptionToSeq<T>(o: Option<T>): seq<T> {
    if o.Some? then [o.value] else []
  }

  /** The `scan_tokens` loop from cursor `cur` on line `line`, with the
      tokens and errors gathered so far. */
  function ScanFrom(src: seq<char>, cur: nat, line: nat, tokens: seq<Token>, errors: seq<LoxError>): (r: ScanOutput)
    requires cur <= |src|
    ensures |r.tokens| > |tokens| && r.tokens[..|tokens|] == tokens
    ensures r.tokens[|r.tokens| - 1] == EofToken(line + NewlinesIn(src, cur, |src|))
    ensures forall i :: |tokens| <= i < |r.tokens| - 1 ==> r.tokens[i].kind != Eof
    ensures |r.errors| >= |errors| && r.errors[..|errors|] == errors
    decreases |src| - cur
  {
    if cur == |src| then ScanOutput(tokens + [EofToken(line)], errors)
    else
      var st := ScanToken(src, cur, line);
      var r := ScanFrom(src, st.cur, st.line, tokens + OptionToSeq(st.token), errors + OptionToSeq(st.error));
      NewlinesAdd(src, cur, st.cur, |src|);
      assert (tokens + OptionToSeq(st.token))[..|tokens|] == tokens;
      assert (errors + OptionToSeq(st.error))[..|errors|] == errors;
      r
  }

  /** Scanning from the start: line counting begins at 1. */
  function ScanAll(src: seq<char>): (r: ScanOutput)
    ensures |r.tokens| > 0
    ensures r.tokens[|r.tokens| - 1] == EofToken(1 + NewlinesIn(src, 0, |src|))
    ensures forall i :: 0 <= i < |r.tokens| - 1 ==> r.tokens[i].kind != Eof
  {
    ScanFrom(src, 0, 1, [], [])
  }

  datatype ScanResult = Tokens(tokens: seq<Token>) | Failed(error: LoxError)

  /** `scan_tokens`: the token list, or the last error recorded if any. */
  function ScanTokens(src: seq<char>): (r: ScanResult)
    ensures r.Failed? <==> |ScanAll(src).errors| > 0
    ensures r.Failed? ==> r.error == ScanAll(src).errors[|ScanAll(src).errors| - 1]
    ensures r.Tokens? ==> r.tokens == ScanAll(src).tokens
  {
    var out := ScanAll(src);
    if |out.errors| > 0 then Failed(out.errors[|out.errors| - 1]) else Tokens(out.tokens)
  }
}

=== FILE: scanner_lemmas.dfy ===
/** Properties of the scanner: what each kind of lexeme produces, and what
    the whole scan guarantees. */
module ScannerLemmas {
  import opened Tokens
  import opened Ast
  import opened Errors
  import opened Numerals
  import opened Scanner
  import opened Display

  /** The token list ends with exactly one end-of-input token, on the line
      reached after every line break of the source, errors or not. */
  lemma EofClosesScan(src: seq<char>)
    ensures var toks := ScanAll(src).tokens;
            && toks[|toks| - 1].kind == Eof
            && toks[|toks| - 1].line == 1 + NewlinesIn(src, 0, |src|)
            && (forall i :: 0 <= i < |toks| - 1 ==> toks[i].kind != Eof)
  {
  }

  /** A character no rule accepts is reported on the current line, and the
      scan goes on from the very next character with that error recorded. */
  lemma BadCharacterDoesNotStopScan(src: seq<char>, cur: nat, line: nat, toks: seq<Token>, errs: seq<LoxError>)
    requires cur < |src|
    requires var c := src[cur];
             c !in "(){},.-+;*!=<>/ \r\t\n\"" && !IsDigit(c) && !IsAlpha(c) && c != '_'
    ensures ScanFrom(src, cur, line, toks, errs) ==
            ScanFrom(src, cur + 1, line, toks, errs + [NewError(line, "Unexpected character '" + [src[cur]] + "'")])
  {
    var err := NewError(line, "Unexpected character '" + [src[cur]] + "'");
    BadCharacterStep(src, cur, line);
    assert toks + OptionToSeq(None) == toks;
    assert OptionToSeq(Some(err)) == [err];
  }

  /** The step for a character no rule accepts: one character consumed,
      no token, the error. */
  lemma BadCharacterStep(src: seq<char>, cur: nat, line: nat)
    requires cur < |src|
    requires var c := src[cur];
             c !in "(){},.-+;*!=<>/ \r\t\n\"" && !IsDigit(c) && !IsAlpha(c) && c != '_'
    ensures ScanToken(src, cur, line) ==
            Step(cur + 1, line, None, Some(NewError(line, "Unexpected character '" + [src[cur]] + "'")))
  {
  }

  /** Every error a step reports is kept: the scan's error list extends
      whatever was recorded before, and a step that fails puts its error
      right after the earlier ones. */
  lemma StepErrorIsRecorded(src: seq<char>, cur: nat, line: nat, toks: seq<Token>, errs: seq<LoxError>)
    requires cur < |src|
    requires ScanToken(src, cur, line).error.Some?
    ensures var r := ScanFrom(src, cur, line, toks, errs);
            |r.errors| > |errs| && r.errors[|errs|] == ScanToken(src, cur, line).error.value
  {
    var st := ScanToken(src, cur, line);
    var r := ScanFrom(src, st.cur, st.line, toks + OptionToSeq(st.token), errs + [st.error.value]);
    assert r.errors[..|errs| + 1] == errs + [st.error.value];
    assert r.errors[|errs|] == r.errors[..|errs| + 1][|errs|];
  }

  /** The scan from cursor `cur` on line `line` takes a step at cursor `c`
      on line `l`. */
  ghost predicate StepsAt(src: seq<char>, cur: nat, line: nat, c: nat, l: nat)
    requires cur <= |src|
    decreases |src| - cur
  {
    && cur < |src|
    && ((c == cur && l == line) ||
        var st := ScanToken(src, cur, line);
        StepsAt(src, st.cur, st.line, c, l))
  }

  /** Some step of the scan from cursor `cur` on line `line` fails. */
  ghost predicate SomeStepFails(src: seq<char>, cur: nat, line: nat)
    requires cur <= |src|
  {
    exists c: nat, l: nat :: StepsAt(src, cur, line, c, l) && c < |src| && ScanToken(src, c, l).error.Some?
  }

  /** The scan records an error exactly when one of its steps fails. */
  lemma {:induction false} ScanFromFailsIffStepFails(src: seq<char>, cur: nat, line: nat, toks: seq<Token>, errs: seq<LoxError>)
    requires cur <= |src|
    ensures |ScanFrom(src, cur, line, toks, errs).errors| > |errs| <==> SomeStepFails(src, cur, line)
    decreases |src| - cur
  {
    if cur < |src| {
      var st := ScanToken(src, cur, line);
      var errs' := errs + OptionToSeq(st.error);
      ScanFromFailsIffStepFails(src, st.cur, st.line, toks + OptionToSeq(st.token), errs');
      if st.error.Some? {
        StepErrorIsRecorded(src, cur, line, toks, errs);
        assert StepsAt(src, cur, line, cur, line);
      } else {
        assert errs' == errs;
        if |ScanFrom(src, cur, line, toks, errs).errors| > |errs| {
          var c: nat, l: nat :| StepsAt(src, st.cur, st.line, c, l) && c < |src| && ScanToken(src, c, l).error.Some?;
          assert StepsAt(src, cur, line, c, l);
        }
        if SomeStepFails(src, cur, line) {
          var c: nat, l: nat :| StepsAt(src, cur, line, c, l) && c < |src| && ScanToken(src, c, l).error.Some?;
          assert StepsAt(src, st.cur, st.line, c, l);
        }
      }
    }
  }

  /** `scan_tokens` fails exactly when some step of the scan fails, with
      the last error recorded; when it succeeds, the list ends with the
      one end-of-input token on the line after every line break. */
  lemma ScanTokensVerdict(src: seq<char>)
    ensures ScanTokens(src).Failed? <==> SomeStepFails(src, 0, 1)
    ensures ScanTokens(src).Tokens? ==>
              var t := ScanTokens(src).tokens;
              && |t| > 0
              && t[|t| - 1] == EofToken(1 + NewlinesIn(src, 0, |src|))
              && forall i :: 0 <= i < |t| - 1 ==> t[i].kind != Eof
  {
    ScanFromFailsIffStepFails(src, 0, 1, [], []);
    ScanAllEndsWithEof(src);
    EofClosesScan(src);
    ClosedTokensCarryOver(ScanTokens(src), ScanAll(src), 1 + NewlinesIn(src, 0, |src|));
  }

  /** The scan output's last token is the end-of-input token itself. */
  lemma ScanAllEndsWithEof(src: seq<char>)
    ensures |ScanAll(src).tokens| > 0
    ensures ScanAll(src).tokens[|ScanAll(src).tokens| - 1] == EofToken(1 + NewlinesIn(src, 0, |src|))
  {
  }

  /** A result that hands on the token list of a closed scan output is
      closed the same way. */
  lemma ClosedTokensCarryOver(r: ScanResult, out: ScanOutput, line: nat)
    requires r.Tokens? ==> r.tokens == out.tokens
    requires |out.tokens| > 0 && out.tokens[|out.tokens| - 1] == EofToken(line)
    requires forall i :: 0 <= i < |out.tokens| - 1 ==> out.tokens[i].kind != Eof
    ensures r.Tokens? ==>
              var t := r.tokens;
              && |t| > 0
              && t[|t| - 1] == EofToken(line)
              && forall i :: 0 <= i < |t| - 1 ==> t[i].kind != Eof
  {
  }

  /** A source whose first character no rule accepts fails to scan. */
  lemma BadFirstCharacterFails(src: seq<char>)
    requires |src| > 0
    requires var c := src[0];
             c !in "(){},.-+;*!=<>/ \r\t\n\"" && !IsDigit(c) && !IsAlpha(c) && c != '_'
    ensures ScanTokens(src).Failed?
  {
    BadCharacterStep(src, 0, 1);
    assert StepsAt(src, 0, 1, 0, 1);
    ScanTokensVerdict(src);
  }

  /** `!`, `=`, `<`, `>` take the two-character kind exactly when `=`
      follows, consuming it; otherwise the one-character kind. */
  lemma OperatorsWithEqual(src: seq<char>, start: nat, line: nat)
    requires start < |src| && src[start] in "!=<>"
    ensures var r := ScanToken(src, start, line);
            var two := start + 1 < |src| && src[start + 1] == '=';
            && r.token.Some? && r.error.None?
            && r.cur == (if two then start + 2 else start + 1)
            && r.token.value.kind == OperatorKind(src[start], two)
            && (two <==> r.token.value.kind in {BangEqual, Equal, LessEqual, GreaterEqual})
  {
  }

  /** A `//` comment runs up to, not including, the next line break and
      emits nothing. */
  lemma LineCommentSkipsToNewline(src: seq<char>, start: nat, line: nat)
    requires start + 1 < |src| && src[start] == '/' && src[start + 1] == '/'
    ensures var r := ScanToken(src, start, line);
            && r.token.None? && r.error.None? && r.line == line
            && (r.cur == |src| || src[r.cur] == '\n')
            && (forall k :: start <= k < r.cur ==> src[k] != '\n')
  {
  }

  /** A block comment emits nothing, ends where the nesting counter first
      returns to zero, and fails with "Unterminated block comment." on the
      last line when the input ends inside it. */
  lemma BlockCommentNests(src: seq<char>, start: nat, line: nat)
    requires start + 1 < |src| && src[start] == '/' && src[start + 1] == '*'
    ensures var r := ScanToken(src, start, line);
            var d := CommentDepth(src, start + 2, line, 1);
            && r.token.None?
            && r.cur == d.cur && r.line == d.line
            && r.line == line + NewlinesIn(src, start, r.cur)
            && (r.error.Some? <==> !d.closed)
            && (r.error.Some? ==> r.error.value == NewError(r.line, "Unterminated block comment.") && r.cur == |src|)
  {
    ScanCommentIsBalanced(src, start + 2, line);
  }

  /** A string literal's value is exactly the text between the quotes and
      its lexeme includes them; it may span lines. Without a closing quote
      it is an "Unterminated String" error on the last line. */
  lemma StringLiteral(src: seq<char>, start: nat, line: nat)
    requires start < |src| && src[start] == '"'
    ensures var r := ScanToken(src, start, line);
            && r.line == line + NewlinesIn(src, start, r.cur)
            && (r.token.Some? ==>
                  && r.cur >= start + 2 && src[r.cur - 1] == '"'
                  && (forall k :: start < k < r.cur - 1 ==> src[k] != '"')
                  && r.token.value == Token(String, src[start..r.cur], Some(Str(src[start + 1..r.cur - 1])), r.line))
            && (r.token.None? <==> forall k :: start < k < |src| ==> src[k] != '"')
            && (r.token.None? ==> r.error == Some(NewError(r.line, "Unterminated String")) && r.cur == |src|)
  {
    var r := ScanToken(src, start, line);
    assert r == ScanString(src, start, line);
    var (e, l) := StringEnd(src, start + 1, line);
    if e < |src| {
      assert src[e] == '"';
    }
  }

  /** A scanned string literal displays as the text between its quotes,
      and its token as `String`, the quoted lexeme and that text. */
  lemma StringLiteralDisplays(src: seq<char>, start: nat, line: nat, numText: real -> string)
    requires start < |src| && src[start] == '"'
    ensures var r := ScanToken(src, start, line);
            r.token.Some? ==>
              && LiteralText(r.token.value.literal, numText) == src[start + 1..r.cur - 1]
              && TokenText(r.token.value, numText) == "String " + src[start..r.cur] + " " + src[start + 1..r.cur - 1]
  {
    StringLiteral(src, start, line);
  }

  /** A number lexeme is a run of digits, followed by `.` and more digits
      only when a digit comes right after the dot; it is maximal, and its
      value is the decimal value of that text. */
  lemma NumberLexeme(src: seq<char>, start: nat, line: nat)
    requires start < |src| && IsDigit(src[start])
    ensures var r := ScanToken(src, start, line);
            var d := DigitsEnd(src, start);
            && r.token.Some? && r.token.value.kind == Number && r.line == line
            && (forall k :: start <= k < d ==> IsDigit(src[k]))
            && (d == |src| || !IsDigit(src[d]))
            && (r.cur == d <==> !(d + 1 < |src| && src[d] == '.' && IsDigit(src[d + 1])))
            && (r.cur != d ==>
                  && r.token.value.literal == Some(Num(DecimalValue(src[start..d], src[d + 1..r.cur])))
                  && (forall k :: d < k < r.cur ==> IsDigit(src[k]))
                  && (r.cur == |src| || !IsDigit(src[r.cur])))
            && (r.cur == d ==> r.token.value.literal == Some(Num(DigitsValue(src[start..d]) as real)))
  {
    assert DigitsEnd(src, start) == DigitsEnd(src, start + 1);
  }

  /** A dot with no digit after it is not part of a number: `1.` scans as
      a number token for `1`, then a `Dot` token for the dot. */
  lemma {:induction false} TrailingDotIsSeparate(src: seq<char>, start: nat, line: nat)
    requires start < |src| && IsDigit(src[start])
    requires var d := DigitsEnd(src, start);
             d < |src| && src[d] == '.' && (d + 1 == |src| || !IsDigit(src[d + 1]))
    ensures var d := DigitsEnd(src, start);
            var r := ScanToken(src, start, line);
            && r.cur == d
            && r.token == Some(Token(Number, src[start..d], Some(Num(DigitsValue(src[start..d]) as real)), line))
            && ScanToken(src, d, r.line).token == Some(Token(Dot, ".", None, line))
  {
    var d := DigitsEnd(src, start);
    NumberLexeme(src, start, line);
    assert src[d..d + 1] == ".";
  }

  /** An identifier is a maximal run of identifier characters beginning with
      a letter or `_`; it gets a keyword kind exactly when its text is in
      the keyword table. */
  lemma IdentifierOrKeyword(src: seq<char>, start: nat, line: nat)
    requires start < |src| && (IsAlpha(src[start]) || src[start] == '_')
    ensures var r := ScanToken(src, start, line);
            var text := src[start..r.cur];
            && r.token.Some? && r.token.value.lexeme == text && r.line == line
            && (forall k :: start <= k < r.cur ==> IsAlphaNumeric(src[k]))
            && (r.cur == |src| || !IsAlphaNumeric(src[r.cur]))
            && (text in Keywords <==> r.token.value.kind != Identifier)
            && (text in Keywords ==> r.token.value.kind == Keywords[text])
  {
    var r := ScanToken(src, start, line);
    var text := src[start..r.cur];
    assert Identifier !in Keywords.Values;
    if text in Keywords {
      assert Keywords[text] in Keywords.Values;
    }
  }

  /** Whitespace emits no token; a line break only advances the line. */
  lemma WhitespaceEmitsNothing(src: seq<char>, start: nat, line: nat)
    requires start < |src| && src[start] in " \r\t\n"
    ensures var r := ScanToken(src, start, line);
            && r.token.None? && r.error.None? && r.cur == start + 1
            && r.line == (if src[start] == '\n' then line + 1 else line)
  {
  }

  /** Every token the scan emits is a piece of the source: the text from
      where its step started to where it stopped. */
  lemma TokenIsSourceSlice(src: seq<char>, start: nat, line: nat)
    requires start < |src|
    requires ScanToken(src, start, line).token.Some?
    ensures var r := ScanToken(src, start, line);
            r.token.value.lexeme == src[start..r.cur] && r.token.value.line == r.line
  {
  }
}

=== FILE: scopes.dfy ===
/** The environment chain as a stack of scopes, innermost last. Entering a
    block pushes a fresh scope; leaving it drops that scope again. Chain
    lookup and chain assignment are written after the interface the
    evaluator calls (`new_with_enclosing`, `get` through enclosing scopes,
    `assign`); the shown table itself has neither an enclosing link nor
    `assign`. */
module Scopes {
  import opened Ast
  import opened Errors
  import opened Environments

  type Scopes = s: seq<Environment> | |s| > 0 witness [New()]

  /** `new_with_enclosing`: a child scope of the current innermost one. */
  function Push(s: Scopes, e: Environment): (r: Scopes)
    ensures |r| == |s| + 1 && r[..|s|] == s && r[|s|] == e
  {
    s + [e]
  }

  /** Index of the innermost scope binding `name`, if any. */
  function Find(s: seq<Environment>, name: string): (r: Option<nat>)
    ensures r.Some? ==> r.value < |s| && name in s[r.value].values
    ensures r.Some? ==> forall j :: r.value < j < |s| ==> name !in s[j].values
    ensures r.None? ==> forall j :: 0 <= j < |s| ==> name !in s[j].values
  {
    if |s| == 0 then None
    else if name in s[|s| - 1].values then Some(|s| - 1)
    else Find(s[..|s| - 1], name)
  }

  /** Chain `get`: the innermost binding wins; if no scope binds the name,
      the undefined-variable error on the token's line. */
  function Lookup(s: Scopes, name: Token): (r: Result<Object>)
    ensures r.Ok? <==> exists j :: 0 <= j < |s| && name.lexeme in s[j].values
    ensures r.Ok? ==> exists j :: 0 <= j < |s| && name.lexeme in s[j].values && r.value == s[j].values[name.lexeme]
                         && forall k :: j < k < |s| ==> name.lexeme !in s[k].values
    ensures r.Err? ==> r.error == NewError(name.line, UndefinedMessage(name.lexeme))
  {
    match Find(s, name.lexeme)
    case Some(j) => Ok(s[j].values[name.lexeme])
    case None => Err(NewError(name.line, UndefinedMessage(name.lexeme)))
  }

  /** Chain `assign`: overwrite the innermost existing binding; never creates
      one, and fails with the undefined-variable error when none exists. */
  function AssignIn(s: Scopes, name: Token, value: Object): (r: Result<Scopes>)
    ensures r.Ok? <==> exists j :: 0 <= j < |s| && name.lexeme in s[j].values
    ensures r.Ok? ==> |r.value| == |s|
    ensures r.Ok? ==> forall j :: 0 <= j < |s| ==> r.value[j].values.Keys == s[j].values.Keys
    ensures r.Ok? ==> Lookup(r.value, name) == Ok(value)
    ensures r.Ok? ==> Find(s, name.lexeme).Some?
    ensures r.Ok? ==> var j := Find(s, name.lexeme).value;
                      && r.value[j].values[name.lexeme] == value
                      && forall k, x :: 0 <= k < |s| && x in s[k].values && (k != j || x != name.lexeme) ==>
                           r.value[k].values[x] == s[k].values[x]
    ensures r.Err? ==> r.error == NewError(name.line, UndefinedMessage(name.lexeme))
  {
    match Find(s, name.lexeme)
    case Some(j) =>
      var updated: Scopes := s[j := Define(s[j], name.lexeme, value)];
      Ok(updated)
    case None => Err(NewError(name.line, UndefinedMessage(name.lexeme)))
  }

  /** `define` on the current scope. */
  function DefineLocal(s: Scopes, name: string, value: Object): (r: Scopes)
    ensures |r| == |s|
    ensures r[..|s| - 1] == s[..|s| - 1]
    ensures r[|s| - 1].values.Keys == s[|s| - 1].values.Keys + {name}
    ensures r[|s| - 1].values[name] == value
    ensures var before, after := s[|s| - 1].values, r[|s| - 1].values;
            forall x :: x in before && x != name ==> after[x] == before[x]
  {
    s[|s| - 1 := Define(s[|s| - 1], name, value)]
  }

  /** Every scope keeps exactly the names it had. */
  ghost predicate SameNames(a: seq<Environment>, b: seq<Environment>) {
    |a| == |b| && forall j :: 0 <= j < |a| ==> a[j].values.Keys == b[j].values.Keys
  }

  /** Outer scopes keep exactly their names; the innermost may gain some. */
  ghost predicate GrowsInnermost(a: Scopes, b: Scopes) {
    && |a| == |b|
    && (forall j :: 0 <= j < |a| - 1 ==> a[j].values.Keys == b[j].values.Keys)
    && a[|a| - 1].values.Keys <= b[|b| - 1].values.Keys
  }

  /** A defined local is what lookup finds, whatever outer scopes hold. */
  lemma DefineLocalShadows(s: Scopes, name: Token, value: Object)
    ensures Lookup(DefineLocal(s, name.lexeme, value), name) == Ok(value)
  {
    var r := DefineLocal(s, name.lexeme, value);
    assert name.lexeme in r[|r| - 1].values;
  }

  /** Assigning to a name bound in an outer scope changes that outer binding:
      no new local is created, and after the inner scope is dropped the new
      value is still visible. */
  lemma AssignReachesOuter(s: Scopes, inner: Environment, name: Token, value: Object)
    requires name.lexeme !in inner.values
    requires exists j :: 0 <= j < |s| && name.lexeme in s[j].values
    ensures var r := AssignIn(Push(s, inner), name, value);
            && r.Ok?
            && r.value[|s|] == inner
            && Lookup(r.value[..|s|], name) == Ok(value)
  {
    var p := Push(s, inner);
    var j :| 0 <= j < |s| && name.lexeme in s[j].values;
    assert name.lexeme in p[j].values;
    var r := AssignIn(p, name, value);
    var k := Find(p, name.lexeme).value;
    assert k < |s|;
    assert r.value == p[k := Define(p[k], name.lexeme, value)];
    assert r.value[..|s|] == s[k := Define(s[k], name.lexeme, value)];
    FindPrefix(p, name.lexeme);
  }

  /** Find on a stack whose top lacks the name is Find on the rest. */
  lemma FindPrefix(p: seq<Environment>, name: string)
    requires |p| > 0 && name !in p[|p| - 1].values
    ensures Find(p, name) == Find(p[..|p| - 1], name)
  {
  }
}

=== FILE: tokens.dfy ===
/** Token kinds of the language: punctuation, one- and two-character
    operators, literal kinds, the sixteen keywords and end of input. */
module Tokens {

  datatype TokenType =
    // single-character tokens
    | LeftParen | RightParen | LeftBrace | RightBrace
    | Comma | Dot | Minus | Plus | Semicolon | Slash | Star
    // one- or two-character tokens; `Assign` is `=`, `Equal` is `==`
    | Bang | BangEqual | Assign | Equal
    | Greater | GreaterEqual | Less | LessEqual
    // literals
    | Identifier | String | Number
    // keywords
    | And | Class | Else | False | Fun | For | If | Nil | Or
    | Print | Return | Super | This | True | Var | While
    | Eof

  /** The name the derived `Debug` formatting prints for a kind: the
      variant's own identifier. */
  function KindName(k: TokenType): (r: string)
    ensures |r| > 0
  {
    match k
    case LeftParen => "LeftParen"
    case RightParen => "RightParen"
    case LeftBrace => "LeftBrace"
    case RightBrace => "RightBrace"
    case Comma => "Comma"
    case Dot => "Dot"
    case Minus => "Minus"
    case Plus => "Plus"
    case Semicolon => "Semicolon"
    case Slash => "Slash"
    case Star => "Star"
    case Bang => "Bang"
    case BangEqual => "BangEqual"
    case Assign => "Assign"
    case Equal => "Equal"
    case Greater => "Greater"
    case GreaterEqual => "GreaterEqual"
    case Less => "Less"
    case LessEqual => "LessEqual"
    case Identifier => "Identifier"
    case String => "String"
    case Number => "Number"
    case And => "And"
    case Class => "Class"
    case Else => "Else"
    case False => "False"
    case Fun => "Fun"
    case For => "For"
    case If => "If"
    case Nil => "Nil"
    case Or => "Or"
    case Print => "Print"
    case Return => "Return"
    case Super => "Super"
    case This => "This"
    case True => "True"
    case Var => "Var"
    case While => "While"
    case Eof => "Eof"
  }

  /** The kind a debug name stands for: the inverse of `KindName`. It
      looks only at the length and at the characters that tell the names
      of that length apart; texts of other lengths read as `Eof`. */
  function KindOfName(s: string): TokenType {
    if |s| == 2 then (if s[0] == 'I' then If else Or)
    else if |s| == 3 then (if s[0] == 'D' then Dot else if s[0] == 'A' then And else if s[0] == 'F' then (if s[1] == 'u' then Fun else For) else if s[0] == 'N' then Nil else if s[0] == 'V' then Var else Eof)
    else if |s| == 4 then (if s[0] == 'P' then Plus else if s[0] == 'S' then Star else if s[0] == 'B' then Bang else if s[0] == 'L' then Less else if s[0] == 'E' then Else else (if s[1] == 'h' then This else True))
    else if |s| == 5 then (if s[1] == 'o' then Comma else if s[1] == 'i' then Minus else if s[1] == 'l' then (if s[0] == 'S' then Slash else Class) else if s[1] == 'q' then Equal else if s[1] == 'a' then False else if s[1] == 'r' then Print else if s[1] == 'u' then Super else While)
    else if |s| == 6 then (if s[0] == 'A' then Assign else if s[0] == 'S' then String else if s[0] == 'N' then Number else Return)
    else if |s| == 7 then Greater
    else if |s| == 9 then (if s[2] == 'f' then (if s[4] == 'P' then LeftParen else LeftBrace) else if s[2] == 'm' then Semicolon else if s[2] == 'n' then BangEqual else LessEqual)
    else if |s| == 10 then (if s[5] == 'P' then RightParen else if s[5] == 'B' then RightBrace else Identifier)
    else if |s| == 12 then GreaterEqual
    else Eof
  }

  /** Reading a kind's name back gives the kind. */
  lemma KindNameRoundTrip(k: TokenType)
    ensures KindOfName(KindName(k)) == k
  {
    match k
    case LeftParen =>
    case RightParen =>
    case LeftBrace =>
    case RightBrace =>
    case Comma =>
    case Dot =>
    case Minus =>
    case Plus =>
    case Semicolon =>
    case Slash =>
    case Star =>
    case Bang =>
    case BangEqual =>
    case Assign =>
    case Equal =>
    case Greater =>
    case GreaterEqual =>
    case Less =>
    case LessEqual =>
    case Identifier =>
    case String =>
    case Number =>
    case And =>
    case Class =>
    case Else =>
    case False =>
    case Fun =>
    case For =>
    case If =>
    case Nil =>
    case Or =>
    case Print =>
    case Return =>
    case Super =>
    case This =>
    case True =>
    case Var =>
    case While =>
    case Eof =>
  }

  /** Distinct kinds print under distinct names, so a token's display
      identifies its kind. */
  lemma KindNameInjective(a: TokenType, b: TokenType)
    requires KindName(a) == KindName(b)
    ensures a == b
  {
    KindNameRoundTrip(a);
    KindNameRoundTrip(b);
  }
}
